=== FILE: README.md ===
# TradeManagement order-matching core in Dafny

This project models the order-matching core of the TradeManagement
exchange backend and proves properties of the model:

- orders and their quantity/status state machine;
- immutable trades and their fees;
- FIFO price levels;
- the two-sided order book with its best-bid/offer manager;
- the matching engine, with its MARKET, LIMIT, IOC and FOK strategies;
- the input validators and order-service request checks;
- two display helpers.

Representations:

- **Prices and quantities.** These are exact decimals in the source. The model uses `real`.
- **Ids.** Order ids (UUIDs) are natural numbers.
- **Values and classes.**
  - Orders, trades, price levels and book sides are datatypes.
  - The order book, the BBO manager and the engine are classes whose methods change their fields.
- **Errors.** A raised exception is the `Err`/`Fail` case of a `Result`/`Outcome`. It carries the exception class of `backend/utils/exceptions.py` (or `ValueError`) and which check failed.

Structure:

- **The book.** It owns every order in its registry, a map from id to order. A price level queues order ids. This is how the source's level deque and registry share one `Order` object. A fill is written back into the registry entry.
- **Each side.** A side is the source's `SortedDict`: a map from price to level, plus its keys in iteration order. That order is highest first for bids and lowest first for asks.
- **The matcher.** It is proved against an independent specification in `Matching`:
  - `Queue` lays a side out best price first, oldest first within a price;
  - `Plan` is the fills a taker gets by walking that queue up to its limit;
  - `Rest` is the queue the plan leaves behind.

  `_fill_against_book`, the FOK feasibility scan and the FOK execution each produce exactly `Plan` and leave exactly `Rest`. The book stays uncrossed after every submission.

Files, one per source file plus shared helpers:

| file | source file |
|---|---|
| `order.dfy` | `backend/core/order.py` |
| `trade.dfy` | `backend/core/trade.py` |
| `price_level.dfy` | `backend/core/price_level.py` |
| `book_side.dfy`, `order_book.dfy` | `backend/core/order_book.py` |
| `bbo_manager.dfy` | `backend/core/bbo_manager.py` |
| `matching_plan.dfy`, `matching_engine.dfy`, `results.dfy` | `backend/core/matching_engine.py` |
| `validators.dfy` | `backend/utils/validators.py` |
| `order_service.dfy` | `backend/services/order_service.py` |
| `formatters.dfy` | `frontend/utils/formatters.py` |

The helper files:

- `errors.dfy`: the exception hierarchy.
- `wrappers.dfy`: Option, Result and Outcome.
- `text.dfy`: Python's `strip`, `upper` and `lower`.
- `seqs.dfy`: sequence facts.

## Model

| member | source | states |
|---|---|---|
| Orders.Validate | backend/core/order.py:97-122 | passes exactly when quantity > 0, 0 <= filled <= quantity, LIMIT/IOC/FOK carry a price > 0 and the symbol is not blank; a non-positive quantity is the error reported first; every failure is a ValueError |
| Orders.NewOrderAsWritten | backend/core/order.py:84-95 | the constructor as written: remaining is set to quantity whatever filled was passed, then `validate` runs |
| Orders.AsWrittenConstructorOverfills | backend/core/order.py:91-92 | with filled 4 of quantity 10 the constructor accepts an unbalanced order, and a fill of its whole remaining 10 is accepted and leaves filled 14, remaining -4 |
| Orders.NewOrder | backend/core/order.py:84-95 | corrected constructor: accepted exactly when `validate` passes; the order is balanced (filled + remaining = quantity, neither negative), remaining = quantity - filled, the other fields as given |
| Orders.DefaultConstruction | backend/core/order.py:84-95 | with the default status and filled quantity both constructors build the same order: PENDING, nothing filled, everything remaining |
| Orders.IsMarketable | backend/core/order.py:124-146 | MARKET is always marketable; a priced buy exactly when a best ask exists at or below its price; a priced sell exactly when a best bid exists at or above it; a non-market order without a price never |
| Orders.UpdateFill | backend/core/order.py:160-186 | rejects a fill <= 0 and one above the remainder; otherwise filled grows by the fill, remaining = quantity - filled, and only filled, remaining and status change |
| Orders.CanFillIffFillAccepted | backend/core/order.py:148-176 | `can_fill_quantity(q)` holds exactly when `update_fill(q)` is accepted |
| Orders.FillKeepsBalance | backend/core/order.py:179-186 | a fill of a balanced order keeps it balanced, takes the fill off the remainder, and leaves it FILLED exactly when nothing remains, PARTIAL exactly when something does, active exactly when not fully filled |
| Orders.CanFillQuantity | backend/core/order.py:148-158 | a quantity that can be filled is positive and, on a balanced order, at most the order's quantity; nothing can be filled once nothing remains |
| Orders.IsFullyFilled | backend/core/order.py:188-191 | on a balanced order, fully filled exactly when the whole quantity is filled |
| Orders.IsActive | backend/core/order.py:203-206 | an order is active exactly when it is not FILLED, CANCELLED or REJECTED |
| Trades.NewTrade | backend/core/trade.py:49-69 | construction succeeds exactly for price > 0, quantity > 0, non-negative fees and a non-blank symbol; a bad price is reported before a bad quantity |
| Trades.TotalValue | backend/core/trade.py:71-74 | the value of every accepted trade is positive |
| Trades.TotalValueSplits | backend/core/trade.py:71-74 | the value is additive in the quantity: two trades at one price are worth one trade of their combined quantity |
| Trades.MakerIsBuyer | backend/core/trade.py:76-79 | the maker is the buyer exactly when the aggressor is not |
| Trades.TakerIsBuyer | backend/core/trade.py:76-84 | exactly one of maker and taker is the buyer |
| Trades.CalculateFees | backend/core/trade.py:86-104 | equal rates give equal maker and taker fees, and a zero rate gives a zero fee |
| Trades.FeesFollowRates | backend/core/trade.py:86-104 | for positive price and quantity and non-negative rates both fees are non-negative, and when the maker rate is at most the taker rate so is the maker fee |
| Trades.DefaultFeesOnHundredThousand | backend/core/trade.py:86-104 | with the default rates 0.001 and 0.002 a trade worth 100000 pays fees (100, 200) |
| PriceLevels.NewLevel | backend/core/price_level.py:30-41 | a new level is empty and consistent, at the given price and side |
| PriceLevels.AddOrder | backend/core/price_level.py:43-67 | refuses exactly an order of another price or side or an id already queued (ValueError); otherwise appends the id at the tail, keeping the queue before it and keeping the level consistent |
| PriceLevels.FifoAfterAdd | backend/core/price_level.py:66-67 | an added order is popped after every order already queued |
| PriceLevels.RemoveOrder | backend/core/price_level.py:69-95 | an unknown id gives None and the same level; a queued id leaves queue and id map, the other orders keeping their relative order |
| PriceLevels.GetNextOrder | backend/core/price_level.py:97-106 | None exactly on an empty level, otherwise the head of the queue |
| PriceLevels.PopNextOrder | backend/core/price_level.py:108-120 | None on an empty level; otherwise the head, and the level keeps the rest of the queue and drops the head from its id map |
| PriceLevels.DrainIsQueueOrder | backend/core/price_level.py:108-120 | popping until empty hands the orders out exactly in queue order |
| PriceLevels.TotalVolume | backend/core/price_level.py:122-143 | an empty level has volume 0, and a level holding one order has that order's remainder |
| PriceLevels.VolumePositiveIffNonEmpty | backend/core/price_level.py:122-143 | the volume is non-negative, and positive exactly when the level is not empty, when every queued order has something left |
| PriceLevels.VolumeAfterAdd | backend/core/price_level.py:122-129 | adding an order raises the volume by its remainder |
| PriceLevels.VolumeAfterRemove | backend/core/price_level.py:122-129 | removing a queued order lowers the volume by its remainder |
| PriceLevels.OrderCount | backend/core/price_level.py:145-148 | the count is zero exactly on an empty level, and equals the size of the id map on a consistent level |
| PriceLevels.IndexCountMatches | backend/core/price_level.py:40-41 | on a consistent level the deque and the id map hold the same number of orders |
| BookSides.Best | backend/core/order_book.py:175-188 | None exactly on an empty side, otherwise the first key |
| BookSides.BestIsBest | backend/core/order_book.py:49-52 | on a well-shaped side the first key is a level price better than every other one (highest bid, lowest ask) |
| BookSides.InsertPriceSorted | backend/core/order_book.py:49-52 | inserting a new price keeps the keys in priority order |
| BookSides.PutLevelShaped | backend/core/order_book.py:287-291 | storing a level under a price keeps the side well shaped |
| BookSides.BestAfterPut | backend/core/order_book.py:283-291 | after a level is put at p, the best price is p when the side was empty or p beats the old best, and the old best otherwise |
| BookSides.DeleteLevelShaped | backend/core/order_book.py:316-323 | deleting a price keeps the side well shaped |
| BookSides.DeleteBest | backend/core/order_book.py:316-323 | deleting the best level makes the next key the best; deleting any other level leaves the best price |
| BookSides.KeysDeterminePrices | backend/core/order_book.py:49-52 | on a well-shaped side the key order is determined by the set of prices |
| Bbo.QuoteOf | backend/core/bbo_manager.py:70-83 | spread and mid price are present exactly when both best prices are |
| Bbo.QuoteMeaning | backend/core/bbo_manager.py:70-75 | when bid <= ask the spread is ask - bid >= 0 and the mid price lies between them, as far from each |
| Bbo.Calls | backend/core/bbo_manager.py:138-146 | one call per observer, in registration order, with the current quote |
| Bbo.BBOManager.constructor | backend/core/bbo_manager.py:27-49 | both quotes empty, no updates, no observers |
| Bbo.BBOManager.HasChanged | backend/core/bbo_manager.py:106-117 | a change is reported only when the current quote differs from the previous one |
| Bbo.BBOManager.UpdateBBO | backend/core/bbo_manager.py:51-95 | previous is the old current, current is the new quote, the count grows by one; the result is true exactly when the best bid or best ask moved, and only then are the observers called |
| Bbo.BBOManager.GetBBO | backend/core/bbo_manager.py:97-104 | returns the current quote as a value, so a caller cannot change the manager |
| Bbo.BBOManager.RegisterObserver | backend/core/bbo_manager.py:118-126 | appends an observer not yet registered, never a duplicate |
| Bbo.BBOManager.UnregisterObserver | backend/core/bbo_manager.py:128-136 | removes a registered observer keeping the others' order; otherwise a no-op |
| Bbo.BBOManager.NotifyObservers | backend/core/bbo_manager.py:138-146 | every registered observer is called once with the current quote and update count |
| Books.EmptyPrices | backend/core/order_book.py:316-321 | lists exactly the prices whose level is empty, each once |
| Books.DropEmptyLevels | backend/core/order_book.py:313-323 | the side keeps exactly its non-empty levels, stays well shaped, and is unchanged when it had no empty level |
| Books.Shown | backend/core/order_book.py:213-222 | a depth query shows min(levels, number of levels) rows, none for a limit <= 0 |
| Books.Reported | backend/core/order_book.py:228-230 | a missing or zero price is reported as absent, any other as itself |
| Books.VolumeAtPositive | backend/core/order_book.py:233-246 | on a book of non-empty levels with positive remainders the volume at a price is positive exactly when a level exists there |
| Books.CollectRows | backend/core/order_book.py:343-350 | the loop of `get_price_levels` returns the first `levels` rows of the side |
| Books.RowsAt | backend/core/order_book.py:345-348 | row i is the i-th best price of the side with its level's volume |
| Books.RowsBestFirst | backend/core/order_book.py:331-350 | every row is a level of the side, the rows are strictly best first, and each volume is positive on a consistent book |
| Books.FillKeepsFormed | backend/core/matching_engine.py:477-478 | writing a maker's fill back into the registry keeps both sides linked and every entry balanced |
| Books.FewerLevelsUncrossed | backend/core/matching_engine.py:411-453 | trading only removes levels, so an uncrossed book stays uncrossed |
| Books.RestingUncrossed | backend/core/matching_engine.py:298-300 | resting an order at a price the opposite best lies beyond keeps the book uncrossed |
| Books.OrderBook.constructor | backend/core/order_book.py:39-58 | empty sides, empty registry, a fresh BBO manager for the symbol |
| Books.OrderBook.GetBestBid | backend/core/order_book.py:168-177 | None exactly without bids, otherwise the highest bid price |
| Books.OrderBook.GetBestAsk | backend/core/order_book.py:179-188 | None exactly without asks, otherwise the lowest ask price |
| Books.OrderBook.Spread | backend/core/order_book.py:258-265 | present exactly when both sides are; bid + spread = ask, and positive on an uncrossed book |
| Books.OrderBook.MidPrice | backend/core/order_book.py:267-274 | present exactly when both sides are; equidistant from bid and ask, strictly between them on an uncrossed book |
| Books.OrderBook.GetTotalVolumeAtPrice | backend/core/order_book.py:233-246 | 0 without a level, the level's volume otherwise; on a consistent book positive exactly when the level exists |
| Books.OrderBook.GetPriceLevels | backend/core/order_book.py:331-350 | the first `levels` (price, volume) rows of the side, best first |
| Books.OrderBook.GetDepth | backend/core/order_book.py:199-231 | symbol, the first `levels` rows per side, and best prices and spread reported only when present and non-zero |
| Books.OrderBook.UpdateBbo | backend/core/order_book.py:325-329 | the BBO manager ends holding the book's best prices, one more update counted |
| Books.OrderBook.AddOrder | backend/core/order_book.py:60-104 | DuplicateOrder for a registered id, an OrderBookError for no remainder or no price, book unchanged then; otherwise the order joins the tail of its level (created if needed), is registered, the other side and other levels are untouched, the best price moves to it exactly when it beats the old best, and the BBO is refreshed |
| Books.OrderBook.Insert | backend/core/order_book.py:276-291 | the accepting branch: tail of its level, registered, best price as in `AddOrder` |
| Books.OrderBook.CleanupEmptyLevels | backend/core/order_book.py:313-323 | both sides keep exactly their non-empty levels |
| Books.OrderBook.RemoveFromPriceLevel | backend/core/order_book.py:293-311 | the order leaves the level at its price on its side, an emptied level is dropped, nothing else moves |
| Books.OrderBook.RemoveOrder | backend/core/order_book.py:106-130 | an unregistered id gives None and changes nothing; otherwise the order leaves its level and the registry, no level is left empty, and the BBO is refreshed |
| Books.OrderBook.RemoveFromBookOnly | backend/core/order_book.py:132-154 | like `RemoveOrder`, but the order stays registered |
| Books.OrderBook.FillResting | backend/core/matching_engine.py:477-482 | the maker's registry entry is filled; a maker with nothing left leaves its level and stays registered, a partly filled one keeps its place |
| Matching.Plan | backend/core/matching_engine.py:411-435 | never more fills than makers in the queue |
| Matching.PlanTakesPrefix | backend/core/matching_engine.py:411-444 | the plan takes a prefix of the queue, each fill at the maker's own price, never beyond the limit, never more than the maker has left |
| Matching.PlanStopsOnlyWhenBlocked | backend/core/matching_engine.py:414-424 | the plan fills at most what is needed, and less only at the end of the queue or at the first price beyond the limit |
| Matching.PlanFillsAreMinimal | backend/core/matching_engine.py:435 | each fill is min(what the taker still needs, what the maker has left) |
| Matching.PlanTakesAllButLast | backend/core/matching_engine.py:435 | every planned maker but the last is taken completely |
| Matching.PlanConserves | backend/core/matching_engine.py:477-478 | the quantity the plan takes is exactly what the queue left behind has less |
| Matching.QueueIsPriority | backend/core/matching_engine.py:411-430 | the queue holds every resting order of the side, best price first, each level in FIFO order |
| Matching.Applied | backend/core/matching_engine.py:477-482 | writing fills back to their makers keeps every registered id: nothing is dropped from the registry |
| Matching.AppliedConcat | backend/core/matching_engine.py:429-445 | writing back one batch of fills and then another is writing back both, in order |
| Matching.AppliedKeepsOthers | backend/core/matching_engine.py:477-482 | an order that is the maker of no fill keeps its registry entry |
| Matching.AppliedDistinct | backend/core/matching_engine.py:477-482 | with distinct makers, each maker's entry is its own fill applied to its old entry |
| Matching.MakersDistinct | backend/core/order_book.py:276-291 | levels at distinct prices, each without repeated ids and holding only orders at its own price, give a queue without repeated makers |
| Matching.QueueDistinct | backend/core/order_book.py:276-291 | no order id appears twice in a side's queue |
| Matching.PlanWritten | backend/core/matching_engine.py:477-482 | writing the plan back to the registry keeps its ids and every unplanned order, and each planned maker becomes `update_fill` of its fill: FILLED when the fill was all it had left, PARTIAL otherwise |
| Matching.QueueEntries | backend/core/order_book.py:283-291 | every queue entry is a registered order of that side resting at its level's price, with a positive remainder |
| Matching.QueueHead | backend/core/matching_engine.py:429-430 | the queue is empty exactly when the side is, and otherwise starts with the oldest order at the best price |
| Matching.MatchStep | backend/core/matching_engine.py:429-445 | one trade with the oldest order at the best price is the first fill of the plan, the rest of the plan is the plan of the new book, and the book stays linked and positive |
| Matching.QueueIgnoresOthers | backend/core/matching_engine.py:262 | registering an order that rests nowhere changes no queue |
| Engine.Window | backend/core/matching_engine.py:51 | the bounded journal holds at most 10000 trades, all of them while they fit |
| Engine.WindowPush | backend/core/matching_engine.py:497 | appending to a full journal drops its oldest trade |
| Engine.Marketable | backend/core/matching_engine.py:606-627 | an order without a price always is; a priced order exactly as `is_marketable` against the book's best prices |
| Engine.MarketableIffPlans | backend/core/matching_engine.py:293-295 | a priced order is marketable exactly when its plan against the opposite queue is non-empty; otherwise the opposite best lies beyond its price |
| Engine.Register | backend/core/matching_engine.py:262 | the registry gains exactly the order under its id and nothing else in it changes; the book and its queues are kept |
| Engine.SettledSweep | backend/core/matching_engine.py:259-272 | an order that swept the book by the plan ends FILLED, PARTIAL, or the untraded status, and settled |
| Engine.TradedPositive | backend/core/matching_engine.py:485-494 | an order that traded has filled a positive quantity |
| Engine.Killed | backend/core/matching_engine.py:355-359 | a killed FOK order is CANCELLED with no trades and settled |
| Engine.Withdraw | backend/core/order_book.py:106-130 | `remove_order` for cancellation: an unknown id changes nothing; otherwise the order leaves the registry and its level (an emptied level goes), every other resting order keeps its level and its place in the queue, the other side is untouched, and the book stays uncrossed |
| Matching.ScanSide | backend/core/matching_engine.py:551-571 | the outer FOK scan yields exactly the plan of the side and what is left needed |
| Matching.ScanOrders | backend/core/matching_engine.py:565-571 | the inner FOK scan over one level yields the start of the plan |
| Engine.MatchingEngine.constructor | backend/core/matching_engine.py:43-66 | no books, empty journal, every counter zero |
| Engine.MatchingEngine.GetOrCreateBook | backend/core/matching_engine.py:629-635 | the symbol's book, created empty only the first time; its registry, sides and queues are what the engine had for the symbol |
| Engine.MatchingEngine.GetOrderStatus | backend/core/matching_engine.py:174-190 | the registered order exactly when the symbol has a book holding the id, and it is balanced |
| Engine.MatchingEngine.CancelOrder | backend/core/matching_engine.py:145-172 | OrderNotFound for an unknown symbol or id, and then the book is unchanged; otherwise the order, CANCELLED whatever its status, leaves the registry and its level and is counted, while every other resting order keeps its level and queue place and the other side is untouched |
| Engine.MatchingEngine.SubmitOrder | backend/core/matching_engine.py:68-143 | an invalid order is an error and changes nothing; a valid one is settled, registered and counted, with its trades and message, and the book stays uncrossed. The symbol's registry becomes the old one (empty for a new book) with every trade's fill written back to its maker and the order entered, nothing else changed. Per type (the queue of a new book is empty): MARKET and IOC trade exactly the price-time plan of the opposite queue, with no limit or up to their price, and never rest; FOK trades the plan only when it covers the whole quantity and is otherwise CANCELLED with both sides untouched; LIMIT trades the plan up to its price and rests any remainder at the tail of its level, every other level untouched |
| Engine.MatchingEngine.SubmitTo | backend/core/matching_engine.py:99-139 | on the symbol's book: settled, registered, counted and reported, with the per-type outcome and the registry update of `Dispatch` (plan trades, makers' fills written back, the FOK rule, LIMIT placement) |
| Engine.MatchingEngine.Run | backend/core/matching_engine.py:101-139 | dispatch by type, count, and the result with the message for the final status, carrying each type's matching outcome and the registry update as `Dispatch` states them |
| Engine.MatchingEngine.Count | backend/core/matching_engine.py:113-120 | one more processed order, and one more filled, partial or cancelled by the final status |
| Engine.MatchingEngine.ExecuteMatch | backend/core/matching_engine.py:455-524 | taker and maker are filled by the quantity, a used-up maker leaves its level but stays registered, and the trade at the given price enters the journal |
| Engine.MatchingEngine.Record | backend/core/matching_engine.py:497-507 | the trade enters the bounded journal and is counted |
| Engine.MatchingEngine.MatchOldest | backend/core/matching_engine.py:429-445 | one trade with the oldest order at the best price is the next fill of the plan, and the registry changes only by that fill written back to the maker |
| Engine.MatchingEngine.MatchHead | backend/core/matching_engine.py:430-445 | `_execute_match` with the queue head and min of both remainders advances the plan by one fill, written back to that maker in the registry and nowhere else |
| Engine.MatchingEngine.FillAgainstBook | backend/core/matching_engine.py:375-453 | the trades are exactly the plan of the opposite queue at the makers' prices, the side is left as the plan leaves it, the registry is the old one with every planned fill written back to its maker, and an unfilled taker finds the opposite best beyond its limit |
| Engine.MatchingEngine.MatchLevel | backend/core/matching_engine.py:429-445 | trading through the best level advances the plan and writes each fill back to its maker in the registry; an unfilled taker exhausts that level |
| Engine.MatchingEngine.CheckCanFillFok | backend/core/matching_engine.py:526-574 | changes nothing; can fill exactly when the plan for the whole quantity covers it, and the plan is returned only then |
| Engine.MatchingEngine.ExecuteFokPlan | backend/core/matching_engine.py:362-373 | executing the plan fill by fill produces exactly the plan, leaves exactly its rest, and writes every fill back to its maker in the registry |
| Engine.MatchingEngine.ProcessFok | backend/core/matching_engine.py:336-373 | killed (CANCELLED, no trades, sides untouched) unless the plan covers the quantity, otherwise FILLED by the plan; the registry is the old one with the makers' fills written back and the order entered, nothing else changed |
| Engine.MatchingEngine.FillOrKill | backend/core/matching_engine.py:353-373 | the FOK decision and execution before registration; the registry changes only by the makers' fills |
| Engine.MatchingEngine.FillWhole | backend/core/matching_engine.py:362-373 | a covering plan executed leaves the order FILLED and the registry changed only by the makers' fills |
| Engine.MatchingEngine.ProcessMarket | backend/core/matching_engine.py:245-272 | sweeps with no limit, never rests, ends FILLED, PARTIAL, or CANCELLED without trades; the registry is the old one with the makers' fills written back and the order entered, nothing else changed |
| Engine.MatchingEngine.ProcessIoc | backend/core/matching_engine.py:307-334 | sweeps up to its price, never rests, ends FILLED, PARTIAL, or CANCELLED without trades; the registry is the old one with the makers' fills written back and the order entered, nothing else changed |
| Engine.MatchingEngine.TakeOrCancel | backend/core/matching_engine.py:259-272 | the shared sweep-then-cancel of MARKET and IOC, with the registry changed only by the makers' fills and the order |
| Engine.MatchingEngine.Settle | backend/core/matching_engine.py:321-332 | the sweep and the status it leaves, before registration; the registry changes only by the makers' fills |
| Engine.MatchingEngine.ProcessLimit | backend/core/matching_engine.py:274-305 | no price is an InvalidOrder error changing nothing; otherwise sweep up to the price, then a remainder rests at the tail of its level (PARTIAL if it traded, PENDING if not) with every other level of its side untouched, and a filled order is only registered; the registry gets the makers' fills and the order and nothing else |
| Engine.MatchingEngine.MatchThenPlace | backend/core/matching_engine.py:292-305 | match, then place, for a priced LIMIT order: a remainder joins the tail of its level and no other level of its side changes; the registry gets the makers' fills and the order and nothing else |
| Engine.MatchingEngine.LimitMatch | backend/core/matching_engine.py:292-295 | a marketable order sweeps by the plan, any other trades nothing; a remainder finds the opposite best beyond its price; the registry changes only by the makers' fills |
| Engine.MatchingEngine.Place | backend/core/matching_engine.py:297-303 | a remainder joins the tail of its level (the level created if new) with PARTIAL or PENDING, every other level of its side is unchanged, and the book stays uncrossed; a filled order is only registered; either way the registry gains exactly that order |
| Engine.MatchingEngine.Dispatch | backend/core/matching_engine.py:101-111 | whatever the type the order ends settled and registered and the book uncrossed, and the registry is the old one with every trade's fill written back to its maker and the order entered, nothing else changed. MARKET and IOC trade exactly the price-time plan of the opposite queue, with no limit or up to their price, leave the queue as the plan leaves it, never rest, and a remainder is CANCELLED or PARTIAL. FOK trades the plan and ends FILLED when the plan covers the whole quantity, and otherwise is CANCELLED with no trades and both sides untouched. LIMIT trades the plan up to its price, and a remainder rests at the tail of its level, PENDING or PARTIAL, with every other level of its side untouched |
| Results.ResultMessage | backend/core/matching_engine.py:654-665 | a fill message quotes the filled quantity (and the quantity when partial) |
| Results.IsSuccessful | backend/core/order.py:276-278 | a result is successful exactly when its status is neither CANCELLED nor REJECTED |
| Results.MessageOfSettled | backend/core/order.py:276-278 | for a settled order the message follows the status, is never "processed", and the result is successful exactly when the message is not "cancelled" |
| Validators.ValidatePrice | backend/utils/validators.py:66-92 | None passes exactly when not required (InvalidOrder otherwise); a price passes exactly when > 0 and within the bounds, a non-positive one reported as such; failures are PriceOutOfBounds |
| Validators.ValidateQuantity | backend/utils/validators.py:116-134 | passes exactly when > 0 and within the bounds; failures are InvalidQuantity |
| Validators.DefaultBounds | backend/utils/validators.py:42-48 | with the default bounds a price passes exactly in [0.00000001, 10000000] and a quantity exactly in [0.00000001, 1000000] |
| Validators.NormalizeIdempotent | backend/utils/validators.py:198-199 | stripping and upper-casing twice is doing it once, so the second normalisation in `validate_symbol` changes nothing |
| Validators.ValidateSymbol | backend/utils/validators.py:151-171 | passes exactly for a non-empty symbol whose normalised form has at least 3 characters and is in a given non-empty allowed list; failures are InvalidSymbol |
| Validators.ValidateOrderParameters | backend/utils/validators.py:198-230 | succeeds exactly when the normalised symbol has >= 3 characters, type and side are known upper-cased, the quantity and any price are within the default bounds, and only a MARKET order omits the price; returns the normalised symbol, quantity and price |
| Validators.ParametersIgnoreCase | backend/utils/validators.py:202-215 | type and side in lower case give the same outcome |
| Validators.PriceRequiredUnlessMarket | backend/utils/validators.py:227-228 | with everything else valid, omitting the price is accepted exactly for a type outside LIMIT, IOC, FOK |
| OrderRequests.ValidateOrderParams | backend/services/order_service.py:225-252 | passes exactly when the symbol has >= 3 characters and a '-', 0 < quantity <= 1000000, and a non-MARKET order has 0 < price <= 10000000; failures are Validation errors |
| OrderRequests.MarketPriceIgnored | backend/services/order_service.py:249-252 | a MARKET order is checked the same with or without a price |
| OrderRequests.ParamsWithinValidators | backend/services/order_service.py:231-246 | what the service accepts at or above the validators' minima the validators accept too |
| OrderRequests.FirstMissing | backend/services/order_service.py:174-176 | the index of the first field not given, or none when all are |
| OrderRequests.ValidateOrderRequest | backend/services/order_service.py:171-199 | passes exactly when the four required fields are given, type and side are known upper-cased, and a non-MARKET request has a price; the first missing field is the one reported |
| OrderRequests.RequestSeesUpperCase | backend/services/order_service.py:171-199 | the outcome depends only on which fields are given and on type and side upper-cased |
| OrderRequests.RequestIgnoresCase | backend/services/order_service.py:179-191 | type and side in lower case give the same outcome |
| OrderService.SnapshotSpread | backend/services/order_service.py:286-289 | present exactly when both best prices are present and non-zero, and then bid + spread = ask |
| OrderService.GetOrderBookSnapshot | backend/services/order_service.py:266-300 | an unknown symbol gets empty sides and no best prices; otherwise the first `levels` rows per side, the reported best prices and their spread |
| OrderService.SnapshotIsDepth | backend/services/order_service.py:284-300 | on a book the engine keeps, the snapshot's best prices and spread are exactly those of `get_depth` |
| Formatters.FormatOrderId | frontend/utils/formatters.py:56-62 | an id of at most 16 characters is unchanged; a longer one becomes its first 8 characters, "..." and its last 4, 15 in all |
| Formatters.FormatOrderIdShort | frontend/utils/formatters.py:56-62 | a shown id is at most 16 characters and showing it again changes nothing |
| Formatters.ColorBySide | frontend/utils/formatters.py:41-48 | "#10b981" exactly for "buy" and "#ef4444" exactly for "sell", in any case, "#6b7280" otherwise |
| Formatters.ColorIgnoresCase | frontend/utils/formatters.py:41-46 | the engine's upper-case sides get the same colours as lower-case ones |

## Left out

- SubmitOrder: it and `MatchingEngine.Run`, `SubmitTo`, `Dispatch`, `ProcessMarket`, `ProcessLimit`, `ProcessIoc`, `ProcessFok`, `TakeOrCancel` and `FillOrKill` require an order with nothing filled, remaining equal to quantity, and an id not yet in its book's registry. The source also accepts a registered id. For MARKET, IOC and FOK it overwrites the registry entry (backend/core/matching_engine.py:262, 324, 350). For LIMIT it trades first and then raises DuplicateOrderException from `add_order`. It also accepts an order built with a filled quantity, which it processes with remaining = quantity. None of these inputs is modelled, because every order id is a fresh `uuid4` and no call site passes `order_id` or `filled_quantity`.
- PriceLevels.AddOrder, PriceLevels.RemoveOrder, PriceLevels.PopNextOrder and PriceLevels.GetNextOrder are functions on a `PriceLevel` value, not methods on an object the book shares. Updating a level in place and aliasing the level are not captured. The book stores the level it gets back. The level queues order ids, and the book's registry owns the orders. That is how the source's deque and registry share one `Order` object.
- Orders.UpdateFill returns the updated order value instead of mutating the shared object. The engine writes that value back into the registry entry, which all holders of the id then see.
- Decimal's 28-digit context rounding: prices and quantities are exact `real`s, so division in the mid price is exact.
- Trade callbacks (`register_execution_callback`, `register_trade_callback`, `unregister_trade_callback`, `_notify_execution`) are foreign calls and are not modelled. BBO observers are ids. A notification is recorded as a `Quote` with the update count, not as the `to_dict()` dictionary.
- Timestamps, `last_update_time`, trade ids, UUID generation (`_generate_trade_id`), the latency list, `_log_performance_metrics`, logging, and the float `total_volume` statistic: clock, randomness, floats and I/O.
- The engine's `threading.Lock`: the model is sequential.
- `get_statistics` and `get_order_book` (plain reads of the state the model exposes), `OrderBook.get_order` and `get_bbo` (the registry lookup inside `GetOrderStatus` and the best-price getters), and the `to_dict`/`__repr__`/`__str__` renderings.
- `_prevent_trade_through` and `_update_statistics`, which nothing calls.
- Casing and stripping: `Text.Upper`/`Lower` map only ASCII letters. Python's Unicode case mapping is not modelled. `strip` uses Python's whitespace set.
- `sanitize_decimal` and the `str()` renderings of numbers in the depth and the snapshot: parsing and formatting are not modelled. Values arrive as numbers and are returned as numbers.
- Validators.ValidateSymbol: the `isinstance(symbol, str)` check is implied by the types. An allowed list of `None` and an empty one both mean no restriction, as in the source.
- Validators.ValidatePrice and Validators.ValidateQuantity: the `symbol` argument only fills the exception's details and is dropped.
- OrderRequests.ValidateOrderRequest: a request dictionary is reduced to the presence of the known fields and the text of the type and the side. Other keys and other value types are not modelled.
- OrderRequests.ValidateOrderParams: the `side` parameter is never examined by the source and is dropped. The warning for a priced MARKET order is logging.
- OrderService.GetOrderBookSnapshot: the try/except that logs and re-raises has no failing path in the model. The `bbo` sub-dictionary is flattened into the snapshot record.
- Formatters.FormatOrderId: the try/except fallback is not modelled. It can only fire for a non-string argument, which the types exclude.
- The `submit_order`, `cancel_order` and `get_order_status` wrappers of `OrderService`, which only log and delegate. The other formatters (`format_price`, `format_quantity`, `format_timestamp`, `format_currency`, `calculate_total`) do float and datetime formatting.
- The HTTP and WebSocket layers, the asynchronous market-data and trade services, configuration, and the user interface.

## Findings

| source | as written | input that shows it | evidently intended | confidence | as-written member | corrected member |
|---|---|---|---|---|---|---|
| backend/core/order.py:91-92 | `__post_init__` sets `remaining_quantity = quantity` whatever `filled_quantity` was passed, and `validate` accepts it | `Order(quantity=10, filled_quantity=4, ...)` gives filled 4 and remaining 10, so filled + remaining = 14 > quantity; a later `update_fill(10)` is accepted and leaves remaining -4 | `remaining_quantity = quantity - filled_quantity`, the relation `update_fill` maintains (backend/core/order.py:179-180) | not executed | Orders.NewOrderAsWritten, Orders.AsWrittenConstructorOverfills | Orders.NewOrder |

=== FILE: bbo_manager.dfy ===
/** Best bid/offer tracking with change notification
    (backend/core/bbo_manager.py). Observers are opaque callables in the
    source; here each is an id, and calling one is recorded as an entry in
    `notifications`. The update timestamp is not modelled. */
module Bbo {
  import opened Wrappers
  import opened Seqs

  /** The `current_bbo` / `previous_bbo` dictionaries. */
  datatype Quote = Quote(bestBid: Option<real>, bestAsk: Option<real>, spread: Option<real>, midPrice: Option<real>)

  const NoQuote: Quote := Quote(None, None, None, None)

  /** The quote `update_bbo` stores: spread and mid price exist only when
      both sides have a best price. */
  function QuoteOf(bestBid: Option<real>, bestAsk: Option<real>): (q: Quote)
    ensures q.bestBid == bestBid && q.bestAsk == bestAsk
    ensures q.spread.Some? <==> bestBid.Some? && bestAsk.Some?
    ensures q.midPrice.Some? <==> bestBid.Some? && bestAsk.Some?
  {
    if bestBid.Some? && bestAsk.Some? then
      Quote(bestBid, bestAsk, Some(bestAsk.value - bestBid.value), Some((bestBid.value + bestAsk.value) / 2.0))
    else
      Quote(bestBid, bestAsk, None, None)
  }

  /** When bid <= ask the spread is the distance from bid to ask and is not
      negative, and the mid price lies between them, as far from each. */
  lemma QuoteMeaning(bid: real, ask: real)
    requires bid <= ask
    ensures var q := QuoteOf(Some(bid), Some(ask));
      && q.spread.value >= 0.0 && bid + q.spread.value == ask
      && bid <= q.midPrice.value <= ask
      && q.midPrice.value - bid == ask - q.midPrice.value
  {
  }

  type ObserverId = nat

  /** One observer call: who was called, with which quote and update count. */
  datatype Notification = Notification(observer: ObserverId, quote: Quote, updateCount: nat)

  /** The calls `_notify_observers` makes, one per observer in registration order. */
  function Calls(observers: seq<ObserverId>, q: Quote, count: nat): (r: seq<Notification>)
    ensures |r| == |observers|
    ensures forall i :: 0 <= i < |r| ==> r[i] == Notification(observers[i], q, count)
  {
    if observers == [] then [] else [Notification(observers[0], q, count)] + Calls(observers[1..], q, count)
  }

  class BBOManager {
    const symbol: string
    var current: Quote
    var previous: Quote
    var updateCount: nat
    var observers: seq<ObserverId>
    var notifications: seq<Notification>

    /** No observer is registered twice. */
    ghost predicate Valid()
      reads this
    {
      NoDup(observers)
    }

    constructor (symbol: string)
      ensures Valid() && this.symbol == symbol
      ensures current == NoQuote && previous == NoQuote && updateCount == 0
      ensures observers == [] && notifications == []
    {
      this.symbol := symbol;
      current := NoQuote;
      previous := NoQuote;
      updateCount := 0;
      observers := [];
      notifications := [];
    }

    /** `update_bbo`: keeps the old quote as `previous`, stores the new one,
        counts the update, and tells whether the best bid or best ask moved;
        observers are called only then. */
    method UpdateBBO(bestBid: Option<real>, bestAsk: Option<real>) returns (changed: bool)
      requires Valid()
      modifies this
      ensures Valid()
      ensures previous == old(current)
      ensures current == QuoteOf(bestBid, bestAsk)
      ensures updateCount == old(updateCount) + 1
      ensures changed <==> bestBid != old(current).bestBid || bestAsk != old(current).bestAsk
      ensures observers == old(observers)
      ensures notifications == old(notifications) + (if changed then Calls(observers, current, updateCount) else [])
    {
      previous := current;
      current := QuoteOf(bestBid, bestAsk);
      updateCount := updateCount + 1;
      changed := HasChanged();
      if changed {
        NotifyObservers();
      }
    }

    /** `has_changed`: the best bid or the best ask differs from the
        previous quote; an unchanged quote never counts as a change. */
    function HasChanged(): (r: bool)
      reads this
      ensures r ==> current != previous
    {
      current.bestBid != previous.bestBid || current.bestAsk != previous.bestAsk
    }

    /** `get_bbo`: the current quote, handed out as a value, so nothing a
        caller does to it reaches the manager. */
    method GetBBO() returns (q: Quote)
      ensures q == current
    {
      q := current;
    }

    /** `register_observer`: appends an observer not yet registered. */
    method RegisterObserver(observer: ObserverId)
      requires Valid()
      modifies this`observers
      ensures Valid()
      ensures observer in observers
      ensures observers == if observer in old(observers) then old(observers) else old(observers) + [observer]
    {
      if observer !in observers {
        observers := observers + [observer];
      }
    }

    /** `unregister_observer`: removes the observer if registered; the
        others keep their order. */
    method UnregisterObserver(observer: ObserverId)
      requires Valid()
      modifies this`observers
      ensures Valid()
      ensures observer !in observers
      ensures forall x :: x in observers <==> x in old(observers) && x != observer
      ensures observer !in old(observers) ==> observers == old(observers)
      ensures observer in old(observers) ==> observers == RemoveAt(old(observers), IndexOf(old(observers), observer))
    {
      if observer in observers {
        RemoveAtNoDup(observers, IndexOf(observers, observer));
        observers := RemoveAt(observers, IndexOf(observers, observer));
      }
    }

    /** `_notify_observers`: calls every observer in turn with the current
        quote; a failing observer does not stop the others. */
    method NotifyObservers()
      modifies this`notifications
      ensures notifications == old(notifications) + Calls(observers, current, updateCount)
    {
      var i := 0;
      while i < |observers|
        invariant 0 <= i <= |observers|
        invariant notifications == old(notifications) + Calls(observers[..i], current, updateCount)
      {
        assert observers[..i + 1] == observers[..i] + [observers[i]];
        CallsAppend(observers[..i], observers[i], current, updateCount);
        notifications := notifications + [Notification(observers[i], current, updateCount)];
        i := i + 1;
      }
      assert observers[..i] == observers;
    }
  }

  lemma CallsAppend(obs: seq<ObserverId>, o: ObserverId, q: Quote, n: nat)
    ensures Calls(obs + [o], q, n) == Calls(obs, q, n) + [Notification(o, q, n)]
  {
  }
}

=== FILE: book_side.dfy ===
/** One side of the order book: the `SortedDict` from price to level in
    backend/core/order_book.py:49-52. Bids iterate highest price first
    (key function `-x`), asks lowest price first. The sorted dictionary is
    a map from price to level together with its keys in iteration order. */
module BookSides {
  import opened Wrappers
  import opened Seqs
  import opened Orders
  import opened PriceLevels

  /** Price priority on a side: a bid at `a` comes before a bid at `b` when
      it is higher, an ask when it is lower. */
  predicate Better(side: Side, a: real, b: real) {
    if side == Buy then a > b else a < b
  }

  predicate Sorted(side: Side, ps: seq<real>) {
    forall i, j :: 0 <= i < j < |ps| ==> Better(side, ps[i], ps[j])
  }

  datatype BookSide = BookSide(levels: map<real, PriceLevel>, prices: seq<real>)

  const EmptySide: BookSide := BookSide(map[], [])

  /** `prices` lists exactly the keys of `levels`, in priority order. */
  ghost predicate Shaped(side: Side, bs: BookSide) {
    && Sorted(side, bs.prices)
    && (forall i :: 0 <= i < |bs.prices| ==> bs.prices[i] in bs.levels)
    && (forall p :: p in bs.levels <==> p in bs.prices)
  }

  lemma EmptyShaped(side: Side)
    ensures Shaped(side, EmptySide)
  {
  }

  lemma SortedNoDup(side: Side, ps: seq<real>)
    requires Sorted(side, ps)
    ensures NoDup(ps)
  {
    forall i, j | 0 <= i < j < |ps| ensures ps[i] != ps[j] {
      assert Better(side, ps[i], ps[j]);
    }
  }

  /** The first key of the sorted dictionary (`keys()[0]`), if any. */
  function Best(bs: BookSide): (r: Option<real>)
    ensures r.None? <==> bs.prices == []
    ensures r.Some? ==> r.value == bs.prices[0]
  {
    if bs.prices == [] then None else Some(bs.prices[0])
  }

  /** On a well-shaped side the first key is the best price present: the
      highest bid or the lowest ask, and there is none only on an empty side. */
  lemma BestIsBest(side: Side, bs: BookSide)
    requires Shaped(side, bs)
    ensures Best(bs).None? <==> bs.levels == map[]
    ensures Best(bs).Some? ==> Best(bs).value in bs.levels
    ensures Best(bs).Some? ==> forall p :: p in bs.levels && p != Best(bs).value ==> Better(side, Best(bs).value, p)
  {
    if bs.prices == [] {
      assert forall p :: p in bs.levels.Keys ==> p in bs.prices;
      assert bs.levels == map[];
    } else {
      assert bs.prices[0] in bs.prices;
      forall p | p in bs.levels && p != bs.prices[0] ensures Better(side, bs.prices[0], p) {
        var k :| 0 <= k < |bs.prices| && bs.prices[k] == p;
        assert k != 0;
      }
    }
  }

  /** The key sequence after inserting a new price at its place in priority order. */
  function InsertPrice(side: Side, ps: seq<real>, p: real): (r: seq<real>)
    ensures |r| == |ps| + 1
    ensures forall x :: x in r <==> x in ps || x == p
  {
    if ps == [] then [p]
    else if Better(side, p, ps[0]) then [p] + ps
    else [ps[0]] + InsertPrice(side, ps[1..], p)
  }

  lemma {:induction false} InsertPriceSorted(side: Side, ps: seq<real>, p: real)
    requires Sorted(side, ps) && p !in ps
    ensures Sorted(side, InsertPrice(side, ps, p))
    decreases |ps|
  {
    if ps == [] || Better(side, p, ps[0]) {
    } else {
      InsertPriceSorted(side, ps[1..], p);
      var rest := InsertPrice(side, ps[1..], p);
      assert Better(side, ps[0], p) by { assert p != ps[0]; }
      forall x | x in rest ensures Better(side, ps[0], x) {
        if x != p {
          var k :| 0 <= k < |ps[1..]| && ps[1..][k] == x;
          assert ps[k + 1] == x;
        }
      }
      var r := InsertPrice(side, ps, p);
      assert r == [ps[0]] + rest;
      forall i, j | 0 <= i < j < |r| ensures Better(side, r[i], r[j]) {
        if i == 0 {
          assert r[j] == rest[j - 1] && rest[j - 1] in rest;
        } else {
          assert r[i] == rest[i - 1] && r[j] == rest[j - 1];
        }
      }
    }
  }

  /** `book[price] = level`: replaces the level at an existing key, or adds
      the key at its place in priority order. */
  function PutLevel(side: Side, bs: BookSide, p: real, l: PriceLevel): (r: BookSide)
    ensures r.levels == bs.levels[p := l]
  {
    if p in bs.levels then bs.(levels := bs.levels[p := l])
    else BookSide(bs.levels[p := l], InsertPrice(side, bs.prices, p))
  }

  lemma PutLevelShaped(side: Side, bs: BookSide, p: real, l: PriceLevel)
    requires Shaped(side, bs)
    ensures Shaped(side, PutLevel(side, bs, p, l))
  {
    if p !in bs.levels {
      InsertPriceSorted(side, bs.prices, p);
    }
  }

  /** After a level is put at `p`, the best price is `p` if the side was
      empty or `p` is better than the old best, and the old best otherwise. */
  lemma {:induction false} BestAfterPut(side: Side, bs: BookSide, p: real, l: PriceLevel)
    requires Shaped(side, bs)
    ensures Best(PutLevel(side, bs, p, l)) ==
      if bs.prices == [] || Better(side, p, bs.prices[0]) then Some(p) else Best(bs)
  {
    if p in bs.levels {
      BestIsBest(side, bs);
    }
  }

  /** `del book[price]`. */
  function DeleteLevel(bs: BookSide, p: real): (r: BookSide)
    requires p in bs.prices
    ensures r.levels == bs.levels - {p}
    ensures |r.prices| == |bs.prices| - 1
  {
    BookSide(bs.levels - {p}, RemoveAt(bs.prices, IndexOf(bs.prices, p)))
  }

  lemma DeleteLevelShaped(side: Side, bs: BookSide, p: real)
    requires Shaped(side, bs) && p in bs.prices
    ensures Shaped(side, DeleteLevel(bs, p))
  {
    var i := IndexOf(bs.prices, p);
    SortedNoDup(side, bs.prices);
    RemoveAtNoDup(bs.prices, i);
    var r := RemoveAt(bs.prices, i);
    forall a, b | 0 <= a < b < |r| ensures Better(side, r[a], r[b]) {
      var a' := if a < i then a else a + 1;
      var b' := if b < i then b else b + 1;
      assert r[a] == bs.prices[a'] && r[b] == bs.prices[b'];
    }
  }

  /** Deleting a level that is not the best leaves the best price; deleting
      the best one makes the next key the best. */
  lemma DeleteBest(side: Side, bs: BookSide)
    requires Shaped(side, bs) && bs.prices != []
    ensures DeleteLevel(bs, bs.prices[0]).prices == bs.prices[1..]
    ensures forall p :: p in bs.prices && p != bs.prices[0] ==> Best(DeleteLevel(bs, p)) == Best(bs)
  {
    var r := DeleteLevel(bs, bs.prices[0]).prices;
    assert IndexOf(bs.prices, bs.prices[0]) == 0;
    assert r == bs.prices[1..];
    forall p | p in bs.prices && p != bs.prices[0] ensures Best(DeleteLevel(bs, p)) == Best(bs) {
      var i := IndexOf(bs.prices, p);
      assert i != 0;
      assert DeleteLevel(bs, p).prices[0] == bs.prices[0];
    }
  }

  lemma TailMembers(s: seq<real>)
    requires NoDup(s) && s != []
    ensures forall x :: x in s[1..] <==> x in s && x != s[0]
  {
    forall x | x in s && x != s[0] ensures x in s[1..] {
      var k :| 0 <= k < |s| && s[k] == x;
      assert s[1..][k - 1] == x;
    }
  }

  /** Two priority-ordered key sequences holding the same prices are equal. */
  lemma {:induction false} SortedUnique(side: Side, a: seq<real>, b: seq<real>)
    requires Sorted(side, a) && Sorted(side, b)
    requires forall i :: 0 <= i < |a| ==> a[i] in b
    requires forall i :: 0 <= i < |b| ==> b[i] in a
    ensures a == b
    decreases |a|
  {
    assert b == [] || b[0] in a;
    assert a == [] || a[0] in b;
    if a != [] && b != [] {
      SortedHeads(side, a, b);
      SortedTail(side, a);
      SortedTail(side, b);
      TailsCovered(a, b);
      TailsCovered(b, a);
      SortedUnique(side, a[1..], b[1..]);
      assert a == [a[0]] + a[1..] && b == [b[0]] + b[1..];
    }
  }

  /** Sorted sequences that hold each other's first price start alike. */
  lemma SortedHeads(side: Side, a: seq<real>, b: seq<real>)
    requires Sorted(side, a) && Sorted(side, b) && a != [] && b != []
    requires a[0] in b && b[0] in a
    ensures a[0] == b[0]
  {
    HeadBest(side, a);
    HeadBest(side, b);
  }

  /** The first price of a sorted sequence beats every other one in it. */
  lemma HeadBest(side: Side, s: seq<real>)
    requires Sorted(side, s) && s != []
    ensures forall x :: x in s && x != s[0] ==> Better(side, s[0], x)
  {
    forall x | x in s && x != s[0] ensures Better(side, s[0], x) {
      var k :| 0 <= k < |s| && s[k] == x;
    }
  }

  /** Dropping the first price keeps the order. */
  lemma SortedTail(side: Side, s: seq<real>)
    requires Sorted(side, s) && s != []
    ensures Sorted(side, s[1..]) && NoDup(s)
  {
    SortedNoDup(side, s);
    var t := s[1..];
    forall i, j | 0 <= i < j < |t| ensures Better(side, t[i], t[j]) {
      assert t[i] == s[i + 1] && t[j] == s[j + 1];
    }
  }

  /** Past a common first price, what one holds the other still holds. */
  lemma TailsCovered(a: seq<real>, b: seq<real>)
    requires NoDup(a) && NoDup(b) && a != [] && b != [] && a[0] == b[0]
    requires forall i :: 0 <= i < |a| ==> a[i] in b
    ensures forall i :: 0 <= i < |a[1..]| ==> a[1..][i] in b[1..]
  {
    TailMembers(b);
    forall i | 0 <= i < |a[1..]| ensures a[1..][i] in b[1..] {
      assert a[1..][i] == a[i + 1] && a[i + 1] != a[0];
    }
  }

  /** On a well-shaped side the key sequence is determined by the keys. */
  lemma KeysDeterminePrices(side: Side, x: BookSide, y: BookSide)
    requires Shaped(side, x) && Shaped(side, y) && x.levels.Keys == y.levels.Keys
    ensures x.prices == y.prices
  {
    forall i | 0 <= i < |x.prices| ensures x.prices[i] in y.prices {
      assert x.prices[i] in x.prices;
      assert x.prices[i] in y.levels;
    }
    forall i | 0 <= i < |y.prices| ensures y.prices[i] in x.prices {
      assert y.prices[i] in y.prices;
      assert y.prices[i] in x.levels;
    }
    SortedUnique(side, x.prices, y.prices);
  }
}

=== FILE: errors.dfy ===
/** The exceptions the core raises: the hierarchy of backend/utils/exceptions.py
    plus Python's own ValueError, each carrying which check failed. */
module Errors {

  /** Which check raised. The source puts this in the exception message. */
  datatype Reason =
    | NonPositiveQuantity
    | NegativeFilledQuantity
    | FilledExceedsQuantity
    | PriceRequired
    | NonPositivePrice
    | BlankSymbol
    | NonPositiveFill
    | FillExceedsRemaining
    | NegativeMakerFee
    | NegativeTakerFee
    | PriceMismatch
    | SideMismatch
    | AlreadyAtLevel
    | NoRemainingQuantity
    | NoPrice
    | BelowMinimum
    | AboveMaximum
    | SymbolTooShort
    | SymbolNotAllowed
    | BadSymbolFormat
    | UnknownOrderType
    | UnknownSide
    | MissingField(field: string)
    | UnknownSymbol
    | UnknownOrder

  datatype Error =
    | ValueError(reason: Reason)
    | InvalidOrder(reason: Reason)
    | Validation(reason: Reason)
    | OrderNotFound(reason: Reason)
    | PriceOutOfBounds(reason: Reason)
    | InvalidQuantity(reason: Reason)
    | InvalidSymbol(reason: Reason)
    | DuplicateOrder
    | OrderBookError(reason: Reason)
}

=== FILE: formatters.dfy ===
/** The display helpers of frontend/utils/formatters.py that work on
    strings alone: shortening an order id and colouring a side. */
module Formatters {
  import opened Text

  /** Ids longer than this are shortened for display. */
  const MaxShownId: nat := 16

  /** `format_order_id`: an id of at most 16 characters is shown as it is;
      a longer one as its first eight characters, "..." and its last four. */
  function FormatOrderId(id: string): (r: string)
    ensures |id| <= MaxShownId ==> r == id
    ensures |id| > MaxShownId ==> |r| == 15 && r[..8] == id[..8] && r[8..11] == "..." && r[11..] == id[|id| - 4..]
  {
    if |id| > MaxShownId then id[..8] + "..." + id[|id| - 4..] else id
  }

  /** A shown id is never longer than 16 characters, and showing it again
      changes nothing. */
  lemma FormatOrderIdShort(id: string)
    ensures |FormatOrderId(id)| <= MaxShownId
    ensures FormatOrderId(FormatOrderId(id)) == FormatOrderId(id)
  {
  }

  /** The colours of the buy side, the sell side and anything else. */
  const BuyColor: string := "#10b981"
  const SellColor: string := "#ef4444"
  const OtherColor: string := "#6b7280"

  /** `color_by_side`: the side is compared lower-cased with "buy" and
      "sell". */
  function ColorBySide(side: string): (r: string)
    ensures r == BuyColor <==> Lower(side) == "buy"
    ensures r == SellColor <==> Lower(side) == "sell"
    ensures r == BuyColor || r == SellColor || r == OtherColor
  {
    var s := Lower(side);
    if s == "buy" then BuyColor else if s == "sell" then SellColor else OtherColor
  }

  /** The colour does not depend on how the side is capitalised: the
      engine's "BUY" and "SELL" get the same colours as "buy" and "sell". */
  lemma ColorIgnoresCase(side: string)
    ensures ColorBySide(Upper(side)) == ColorBySide(side)
  {
    LowerOfUpper(side);
  }
}

=== FILE: matching_engine.dfy ===
/** The matching engine (backend/core/matching_engine.py): one order book per
    symbol, price-time priority matching for MARKET, LIMIT, IOC and FOK
    orders, a bounded trade journal and the engine's counters. Every
    method is proved against the plan of `Matching`: the fills an order gets
    are `Plan` of the opposite queue and the book it leaves is `Rest`. */
module Engine {
  import opened Wrappers
  import opened Errors
  import opened Text
  import opened Orders
  import opened Trades
  import opened PriceLevels
  import opened BookSides
  import opened Bbo
  import opened Books
  import opened Matching
  import opened Results

  /** The journal is a deque with this `maxlen`. */
  const MaxTradeJournalSize: nat := 10000

  /** The newest `n` elements of `s`, in order (all of `s` when it has no
      more than `n`). */
  function Newest(s: seq<Trade>, n: nat): (r: seq<Trade>)
    ensures |r| == if |s| <= n then |s| else n
    decreases |s|
  {
    if |s| <= n then s else Newest(s[1..], n)
  }

  /** `Newest` is the suffix of the right length. */
  lemma {:induction false} NewestSuffix(s: seq<Trade>, n: nat)
    ensures Newest(s, n) == s[|s| - |Newest(s, n)|..]
    decreases |s|
  {
    if |s| > n {
      NewestSuffix(s[1..], n);
      assert s[1..][|s| - 1 - n..] == s[|s| - n..];
    }
  }

  /** What a bounded deque holds after every element of `s` was appended to
      an empty one: the newest `MaxTradeJournalSize` elements, in order. */
  function Window(s: seq<Trade>): (r: seq<Trade>)
    ensures |r| <= MaxTradeJournalSize
    ensures |s| <= MaxTradeJournalSize ==> r == s
    ensures |s| > MaxTradeJournalSize ==> |r| == MaxTradeJournalSize
  {
    Newest(s, MaxTradeJournalSize)
  }

  /** The window is the whole sequence while it fits, and otherwise the
      suffix of `MaxTradeJournalSize` elements. */
  lemma WindowOf(s: seq<Trade>)
    ensures Window(s) == if |s| <= MaxTradeJournalSize then s else s[|s| - MaxTradeJournalSize..]
  {
    NewestSuffix(s, MaxTradeJournalSize);
  }

  /** A journal within its bound is its own window. */
  lemma WindowStart(j: seq<Trade>, ts: seq<Trade>)
    requires |j| <= MaxTradeJournalSize && ts == []
    ensures Window(j + ts) == j
  {
    assert j + ts == j;
  }

  /** Appending one trade to a journal within its bound: the oldest trade
      drops out once the journal is full. */
  lemma WindowPush(j: seq<Trade>, t: Trade)
    requires |j| <= MaxTradeJournalSize
    ensures Window(j + [t]) == if |j| == MaxTradeJournalSize then j[1..] + [t] else j + [t]
  {
    if |j| == MaxTradeJournalSize {
      WindowOf(j + [t]);
      assert (j + [t])[1..] == j[1..] + [t];
    }
  }

  /** Appending to the bounded journal, one trade at a time, keeps it the
      window of everything ever appended. */
  lemma WindowAppend(j: seq<Trade>, ts: seq<Trade>, t: Trade)
    ensures Window(Window(j + ts) + [t]) == Window(j + (ts + [t]))
  {
    var s := j + ts;
    assert j + (ts + [t]) == s + [t];
    WindowOf(s);
    WindowOf(Window(s) + [t]);
    WindowOf(s + [t]);
    if |s| >= MaxTradeJournalSize {
      assert (s + [t])[|s| + 1 - MaxTradeJournalSize..] == s[|s| + 1 - MaxTradeJournalSize..] + [t];
    }
  }

  /** What the engine keeps true of each of its books between orders: the
      book's own invariant, balanced registry entries and positive level
      prices (a resting order was validated with a positive price). */
  ghost predicate Ready(b: OrderBook)
    reads b, b.bbo
  {
    b.Valid() && Ledger(b.registry) && PositivePrices(b.bids) && PositivePrices(b.asks)
  }

  /** What `Ready` says about one side of the book. */
  lemma ReadySide(b: OrderBook, side: Side)
    requires Ready(b)
    ensures Linked(side, b.SideBook(side), b.registry) && NoEmptyLevels(b.SideBook(side))
    ensures RestingPositive(b.SideBook(side), b.registry) && PositivePrices(b.SideBook(side))
  {
  }

  /** `Ready` from what it says about each side. */
  lemma ReadyFromSides(b: OrderBook, side: Side)
    requires b.WellFormed() && b.InSync() && Ledger(b.registry)
    requires RestingPositive(b.SideBook(side), b.registry) && PositivePrices(b.SideBook(side))
    requires RestingPositive(b.SideBook(Opposite(side)), b.registry) && PositivePrices(b.SideBook(Opposite(side)))
    ensures Ready(b)
  {
  }

  /** `done` is `taker` after fills worth `amount`: only `filled`,
      `remaining` and `status` moved, the balance holds, and once it traded
      its status is FILLED exactly when nothing remains and PARTIAL otherwise. */
  ghost predicate Took(taker: Order, done: Order, amount: real, traded: bool)
  {
    && done == taker.(filled := taker.filled + amount, remaining := taker.remaining - amount, status := done.status)
    && Balanced(done)
    && (traded ==> (done.status == Filled <==> done.remaining == 0.0) && (done.status == Partial <==> done.remaining > 0.0))
    && (!traded ==> done == taker)
  }

  /** A trade `taker` made: on its symbol, with it as the aggressor, at no
      fee, and acceptable to the trade's own checks. */
  ghost predicate MadeOne(taker: Order, t: Trade)
  {
    && t.symbol == taker.symbol && t.aggressor == taker.side && t.takerId == taker.id
    && t.makerFee == 0.0 && t.takerFee == 0.0 && WellFormedTrade(t)
  }

  /** Every trade is one `taker` made. */
  ghost predicate MadeBy(taker: Order, trades: seq<Trade>)
  {
    forall k :: 0 <= k < |trades| ==> MadeOne(taker, trades[k])
  }

  /** The queue a taker on `side` matches against in book `b`. */
  ghost function OppositeQueue(b: OrderBook, side: Side): seq<Maker>
    reads b
    requires b.WellFormed()
  {
    b.SideFacts(Opposite(side));
    Queue(Opposite(side), b.SideBook(Opposite(side)), b.registry)
  }

  /** A single accepted fill of a balanced order. */
  lemma TookOne(taker: Order, q: real)
    requires Balanced(taker) && UpdateFill(taker, q).Ok?
    ensures Took(taker, UpdateFill(taker, q).value, q, true)
  {
    FillKeepsBalance(taker, q);
  }

  /** Before any trade the taker is as it came, and has made nothing. */
  lemma TookNothing(taker: Order, trades: seq<Trade>)
    requires Balanced(taker) && trades == []
    ensures Took(taker, taker, SumQty(FillsOf(trades)), trades != [])
    ensures MadeBy(taker, trades)
  {
    assert FillsOf(trades) == [];
  }

  /** A single trade the order made as the taker. */
  lemma MadeByOne(taker: Order, t: Trade)
    requires t.symbol == taker.symbol && t.aggressor == taker.side && t.takerId == taker.id
    requires t.makerFee == 0.0 && t.takerFee == 0.0 && WellFormedTrade(t)
    ensures MadeBy(taker, [t])
  {
    assert [t][0] == t;
  }

  /** One more trade of `t.quantity` on top of fills worth `SumQty` of the
      earlier trades leaves the taker as if it took both at once. */
  lemma TookMore(taker: Order, before: Order, done: Order, trades0: seq<Trade>, t: Trade)
    requires Took(taker, before, SumQty(FillsOf(trades0)), trades0 != [])
    requires Took(before, done, t.quantity, true)
    ensures Took(taker, done, SumQty(FillsOf(trades0 + [t])), true)
  {
    FillsOfAppend(trades0, t);
  }

  /** Two runs of trades of the same order, one after the other, are one run. */
  lemma TookThen(taker: Order, mid: Order, done: Order, a: seq<Trade>, b: seq<Trade>)
    requires Took(taker, mid, SumQty(FillsOf(a)), a != [])
    requires Took(mid, done, SumQty(FillsOf(b)), b != [])
    ensures Took(taker, done, SumQty(FillsOf(a + b)), a + b != [])
  {
    FillsOfConcat(a, b);
    SumQtyAppend(FillsOf(a), FillsOf(b));
    if b == [] {
      assert a + b == a;
    } else if a == [] {
      assert a + b == b;
    }
  }

  /** Two runs of trades of orders with the same symbol, side and id are
      one run. */
  lemma MadeByThen(taker: Order, mid: Order, a: seq<Trade>, b: seq<Trade>)
    requires MadeBy(taker, a) && MadeBy(mid, b)
    requires mid.symbol == taker.symbol && mid.side == taker.side && mid.id == taker.id
    ensures MadeBy(taker, a + b)
  {
    var ts := a + b;
    forall k | 0 <= k < |ts| ensures MadeOne(taker, ts[k]) {
      if k < |a| {
        assert ts[k] == a[k];
      } else {
        assert ts[k] == b[k - |a|] && MadeOne(mid, b[k - |a|]);
      }
    }
  }

  /** Where `_fill_against_book` stands after some levels: `done` is the
      taker after `trades`, all of them its own, the journal `j` and the
      count `c` grew by them from `j0` and `c0`, the queue went from `q0`
      to `q` along the plan, and the registry from `reg0` to `reg` took
      its fills. */
  ghost predicate FillProgress(taker: Order, done: Order, trades: seq<Trade>, q0: seq<Maker>, q: seq<Maker>,
                               limit: Option<real>, j0: seq<Trade>, j: seq<Trade>, c0: nat, c: nat,
                               reg0: map<OrderId, Order>, reg: map<OrderId, Order>)
  {
    && done.side == taker.side && done.symbol == taker.symbol && done.id == taker.id
    && Took(taker, done, SumQty(FillsOf(trades)), trades != [])
    && MadeBy(taker, trades)
    && j == Window(j0 + trades) && c == c0 + |trades|
    && Advances(q0, taker.remaining, q, done.remaining, FillsOf(trades), limit, taker.side)
    && reg == Applied(reg0, FillsOf(trades))
  }

  /** One more level's run after the runs before it: together they are
      one run of the taker, one stretch of the plan, and one append to the
      journal. */
  lemma FillThen(taker: Order, mid: Order, done: Order, a: seq<Trade>, b: seq<Trade>,
                 q0: seq<Maker>, q1: seq<Maker>, q2: seq<Maker>, limit: Option<real>,
                 j0: seq<Trade>, j1: seq<Trade>, j2: seq<Trade>, c0: nat, c1: nat, c2: nat,
                 reg0: map<OrderId, Order>, reg1: map<OrderId, Order>, reg2: map<OrderId, Order>)
    requires FillProgress(taker, mid, a, q0, q1, limit, j0, j1, c0, c1, reg0, reg1)
    requires Took(mid, done, SumQty(FillsOf(b)), b != []) && MadeBy(mid, b)
    requires Advances(q1, mid.remaining, q2, done.remaining, FillsOf(b), limit, mid.side)
    requires j2 == Window(j1 + b) && c2 == c1 + |b|
    requires reg2 == Applied(reg1, FillsOf(b))
    ensures FillProgress(taker, done, a + b, q0, q2, limit, j0, j2, c0, c2, reg0, reg2)
  {
    AppliedConcat(reg0, FillsOf(a), FillsOf(b));
    TookThen(taker, mid, done, a, b);
    MadeByThen(taker, mid, a, b);
    AdvancesMore(q0, taker.remaining, q1, mid.remaining, q2, done.remaining, FillsOf(a), FillsOf(b), limit, taker.side);
    FillsOfConcat(a, b);
    WindowConcat(j0, a, b);
  }

  /** Appending a whole run to the bounded journal is appending its trades
      one by one. */
  lemma WindowConcat(j: seq<Trade>, a: seq<Trade>, b: seq<Trade>)
    ensures Window(Window(j + a) + b) == Window(j + (a + b))
  {
    var s := j + a;
    assert j + (a + b) == s + b;
    WindowOf(s);
    WindowOf(s + b);
    if |s| > MaxTradeJournalSize {
      var w := Window(s);
      WindowOf(w + b);
      assert w + b == (s + b)[|s| - MaxTradeJournalSize..];
      if |w + b| > MaxTradeJournalSize {
        assert (w + b)[|w + b| - MaxTradeJournalSize..] == (s + b)[|s + b| - MaxTradeJournalSize..];
      }
    }
  }

  /** Once the queue has nothing more to give the taker, what it got so far
      is the whole plan and the queue is what the plan leaves. */
  lemma AdvancesDone(side: Side, limit: Option<real>, q0: seq<Maker>, n0: real, fills: seq<Fill>,
                     bs: BookSide, reg: map<OrderId, Order>, q1: seq<Maker>, n1: real)
    requires Linked(Opposite(side), bs, reg) && NoEmptyLevels(bs)
    requires q1 == Queue(Opposite(side), bs, reg) && Advances(q0, n0, q1, n1, fills, limit, side)
    requires n1 <= 0.0 || bs.prices == [] || Beyond(side, bs.prices[0], limit)
    ensures fills == Plan(q0, n0, limit, side) && q1 == Rest(q0, n0, limit, side)
  {
    QueueHead(Opposite(side), bs, reg);
    assert Plan(q1, n1, limit, side) == [] && Rest(q1, n1, limit, side) == q1;
  }

  /** `MatchStep` restated on the queues and the fill as the engine names
      them: one trade is the first stretch of the plan. */
  lemma OldestAdvances(side: Side, limit: Option<real>, need: real, q: real, m: OrderId,
                  own: BookSide, bs: BookSide, reg: map<OrderId, Order>, bs': BookSide, reg': map<OrderId, Order>,
                  q0: seq<Maker>, q1: seq<Maker>, need1: real, f: Fill)
    requires Linked(Opposite(side), bs, reg) && NoEmptyLevels(bs) && RestingPositive(bs, reg) && PositivePrices(bs)
    requires Linked(side, own, reg) && RestingPositive(own, reg) && Ledger(reg)
    requires bs.prices != [] && need > 0.0 && !Beyond(side, bs.prices[0], limit)
    requires bs.prices[0] in bs.levels && bs.levels[bs.prices[0]].orders != []
    requires m == bs.levels[bs.prices[0]].orders[0] && m in reg
    requires q == Min(need, reg[m].remaining) && FilledEntry(reg, reg', m, q)
    requires Shaped(Opposite(side), bs')
    requires if reg'[m].remaining == 0.0 then bs'.levels == LevelsWithout(bs.levels, Some(bs.prices[0]), m) else bs' == bs
    requires Linked(Opposite(side), bs', reg')
    requires q0 == Queue(Opposite(side), bs, reg) && q1 == Queue(Opposite(side), bs', reg')
    requires need1 == need - q && f == Fill(m, bs.prices[0], q)
    ensures Advances(q0, need, q1, need1, [f], limit, side)
    ensures |q1| <= |q0| && (|q1| < |q0| || need1 == 0.0)
  {
    MatchStep(side, limit, need, q, m, own, bs, reg, bs', reg');
  }

  /** An order as `submit_order` hands it to a strategy straight from the
      constructor: nothing filled yet, everything remaining. */
  ghost predicate Fresh(o: Order)
  {
    o.filled == 0.0 && o.remaining == o.quantity
  }

  /** `order` swept the queue `q0` up to `limit`, leaving `q1`: its trades
      are the plan, `q1` is what the plan leaves, every trade is one it
      made, and `done` is the order with the traded quantity moved from
      remaining to filled. */
  ghost predicate Swept(q0: seq<Maker>, q1: seq<Maker>, order: Order, limit: Option<real>, done: Order, trades: seq<Trade>)
  {
    && FillsOf(trades) == Plan(q0, order.remaining, limit, order.side)
    && q1 == Rest(q0, order.remaining, limit, order.side)
    && MadeBy(order, trades)
    && done == order.(filled := order.filled + SumQty(FillsOf(trades)),
                      remaining := order.remaining - SumQty(FillsOf(trades)), status := done.status)
  }

  /** `_is_marketable`: an order without a price always is; a buy is when
      an ask exists at or below its price, a sell when a bid exists at or
      above it. */
  function Marketable(book: OrderBook, order: Order): (r: bool)
    reads book
    requires book.WellFormed()
    ensures order.price.None? ==> r
    ensures order.price.Some? && order.orderType != Market ==>
      (r <==> IsMarketable(order, book.GetBestBid(), book.GetBestAsk()))
  {
    if order.price.None? then true
    else if order.side == Buy then book.GetBestAsk().Some? && order.price.value >= book.GetBestAsk().value
    else book.GetBestBid().Some? && order.price.value <= book.GetBestBid().value
  }

  /** For a priced order with something left, being marketable is exactly
      having a non-empty plan against the opposite queue with its price as
      the limit; an order that is not marketable finds the opposite best
      beyond its price or no opposite side at all. */
  lemma MarketableIffPlans(book: OrderBook, order: Order)
    requires Ready(book) && order.remaining > 0.0
    ensures order.price.Some? ==>
      (Marketable(book, order) <==> Plan(OppositeQueue(book, order.side), order.remaining, order.price, order.side) != [])
    ensures var opp := book.SideBook(Opposite(order.side));
      !Marketable(book, order) ==> opp.prices == [] || Beyond(order.side, opp.prices[0], order.price)
  {
    var side := order.side;
    var opp := Opposite(side);
    var bs := book.SideBook(opp);
    ReadySide(book, opp);
    QueueHead(opp, bs, book.registry);
    var q := OppositeQueue(book, side);
    assert q == Queue(opp, bs, book.registry);
    assert book.GetBestAsk() == Best(book.asks) && book.GetBestBid() == Best(book.bids);
    if q != [] {
      assert q[0].price == bs.prices[0];
      if !Beyond(side, q[0].price, order.price) {
        PlanStep(q, order.remaining, order.price, side);
      }
    }
  }

  /** A plan that still has a fill to make starts at the oldest order of the
      best opposite level, for the smaller of the two remainders. */
  lemma PlanStartsAtHead(side: Side, bs: BookSide, reg: map<OrderId, Order>, need: real, limit: Option<real>)
    requires Linked(Opposite(side), bs, reg) && NoEmptyLevels(bs)
    requires Plan(Queue(Opposite(side), bs, reg), need, limit, side) != []
    ensures need > 0.0 && bs.prices != [] && !Beyond(side, bs.prices[0], limit)
    ensures QueueAt(bs, bs.prices[0]) != [] && QueueAt(bs, bs.prices[0])[0] in reg
    ensures var m := QueueAt(bs, bs.prices[0])[0];
      Plan(Queue(Opposite(side), bs, reg), need, limit, side)[0] == Fill(m, bs.prices[0], Min(need, reg[m].remaining))
  {
    var q := Queue(Opposite(side), bs, reg);
    PlanHead(q, need, limit, side);
    QueueHead(Opposite(side), bs, reg);
    assert bs.levels[bs.prices[0]].orders[0] in bs.levels[bs.prices[0]].orders;
  }

  /** `order_book.order_registry[order.order_id] = order`: registers an
      order that rests nowhere, so no queue and no level changes. */
  method Register(book: OrderBook, o: Order)
    requires Ready(book) && o.id !in book.registry && Balanced(o)
    modifies book`registry
    ensures Ready(book) && book.registry.Keys == old(book.registry.Keys) + {o.id} && book.registry[o.id] == o
    ensures book.registry == old(book.registry)[o.id := o]
    ensures OppositeQueue(book, o.side) == old(OppositeQueue(book, o.side))
  {
    ReadySide(book, Buy);
    ReadySide(book, Sell);
    GrowLinked(Buy, book.bids, book.registry, o);
    GrowLinked(Sell, book.asks, book.registry, o);
    QueueIgnoresOthers(Opposite(o.side), book.SideBook(Opposite(o.side)), book.registry, o);
    book.registry := book.registry[o.id := o];
  }

  /** A valid book that gained one balanced order, resting at a positive
      price, is still one the engine keeps. */
  lemma ReadyAfterRest(b: OrderBook, reg0: map<OrderId, Order>, own0: BookSide, o: Order)
    requires b.Valid() && Ledger(reg0) && Balanced(o) && b.registry == reg0[o.id := o]
    requires PositivePrices(own0) && o.price.Some? && o.price.value > 0.0
    requires b.SideBook(o.side).levels.Keys == own0.levels.Keys + {o.price.value}
    requires PositivePrices(b.SideBook(Opposite(o.side)))
    ensures Ready(b)
  {
    assert PositivePrices(b.SideBook(o.side));
  }

  /** Both sides of a book the engine keeps are well shaped. */
  lemma ReadyShaped(b: OrderBook)
    requires Ready(b)
    ensures Shaped(Buy, b.bids) && Shaped(Sell, b.asks)
  {
  }

  /** The status the engine gives an order that swept the book: an
      untraded remainder gets `idle` (CANCELLED for market and IOC orders,
      PENDING for a resting limit order), a traded one is partial, a filled
      order stays filled; the sweep itself is the plan. */
  lemma SettledSweep(q0: seq<Maker>, q1: seq<Maker>, order: Order, limit: Option<real>,
                     filled: Order, done: Order, trades: seq<Trade>, idle: Status)
    requires Fresh(order) && order.quantity > 0.0
    requires FillsOf(trades) == Plan(q0, order.remaining, limit, order.side)
    requires q1 == Rest(q0, order.remaining, limit, order.side)
    requires Took(order, filled, SumQty(FillsOf(trades)), trades != []) && MadeBy(order, trades)
    requires done == if IsFullyFilled(filled) then filled
                     else filled.(status := if trades == [] then idle else Partial)
    requires idle == Pending || idle == Cancelled
    ensures Swept(q0, q1, order, limit, done, trades) && Handled(order, done, trades)
    ensures done.status == if done.remaining == 0.0 then Filled else if trades == [] then idle else Partial
    ensures done.id == order.id && done.side == order.side
  {
    assert trades == [] ==> FillsOf(trades) == [];
    SettledFrom(order, done, trades, idle);
  }

  /** Every trade is for a positive quantity, so an order that traded has
      filled something. */
  lemma {:induction false} TradedPositive(taker: Order, trades: seq<Trade>)
    requires MadeBy(taker, trades) && trades != []
    ensures SumQty(FillsOf(trades)) > 0.0
  {
    var fs := FillsOf(trades);
    assert MadeOne(taker, trades[0]);
    assert fs[0].quantity > 0.0;
    if |trades| == 1 {
      assert fs[1..] == [];
    } else {
      assert FillsOf(trades[1..]) == fs[1..];
      assert MadeBy(taker, trades[1..]) by {
        forall k | 0 <= k < |trades[1..]| ensures MadeOne(taker, trades[1..][k]) {
          assert trades[1..][k] == trades[k + 1];
        }
      }
      TradedPositive(taker, trades[1..]);
    }
  }

  /** What the engine makes of every order it accepts: settled, every
      trade one it made, and the traded quantity moved from remaining to
      filled. */
  ghost predicate Handled(order: Order, done: Order, trades: seq<Trade>)
  {
    && Settled(done) && MadeBy(order, trades)
    && done == order.(filled := order.filled + SumQty(FillsOf(trades)),
                      remaining := order.remaining - SumQty(FillsOf(trades)), status := done.status)
  }

  /** An order the engine processed from fresh, whose untraded remainder
      got `idle` and whose traded one got PARTIAL, is settled. */
  lemma SettledFrom(order: Order, done: Order, trades: seq<Trade>, idle: Status)
    requires Fresh(order) && order.quantity > 0.0 && MadeBy(order, trades) && Balanced(done)
    requires done == order.(filled := order.filled + SumQty(FillsOf(trades)),
                            remaining := order.remaining - SumQty(FillsOf(trades)), status := done.status)
    requires done.status == if done.remaining == 0.0 then Filled else if trades == [] then idle else Partial
    requires idle == Pending || idle == Cancelled
    ensures Settled(done)
  {
    if trades != [] {
      TradedPositive(order, trades);
    } else {
      assert FillsOf(trades) == [];
    }
  }

  /** A killed order: CANCELLED with nothing traded, still settled. */
  lemma Killed(order: Order)
    requires Validate(order).Pass? && Fresh(order)
    ensures Handled(order, order.(status := Cancelled), [])
  {
    assert FillsOf([]) == [];
  }

  /** The registry after a submission, from `reg0` to `reg1`: every fill
      the order got written back into its maker's entry, the order itself
      registered as it ended, and every other entry unchanged. */
  ghost predicate Booked(reg0: map<OrderId, Order>, reg1: map<OrderId, Order>, order: Order, done: Order, trades: seq<Trade>)
  {
    reg1 == Applied(reg0, FillsOf(trades))[order.id := done]
  }

  /** The side `own1` is `own0` with `id` at the tail of the queue at
      `price` (a new level when there was none) and every other level as it
      was. */
  ghost predicate RestsAt(own0: BookSide, own1: BookSide, price: real, id: OrderId)
  {
    && own1.levels.Keys == own0.levels.Keys + {price}
    && own1.levels[price].orders == QueueAt(own0, price) + [id]
    && forall p :: p in own0.levels && p != price ==> own1.levels[p] == own0.levels[p]
  }

  /** What `submit_order` does with an order of each type, given the
      opposite queue before (`q0`) and after (`q1`), the order's own side
      before and after (`own0`, `own1`) and the opposite side before and
      after (`opp0`, `opp1`). MARKET sweeps with no limit and IOC up to its
      price, neither rests, and an untraded remainder is CANCELLED. FOK
      sweeps only when the plan covers the whole quantity, and is otherwise
      CANCELLED with both sides untouched. LIMIT sweeps up to its price and
      rests any remainder at the tail of its level, PENDING when it did not
      trade. */
  ghost predicate ByType(order: Order, done: Order, trades: seq<Trade>, q0: seq<Maker>, q1: seq<Maker>,
                         own0: BookSide, own1: BookSide, opp0: BookSide, opp1: BookSide)
  {
    match order.orderType
    case Market =>
      && Swept(q0, q1, order, None, done, trades)
      && done.status == (if done.remaining == 0.0 then Filled else if trades == [] then Cancelled else Partial)
      && own1 == own0
    case IOC =>
      && Swept(q0, q1, order, order.price, done, trades)
      && done.status == (if done.remaining == 0.0 then Filled else if trades == [] then Cancelled else Partial)
      && own1 == own0
    case FOK =>
      && own1 == own0
      && if SumQty(Plan(q0, order.quantity, order.price, order.side)) == order.quantity then
           Swept(q0, q1, order, order.price, done, trades) && done.remaining == 0.0 && done.status == Filled
         else
           trades == [] && done == order.(status := Cancelled) && opp1 == opp0
    case Limit =>
      && order.price.Some?
      && Swept(q0, q1, order, order.price, done, trades)
      && done.status == (if done.remaining == 0.0 then Filled else if trades == [] then Pending else Partial)
      && (done.remaining == 0.0 ==> own1 == own0)
      && (done.remaining != 0.0 ==> RestsAt(own0, own1, order.price.value, order.id))
  }

  /** `order_book.remove_order` as `cancel_order` uses it: an unknown id
      changes nothing; otherwise the order leaves its level (an emptied
      level goes) and the registry, every other resting order keeps its
      level and its place in the queue, the other side is untouched, and the
      book stays one the engine keeps, uncrossed. */
  method Withdraw(book: OrderBook, id: OrderId) returns (r: Option<Order>)
    requires Ready(book) && book.NotCrossed()
    modifies book`bids, book`asks, book`registry, book.bbo
    ensures Ready(book) && book.NotCrossed()
    ensures r == if id in old(book.registry) then Some(old(book.registry)[id]) else None
    ensures book.registry == old(book.registry) - {id}
    ensures id !in old(book.registry) ==> book.bids == old(book.bids) && book.asks == old(book.asks)
    ensures id in old(book.registry) ==>
      var o := old(book.registry)[id];
      && book.SideBook(o.side).levels == LevelsWithout(old(book.SideBook(o.side)).levels, o.price, id)
      && book.SideBook(Opposite(o.side)) == old(book.SideBook(Opposite(o.side)))
    ensures forall p, x :: p in book.bids.levels && x in book.bids.levels[p].orders <==>
      p in old(book.bids).levels && x in old(book.bids).levels[p].orders && x != id
    ensures forall p, x :: p in book.asks.levels && x in book.asks.levels[p].orders <==>
      p in old(book.asks).levels && x in old(book.asks).levels[p].orders && x != id
    ensures forall p :: p in book.bids.levels ==> id !in book.bids.levels[p].orders
    ensures forall p :: p in book.asks.levels ==> id !in book.asks.levels[p].orders
  {
    ghost var bids0, asks0 := book.bids, book.asks;
    ReadyShaped(book);
    r := book.RemoveOrder(id);
    forall p | p in book.bids.levels ensures p in bids0.levels {
      var x := book.bids.levels[p].orders[0];
      assert p in book.bids.levels && x in book.bids.levels[p].orders;
    }
    forall p | p in book.asks.levels ensures p in asks0.levels {
      var x := book.asks.levels[p].orders[0];
      assert p in book.asks.levels && x in book.asks.levels[p].orders;
    }
    ReadyShaped(book);
    FewerLevelsUncrossed(bids0, asks0, book.bids, book.asks);
  }

  class MatchingEngine {
    var books: map<string, OrderBook>
    var journal: seq<Trade>
    var ordersProcessed: nat
    var tradesExecuted: nat
    var ordersFilled: nat
    var ordersPartial: nat
    var ordersCancelled: nat
    /** The books and their BBO managers, which the engine changes. */
    ghost var Repr: set<object>

    /** The engine's own shape: a bounded journal, one book per symbol filed
        under its own symbol, and no two symbols sharing a book or a BBO
        manager. */
    ghost predicate Valid()
      reads this
    {
      |journal| <= MaxTradeJournalSize && Filed()
    }

    /** One book per symbol, filed under its own symbol, and no two symbols
        sharing a book or a BBO manager. */
    ghost predicate Filed()
      reads this`books, this`Repr
    {
      forall s :: s in books ==>
        books[s] in Repr && books[s].bbo in Repr && books[s].symbol == s && books[s].bbo.symbol == s
    }

    /** The book of `symbol`, if there is one, is one the engine keeps:
        `Ready` and uncrossed. */
    ghost predicate BookReady(symbol: string)
      reads this`books, this`Repr, BookOf(symbol)
      requires Filed()
    {
      symbol in books ==> Ready(books[symbol]) && books[symbol].NotCrossed()
    }

    /** Every book is one the engine keeps. Each operation touches one
        symbol's book, keeps `BookReady` for it and changes no other book. */
    ghost predicate AllReady()
      reads this, Repr
      requires Valid()
    {
      forall s :: s in books ==> BookReady(s)
    }

    /** What an operation on `symbol` may change besides the engine: that
        symbol's book and its BBO manager. */
    ghost function BookOf(symbol: string): set<object>
      reads this`books
    {
      if symbol in books then {books[symbol], books[symbol].bbo} else {}
    }

    /** `__init__`: no books, an empty journal, every counter at zero. */
    constructor ()
      ensures Valid() && AllReady() && books == map[] && journal == []
      ensures ordersProcessed == 0 && tradesExecuted == 0
      ensures ordersFilled == 0 && ordersPartial == 0 && ordersCancelled == 0
    {
      books := map[];
      Repr := {};
      journal := [];
      ordersProcessed := 0;
      tradesExecuted := 0;
      ordersFilled := 0;
      ordersPartial := 0;
      ordersCancelled := 0;
    }

    /** One side of the symbol's book; empty while the symbol has none. */
    ghost function SideOf(symbol: string, side: Side): BookSide
      reads this`books, BookOf(symbol)
    {
      if symbol in books then books[symbol].SideBook(side) else EmptySide
    }

    /** The registry of the symbol's book; empty while the symbol has none. */
    ghost function RegistryOf(symbol: string): map<OrderId, Order>
      reads this`books, BookOf(symbol)
    {
      if symbol in books then books[symbol].registry else map[]
    }

    /** The queue an order of `side` on `symbol` meets: the opposite queue
        of the symbol's book, and nothing while the symbol has none. */
    ghost function QueueFacing(symbol: string, side: Side): seq<Maker>
      reads this`books, this`Repr, BookOf(symbol)
      requires Filed() && BookReady(symbol)
    {
      if symbol in books then OppositeQueue(books[symbol], side) else []
    }

    /** `_get_or_create_order_book`: the symbol's book, created empty the
        first time the symbol is seen. */
    method GetOrCreateBook(symbol: string) returns (book: OrderBook)
      requires Valid() && BookReady(symbol)
      modifies this`books, this`Repr
      ensures Valid() && BookReady(symbol) && symbol in books && book == books[symbol]
      ensures forall s :: s in old(books) ==> s in books && books[s] == old(books)[s]
      ensures symbol in old(books) ==> books == old(books) && Repr == old(Repr)
      ensures symbol !in old(books) ==>
        && fresh(book) && fresh(book.bbo) && books == old(books)[symbol := book] && Repr == old(Repr) + {book, book.bbo}
        && book.registry == map[] && book.bids == EmptySide && book.asks == EmptySide
      ensures forall side :: book.SideBook(side) == old(SideOf(symbol, side)) == SideOf(symbol, side)
      ensures book.registry == old(RegistryOf(symbol)) == RegistryOf(symbol)
      ensures forall side :: OppositeQueue(book, side) == old(QueueFacing(symbol, side)) == QueueFacing(symbol, side)
    {
      if symbol !in books {
        var created := new OrderBook(symbol);
        books := books[symbol := created];
        Repr := Repr + {created, created.bbo};
      }
      book := books[symbol];
    }

    /** `get_order_status`: the registered order, if the symbol has a book
        and the book knows the id. */
    function GetOrderStatus(id: OrderId, symbol: string): (r: Option<Order>)
      reads this, Repr
      requires Valid() && BookReady(symbol)
      ensures r.Some? <==> symbol in books && id in books[symbol].registry
      ensures r.Some? ==> r.value == books[symbol].registry[id] && r.value.id == id && Balanced(r.value)
    {
      if symbol in books && id in books[symbol].registry then Some(books[symbol].registry[id]) else None
    }

    /** `cancel_order`: an unknown symbol or an id the symbol's book does
        not hold is an error; otherwise the order leaves the book and the
        registry, whatever its status (a filled order still registered is
        cancelled too), comes back CANCELLED and is counted. */
    method CancelOrder(id: OrderId, symbol: string) returns (r: Result<Order, Error>)
      requires Valid() && BookReady(symbol)
      modifies this`ordersCancelled, BookOf(symbol)
      ensures Valid() && BookReady(symbol)
      ensures symbol !in books ==> r == Err(OrderNotFound(UnknownSymbol)) && ordersCancelled == old(ordersCancelled)
      ensures symbol in books && id !in old(books[symbol].registry) ==>
        && r == Err(OrderNotFound(UnknownOrder)) && ordersCancelled == old(ordersCancelled)
        && books[symbol].registry == old(books[symbol].registry)
        && books[symbol].bids == old(books[symbol].bids) && books[symbol].asks == old(books[symbol].asks)
      ensures symbol in books && id in old(books[symbol].registry) ==>
        && r == Ok(old(books[symbol].registry[id]).(status := Cancelled))
        && books[symbol].registry == old(books[symbol].registry) - {id}
        && (forall p :: p in books[symbol].bids.levels ==> id !in books[symbol].bids.levels[p].orders)
        && (forall p :: p in books[symbol].asks.levels ==> id !in books[symbol].asks.levels[p].orders)
        && ordersCancelled == old(ordersCancelled) + 1
      ensures symbol in books && id in old(books[symbol].registry) ==>
        var b, o := books[symbol], old(books[symbol].registry[id]);
        && b.SideBook(o.side).levels == LevelsWithout(old(b.SideBook(o.side)).levels, o.price, id)
        && b.SideBook(Opposite(o.side)) == old(b.SideBook(Opposite(o.side)))
      ensures symbol in books ==>
        var b := books[symbol];
        && (forall p, x :: p in b.bids.levels && x in b.bids.levels[p].orders <==>
              p in old(b.bids).levels && x in old(b.bids).levels[p].orders && x != id)
        && (forall p, x :: p in b.asks.levels && x in b.asks.levels[p].orders <==>
              p in old(b.asks).levels && x in old(b.asks).levels[p].orders && x != id)
    {
      if symbol !in books {
        r := Err(OrderNotFound(UnknownSymbol));
      } else {
        var book := books[symbol];
        var removed := Withdraw(book, id);
        if removed.None? {
          r := Err(OrderNotFound(UnknownOrder));
        } else {
          ordersCancelled := ordersCancelled + 1;
          r := Ok(removed.value.(status := Cancelled));
        }
      }
    }

    /** `submit_order`: an order that fails its own validation is an error
        and changes nothing. Otherwise it goes to its symbol's book (created
        on first use), is matched by the strategy of its type, ends settled
        and registered, and is counted once as processed and once more as
        filled, partial or cancelled by the status it ends with. The result
        carries the order, its trades, its status and the message for it. */
    method SubmitOrder(order: Order) returns (r: Result<OrderResult, Error>)
      requires Valid() && BookReady(order.symbol)
      requires Fresh(order) && (order.symbol in books ==> order.id !in books[order.symbol].registry)
      modifies this, BookOf(order.symbol)
      ensures Valid() && BookReady(order.symbol)
      ensures forall s :: s in old(books) ==> s in books && books[s] == old(books)[s]
      ensures Validate(order).Fail? ==> r == Err(Validate(order).error) && unchanged(this)
      ensures Validate(order).Pass? ==> r.Ok? && order.symbol in books
      ensures r.Ok? ==> Submitted(old(journal), old(tradesExecuted), order, r.value)
      ensures r.Ok? ==> order.id in books[order.symbol].registry && r.value.order == books[order.symbol].registry[order.id]
      ensures r.Ok? ==> Booked(old(RegistryOf(order.symbol)), RegistryOf(order.symbol), order, r.value.order, r.value.trades)
      ensures r.Ok? ==> Counted(old(ordersProcessed), old(ordersFilled), old(ordersPartial), old(ordersCancelled), r.value.status)
      // `== true` has this checked as one fact rather than case by case of `ByType`
      ensures r.Ok? ==> ByType(order, r.value.order, r.value.trades,
                               old(QueueFacing(order.symbol, order.side)), OppositeQueue(books[order.symbol], order.side),
                               old(SideOf(order.symbol, order.side)), books[order.symbol].SideBook(order.side),
                               old(SideOf(order.symbol, Opposite(order.side))), books[order.symbol].SideBook(Opposite(order.side))) == true
    {
      var v := Validate(order);
      if v.Fail? {
        return Err(v.error);
      }
      var book := GetOrCreateBook(order.symbol);
      r := SubmitTo(book, order);
      assert books[order.symbol] == book;
    }

    /** The result of a submission: the order as it ended, settled, with
        the traded quantity moved from remaining to filled, the trades it
        made, its status and the message for it; the journal got the
        trades. */
    ghost predicate Submitted(journal0: seq<Trade>, executed0: nat, order: Order, res: OrderResult)
      reads this`journal, this`tradesExecuted
    {
      && Handled(order, res.order, res.trades)
      && res.status == res.order.status && res.message == ResultMessage(res.order)
      && journal == Window(journal0 + res.trades) && tradesExecuted == executed0 + |res.trades|
    }

    /** The counters after one more processed order with final `status`. */
    ghost predicate Counted(processed0: nat, filled0: nat, partial0: nat, cancelled0: nat, status: Status)
      reads this`ordersProcessed, this`ordersFilled, this`ordersPartial, this`ordersCancelled
    {
      && ordersProcessed == processed0 + 1
      && ordersFilled == filled0 + (if status == Filled then 1 else 0)
      && ordersPartial == partial0 + (if status == Partial then 1 else 0)
      && ordersCancelled == cancelled0 + (if status == Cancelled then 1 else 0)
    }

    /** `submit_order` once the book is at hand: dispatch, count, report. */
    method SubmitTo(book: OrderBook, order: Order) returns (r: Result<OrderResult, Error>)
      requires Valid() && order.symbol in books && book == books[order.symbol] && BookReady(order.symbol)
      requires Validate(order).Pass? && Fresh(order) && order.id !in book.registry
      modifies this`journal, this`tradesExecuted, this`ordersProcessed, this`ordersFilled, this`ordersPartial,
        this`ordersCancelled, book`bids, book`asks, book`registry, book.bbo
      ensures Valid() && BookReady(order.symbol) && r.Ok?
      ensures Submitted(old(journal), old(tradesExecuted), order, r.value)
      ensures order.id in book.registry && r.value.order == book.registry[order.id]
      ensures Booked(old(book.registry), book.registry, order, r.value.order, r.value.trades)
      ensures Counted(old(ordersProcessed), old(ordersFilled), old(ordersPartial), old(ordersCancelled), r.value.status)
      // `== true`: as in `SubmitOrder`
      ensures ByType(order, r.value.order, r.value.trades, old(OppositeQueue(book, order.side)), OppositeQueue(book, order.side),
                     old(book.SideBook(order.side)), book.SideBook(order.side),
                     old(book.SideBook(Opposite(order.side))), book.SideBook(Opposite(order.side))) == true
    {
      r := Run(book, order);
    }

    /** The body of `submit_order` on the book: dispatch by type, count,
        and build the result with its message. */
    method Run(book: OrderBook, order: Order) returns (r: Result<OrderResult, Error>)
      requires Ready(book) && book.NotCrossed() && |journal| <= MaxTradeJournalSize
      requires Validate(order).Pass? && Fresh(order) && order.id !in book.registry
      modifies this`journal, this`tradesExecuted, this`ordersProcessed, this`ordersFilled, this`ordersPartial,
        this`ordersCancelled, book`bids, book`asks, book`registry, book.bbo
      ensures Ready(book) && book.NotCrossed() && |journal| <= MaxTradeJournalSize && r.Ok?
      ensures Submitted(old(journal), old(tradesExecuted), order, r.value)
      ensures order.id in book.registry && r.value.order == book.registry[order.id]
      ensures Booked(old(book.registry), book.registry, order, r.value.order, r.value.trades)
      ensures Counted(old(ordersProcessed), old(ordersFilled), old(ordersPartial), old(ordersCancelled), r.value.status)
      ensures ByType(order, r.value.order, r.value.trades, old(OppositeQueue(book, order.side)), OppositeQueue(book, order.side),
                     old(book.SideBook(order.side)), book.SideBook(order.side),
                     old(book.SideBook(Opposite(order.side))), book.SideBook(Opposite(order.side)))
    {
      var done, trades := Dispatch(book, order);
      Count(done);
      r := Ok(OrderResult(done, trades, done.status, ResultMessage(done)));
    }

    /** The counters of `submit_order`: one more processed order, and one
        more filled, partial or cancelled one as the order ended. */
    method Count(done: Order)
      requires Settled(done)
      modifies this`ordersProcessed, this`ordersFilled, this`ordersPartial, this`ordersCancelled
      ensures Counted(old(ordersProcessed), old(ordersFilled), old(ordersPartial), old(ordersCancelled), done.status)
    {
      ordersProcessed := ordersProcessed + 1;
      if IsFullyFilled(done) {
        ordersFilled := ordersFilled + 1;
      } else if done.filled > 0.0 {
        ordersPartial := ordersPartial + 1;
      } else if done.status == Cancelled {
        ordersCancelled := ordersCancelled + 1;
      }
    }

    /** `_execute_match`: fills taker and maker by `quantity`, takes a maker
        with nothing left out of its level (it stays in the registry), and
        records the trade at `price` in the journal. */
    method ExecuteMatch(book: OrderBook, taker: Order, makerId: OrderId, quantity: real, price: real)
      returns (taker': Order, t: Trade)
      requires book.WellFormed() && book.InSync() && Ledger(book.registry)
      requires makerId in book.registry && Balanced(taker)
      requires CanFillQuantity(taker, quantity) && CanFillQuantity(book.registry[makerId], quantity)
      requires price > 0.0 && !IsBlank(taker.symbol)
      requires |journal| <= MaxTradeJournalSize
      modifies this`journal, this`tradesExecuted, book`bids, book`asks, book`registry, book.bbo
      ensures book.WellFormed() && book.InSync() && Ledger(book.registry)
      ensures UpdateFill(taker, quantity).Ok? && taker' == UpdateFill(taker, quantity).value
      ensures FilledEntry(old(book.registry), book.registry, makerId, quantity)
      ensures var m := book.registry[makerId];
        if m.remaining == 0.0 then
          && book.SideBook(m.side).levels == LevelsWithout(old(book.SideBook(m.side)).levels, m.price, makerId)
          && book.SideBook(Opposite(m.side)) == old(book.SideBook(Opposite(m.side)))
        else book.bids == old(book.bids) && book.asks == old(book.asks)
      ensures t == Trade(taker.symbol, price, quantity, taker.side, makerId, taker.id, 0.0, 0.0)
      ensures WellFormedTrade(t)
      ensures journal == Window(old(journal) + [t]) && tradesExecuted == old(tradesExecuted) + 1
    {
      CanFillIffFillAccepted(taker, quantity);
      taker' := UpdateFill(taker, quantity).value;
      var maker := book.FillResting(makerId, quantity);
      t := NewTrade(taker.symbol, price, quantity, taker.side, makerId, taker.id, 0.0, 0.0).value;
      Record(t);
    }

    /** The bookkeeping of `_execute_match`: append the trade to the journal,
        a deque that drops its oldest entry once it holds
        `MaxTradeJournalSize`, and count it. */
    method Record(t: Trade)
      requires |journal| <= MaxTradeJournalSize
      modifies this`journal, this`tradesExecuted
      ensures journal == Window(old(journal) + [t]) && tradesExecuted == old(tradesExecuted) + 1
    {
      WindowPush(journal, t);
      if |journal| == MaxTradeJournalSize {
        journal := journal[1..] + [t];
      } else {
        journal := journal + [t];
      }
      tradesExecuted := tradesExecuted + 1;
    }

    /** One pass of the inner loop of `_fill_against_book`: the oldest order
        at `price`, the best opposite price, trades with the taker for the
        smaller of their two remainders. The trade is the first fill of the
        plan, the rest of the plan is the plan of the new book, and the queue
        either loses its head or the taker is filled. */
    method MatchOldest(book: OrderBook, taker: Order, price: real, limit: Option<real>) returns (done: Order, t: Trade)
      requires Ready(book) && Balanced(taker) && !IsBlank(taker.symbol)
      requires |journal| <= MaxTradeJournalSize
      requires taker.remaining != 0.0 && !Beyond(taker.side, price, limit)
      requires var opp := book.SideBook(Opposite(taker.side)); opp.prices != [] && opp.prices[0] == price
      modifies this`journal, this`tradesExecuted, book`bids, book`asks, book`registry, book.bbo
      ensures Ready(book) && |journal| <= MaxTradeJournalSize
      ensures Advances(old(OppositeQueue(book, taker.side)), taker.remaining, OppositeQueue(book, taker.side), done.remaining,
                       [Fill(t.makerId, t.price, t.quantity)], limit, taker.side)
      ensures |OppositeQueue(book, taker.side)| <= |old(OppositeQueue(book, taker.side))|
      ensures |OppositeQueue(book, taker.side)| < |old(OppositeQueue(book, taker.side))| || done.remaining == 0.0
      ensures done.side == taker.side
      ensures Took(taker, done, t.quantity, true) && MadeBy(taker, [t])
      ensures journal == Window(old(journal) + [t]) && tradesExecuted == old(tradesExecuted) + 1
      ensures book.SideBook(taker.side) == old(book.SideBook(taker.side))
      ensures book.registry.Keys == old(book.registry.Keys)
      ensures book.registry == Applied(old(book.registry), [Fill(t.makerId, t.price, t.quantity)])
      ensures forall p :: p in book.SideBook(Opposite(taker.side)).levels ==> p in old(book.SideBook(Opposite(taker.side))).levels
      ensures var opp := book.SideBook(Opposite(taker.side));
        && (price in opp.levels ==> opp.prices == old(book.SideBook(Opposite(taker.side)).prices))
        && (price !in opp.levels ==> opp.prices == old(book.SideBook(Opposite(taker.side)).prices)[1..])
    {
      var opp := Opposite(taker.side);
      ReadySide(book, opp);
      assert price in book.SideBook(opp).prices;
      var makerId := GetNextOrder(book.SideBook(opp).levels[price]).value;
      assert makerId in book.SideBook(opp).levels[price].orders;
      var quantity := Min(taker.remaining, book.registry[makerId].remaining);
      done, t := MatchHead(book, taker, makerId, quantity, price, limit);
    }

    /** `_execute_match` with the oldest order at the best opposite price as
        the maker and the smaller of the two remainders as the quantity: the
        step both `_fill_against_book` and the execution of a FOK plan take. */
    method MatchHead(book: OrderBook, taker: Order, makerId: OrderId, quantity: real, price: real, limit: Option<real>)
      returns (done: Order, t: Trade)
      requires Ready(book) && Balanced(taker) && !IsBlank(taker.symbol)
      requires |journal| <= MaxTradeJournalSize
      requires taker.remaining != 0.0 && !Beyond(taker.side, price, limit)
      requires var opp := book.SideBook(Opposite(taker.side)); opp.prices != [] && opp.prices[0] == price
      requires var opp := book.SideBook(Opposite(taker.side)); QueueAt(opp, price) != [] && makerId == QueueAt(opp, price)[0]
      requires makerId in book.registry && quantity == Min(taker.remaining, book.registry[makerId].remaining)
      modifies this`journal, this`tradesExecuted, book`bids, book`asks, book`registry, book.bbo
      ensures Ready(book) && |journal| <= MaxTradeJournalSize
      ensures t.makerId == makerId && t.price == price && t.quantity == quantity
      ensures Advances(old(OppositeQueue(book, taker.side)), taker.remaining, OppositeQueue(book, taker.side), done.remaining,
                       [Fill(t.makerId, t.price, t.quantity)], limit, taker.side)
      ensures |OppositeQueue(book, taker.side)| <= |old(OppositeQueue(book, taker.side))|
      ensures |OppositeQueue(book, taker.side)| < |old(OppositeQueue(book, taker.side))| || done.remaining == 0.0
      ensures done.side == taker.side
      ensures Took(taker, done, t.quantity, true) && MadeBy(taker, [t])
      ensures journal == Window(old(journal) + [t]) && tradesExecuted == old(tradesExecuted) + 1
      ensures book.SideBook(taker.side) == old(book.SideBook(taker.side))
      ensures book.registry.Keys == old(book.registry.Keys)
      ensures book.registry == Applied(old(book.registry), [Fill(t.makerId, t.price, t.quantity)])
      ensures forall p :: p in book.SideBook(Opposite(taker.side)).levels ==> p in old(book.SideBook(Opposite(taker.side))).levels
      ensures var opp := book.SideBook(Opposite(taker.side));
        && (price in opp.levels ==> opp.prices == old(book.SideBook(Opposite(taker.side)).prices))
        && (price !in opp.levels ==> opp.prices == old(book.SideBook(Opposite(taker.side)).prices)[1..])
    {
      var side := taker.side;
      var opp := Opposite(side);
      ghost var bs, reg, own0 := book.SideBook(opp), book.registry, book.SideBook(side);
      ghost var q0 := OppositeQueue(book, side);
      assert q0 == Queue(opp, bs, reg);
      assert bs.prices[0] == price && !Beyond(side, bs.prices[0], limit) && taker.remaining > 0.0;
      ReadySide(book, opp);
      ReadySide(book, side);
      assert price in bs.levels;
      assert makerId in bs.levels[price].orders;
      done, t := ExecuteMatch(book, taker, makerId, quantity, price);
      AppliedOne(reg, Fill(t.makerId, t.price, t.quantity));
      TookOne(taker, quantity);
      MadeByOne(taker, t);
      book.SideFacts(opp);
      MatchStep(side, limit, taker.remaining, quantity, makerId, own0, bs, reg, book.SideBook(opp), book.registry);
      assert OppositeQueue(book, side) == Queue(opp, book.SideBook(opp), book.registry);
      assert Fill(t.makerId, t.price, t.quantity) == Fill(makerId, bs.prices[0], quantity);
      assert done.remaining == taker.remaining - quantity;
      OldestAdvances(side, limit, taker.remaining, quantity, makerId, own0, bs, reg, book.SideBook(opp), book.registry,
                     old(OppositeQueue(book, taker.side)), OppositeQueue(book, taker.side), done.remaining, Fill(t.makerId, t.price, t.quantity));
      ReadyFromSides(book, side);
    }

    /** `_fill_against_book`: walk a snapshot of the opposite side's prices,
        best first; stop once the taker is filled or at the first price its
        limit does not accept, otherwise trade through that level. The trades
        are exactly the plan of the opposite queue, at the makers' prices, and
        the opposite side is left as the plan leaves it. */
    method FillAgainstBook(book: OrderBook, taker: Order, limit: Option<real>) returns (done: Order, trades: seq<Trade>)
      requires Ready(book) && Balanced(taker) && !IsBlank(taker.symbol)
      requires |journal| <= MaxTradeJournalSize
      modifies this`journal, this`tradesExecuted, book`bids, book`asks, book`registry, book.bbo
      ensures Ready(book) && |journal| <= MaxTradeJournalSize
      ensures FillsOf(trades) == Plan(old(OppositeQueue(book, taker.side)), taker.remaining, limit, taker.side)
      ensures OppositeQueue(book, taker.side) == Rest(old(OppositeQueue(book, taker.side)), taker.remaining, limit, taker.side)
      ensures Took(taker, done, SumQty(FillsOf(trades)), trades != [])
      ensures MadeBy(taker, trades)
      ensures journal == Window(old(journal) + trades) && tradesExecuted == old(tradesExecuted) + |trades|
      ensures book.SideBook(taker.side) == old(book.SideBook(taker.side))
      ensures book.registry.Keys == old(book.registry.Keys)
      ensures book.registry == Applied(old(book.registry), FillsOf(trades))
      ensures forall p :: p in book.SideBook(Opposite(taker.side)).levels ==> p in old(book.SideBook(Opposite(taker.side))).levels
      ensures var opp := book.SideBook(Opposite(taker.side));
        done.remaining != 0.0 ==> opp.prices == [] || Beyond(taker.side, opp.prices[0], limit)
    {
      var side := taker.side;
      var opp := Opposite(side);
      ghost var q0 := OppositeQueue(book, side);
      ghost var own0 := book.SideBook(side);
      ghost var opp0 := book.SideBook(opp);
      ghost var keys0 := book.registry.Keys;
      ghost var reg0 := book.registry;
      ghost var journal0 := journal;
      ghost var count0 := tradesExecuted;
      var snapshot := book.SideBook(opp).prices;
      done := taker;
      trades := [];
      TookNothing(taker, trades);
      assert FillsOf(trades) == [];
      AdvancesNone(q0, taker.remaining, FillsOf(trades), limit, side);
      WindowStart(journal0, trades);
      var i := 0;
      while i < |snapshot| && done.remaining != 0.0 && !Beyond(side, snapshot[i], limit)
        invariant 0 <= i <= |snapshot|
        invariant Ready(book) && |journal| <= MaxTradeJournalSize
        invariant book.SideBook(side) == own0 && book.registry.Keys == keys0
        invariant forall p :: p in book.SideBook(opp).levels ==> p in opp0.levels
        invariant FillProgress(taker, done, trades, q0, OppositeQueue(book, side), limit, journal0, journal, count0, tradesExecuted,
                               reg0, book.registry)
        invariant done.remaining != 0.0 ==> book.SideBook(opp).prices == snapshot[i..]
      {
        var price := snapshot[i];
        ghost var mid, trades0, qb, j1, c1, r1 := done, trades, OppositeQueue(book, side), journal, tradesExecuted, book.registry;
        var more;
        done, more := MatchLevel(book, done, price, limit);
        FillThen(taker, mid, done, trades0, more, q0, qb, OppositeQueue(book, side), limit,
                 journal0, j1, journal, count0, c1, tradesExecuted, reg0, r1, book.registry);
        trades := trades + more;
        i := i + 1;
      }
      ReadySide(book, opp);
      AdvancesDone(side, limit, q0, taker.remaining, FillsOf(trades), book.SideBook(opp), book.registry,
                   OppositeQueue(book, side), done.remaining);
    }

    /** The inner loop of `_fill_against_book` at one price: while the level
        at `price`, the best opposite price, has an order and the taker still
        needs something, trade with the oldest order there. What the taker
        gets is the next stretch of the plan; if it is still not filled, the
        level is gone and the side lost exactly that price. */
    method MatchLevel(book: OrderBook, taker: Order, price: real, limit: Option<real>) returns (done: Order, trades: seq<Trade>)
      requires Ready(book) && Balanced(taker) && !IsBlank(taker.symbol)
      requires |journal| <= MaxTradeJournalSize
      requires taker.remaining != 0.0 && !Beyond(taker.side, price, limit)
      requires var opp := book.SideBook(Opposite(taker.side)); opp.prices != [] && opp.prices[0] == price
      modifies this`journal, this`tradesExecuted, book`bids, book`asks, book`registry, book.bbo
      ensures Ready(book) && |journal| <= MaxTradeJournalSize
      ensures Advances(old(OppositeQueue(book, taker.side)), taker.remaining, OppositeQueue(book, taker.side), done.remaining,
                       FillsOf(trades), limit, taker.side)
      ensures Took(taker, done, SumQty(FillsOf(trades)), trades != [])
      ensures MadeBy(taker, trades)
      ensures journal == Window(old(journal) + trades) && tradesExecuted == old(tradesExecuted) + |trades|
      ensures book.SideBook(taker.side) == old(book.SideBook(taker.side))
      ensures book.registry.Keys == old(book.registry.Keys)
      ensures book.registry == Applied(old(book.registry), FillsOf(trades))
      ensures forall p :: p in book.SideBook(Opposite(taker.side)).levels ==> p in old(book.SideBook(Opposite(taker.side))).levels
      ensures done.remaining != 0.0 ==>
        book.SideBook(Opposite(taker.side)).prices == old(book.SideBook(Opposite(taker.side)).prices)[1..]
    {
      var side := taker.side;
      var opp := Opposite(side);
      ghost var q0 := OppositeQueue(book, side);
      ghost var own0 := book.SideBook(side);
      ghost var opp0 := book.SideBook(opp);
      ghost var keys0 := book.registry.Keys;
      ghost var journal0 := journal;
      ghost var count0 := tradesExecuted;
      ghost var reg0 := book.registry;
      book.SideFacts(opp);
      assert price in opp0.levels;
      done := taker;
      trades := [];
      TookNothing(taker, trades);
      assert FillsOf(trades) == [];
      while QueueAt(book.SideBook(opp), price) != [] && done.remaining != 0.0
        invariant Ready(book) && |journal| <= MaxTradeJournalSize
        invariant book.SideBook(side) == own0 && book.registry.Keys == keys0
        invariant forall p :: p in book.SideBook(opp).levels ==> p in opp0.levels
        invariant Took(taker, done, SumQty(FillsOf(trades)), trades != [])
        invariant MadeBy(taker, trades)
        invariant journal == Window(journal0 + trades) && tradesExecuted == count0 + |trades|
        invariant Advances(q0, taker.remaining, OppositeQueue(book, side), done.remaining, FillsOf(trades), limit, side)
        invariant book.registry == Applied(reg0, FillsOf(trades))
        invariant done.remaining != 0.0 ==>
          book.SideBook(opp).prices == if price in book.SideBook(opp).levels then opp0.prices else opp0.prices[1..]
        decreases |OppositeQueue(book, side)| + if done.remaining != 0.0 then 1 else 0
      {
        ghost var before, trades0, qb := done, trades, OppositeQueue(book, side);
        var t;
        done, t := MatchOldest(book, done, price, limit);
        trades := trades + [t];
        TookMore(taker, before, done, trades0, t);
        MadeByThen(taker, before, trades0, [t]);
        AdvancesMore(q0, taker.remaining, qb, before.remaining, OppositeQueue(book, side), done.remaining,
                     FillsOf(trades0), [Fill(t.makerId, t.price, t.quantity)], limit, side);
        FillsOfAppend(trades0, t);
        WindowAppend(journal0, trades0, t);
        AppliedConcat(reg0, FillsOf(trades0), [Fill(t.makerId, t.price, t.quantity)]);
      }
    }

    /** `_check_can_fill_fok`: a dry run that changes nothing. On a snapshot
        of the opposite side it plans the fills of the whole quantity, the
        order's price being the limit. The plan is the matcher's own plan
        for that quantity; it is handed back only when it covers the
        quantity. */
    method CheckCanFillFok(book: OrderBook, order: Order) returns (canFill: bool, plan: seq<Fill>)
      requires Ready(book) && order.quantity >= 0.0
      ensures var full := Plan(OppositeQueue(book, order.side), order.quantity, order.price, order.side);
        && (canFill <==> SumQty(full) == order.quantity)
        && plan == (if canFill then full else [])
    {
      var side := order.side;
      var bs := book.SideBook(Opposite(side));
      ReadySide(book, Opposite(side));
      ScanReady(Opposite(side), bs, book.registry);
      var remaining;
      plan, remaining := ScanSide(side, bs, book.registry, order.quantity, order.price);
      canFill := remaining == 0.0;
      if !canFill {
        plan := [];
      }
    }
  
    /** The execution half of `_process_fok_order`: every fill of the plan,
        in order, executed against the maker it names at that maker's price.
        Each planned fill is the head of the book when its turn comes, so
        executing the plan is matching the whole quantity. */
    method ExecuteFokPlan(book: OrderBook, order: Order, plan: seq<Fill>) returns (done: Order, trades: seq<Trade>)
      requires Ready(book) && Balanced(order) && !IsBlank(order.symbol)
      requires |journal| <= MaxTradeJournalSize
      requires plan == Plan(OppositeQueue(book, order.side), order.remaining, order.price, order.side)
      modifies this`journal, this`tradesExecuted, book`bids, book`asks, book`registry, book.bbo
      ensures Ready(book) && |journal| <= MaxTradeJournalSize
      ensures FillsOf(trades) == plan
      ensures OppositeQueue(book, order.side) == Rest(old(OppositeQueue(book, order.side)), order.remaining, order.price, order.side)
      ensures Took(order, done, SumQty(plan), trades != []) && MadeBy(order, trades)
      ensures journal == Window(old(journal) + trades) && tradesExecuted == old(tradesExecuted) + |trades|
      ensures book.SideBook(order.side) == old(book.SideBook(order.side))
      ensures book.registry.Keys == old(book.registry.Keys)
      ensures book.registry == Applied(old(book.registry), FillsOf(trades))
      ensures forall p :: p in book.SideBook(Opposite(order.side)).levels ==> p in old(book.SideBook(Opposite(order.side))).levels
    {
      var side := order.side;
      var opp := Opposite(side);
      ghost var q0 := OppositeQueue(book, side);
      ghost var own0 := book.SideBook(side);
      ghost var opp0 := book.SideBook(opp);
      ghost var keys0 := book.registry.Keys;
      ghost var reg0 := book.registry;
      ghost var journal0 := journal;
      ghost var count0 := tradesExecuted;
      done := order;
      trades := [];
      TookNothing(order, trades);
      assert FillsOf(trades) == [];
      AdvancesNone(q0, order.remaining, FillsOf(trades), order.price, side);
      WindowStart(journal0, trades);
      var k := 0;
      while k < |plan|
        invariant 0 <= k <= |plan| && |trades| == k
        invariant Ready(book) && |journal| <= MaxTradeJournalSize
        invariant book.SideBook(side) == own0 && book.registry.Keys == keys0
        invariant forall p :: p in book.SideBook(opp).levels ==> p in opp0.levels
        invariant Took(order, done, SumQty(FillsOf(trades)), trades != []) && MadeBy(order, trades)
        invariant journal == Window(journal0 + trades) && tradesExecuted == count0 + |trades|
        invariant Advances(q0, order.remaining, OppositeQueue(book, side), done.remaining, FillsOf(trades), order.price, side)
        invariant plan[k..] == Plan(OppositeQueue(book, side), done.remaining, order.price, side)
        invariant book.registry == Applied(reg0, FillsOf(trades))
      {
        ghost var before, trades0, qb := done, trades, OppositeQueue(book, side);
        var f := plan[k];
        ReadySide(book, opp);
        PlanStartsAtHead(side, book.SideBook(opp), book.registry, done.remaining, order.price);
        PlanHead(qb, before.remaining, order.price, side);
        var t;
        done, t := MatchHead(book, done, f.makerId, f.quantity, f.price, order.price);
        trades := trades + [t];
        TookMore(order, before, done, trades0, t);
        MadeByThen(order, before, trades0, [t]);
        AdvancesMore(q0, order.remaining, qb, before.remaining, OppositeQueue(book, side), done.remaining,
                     FillsOf(trades0), [f], order.price, side);
        FillsOfAppend(trades0, t);
        WindowAppend(journal0, trades0, t);
        AppliedConcat(reg0, FillsOf(trades0), [Fill(t.makerId, t.price, t.quantity)]);
        assert plan[k + 1..] == plan[k..][1..];
        k := k + 1;
      }
      PlanNoneRest(OppositeQueue(book, side), done.remaining, order.price, side);
      assert FillsOf(trades) + [] == FillsOf(trades);
    }
  
    /** `_process_fok_order`: the feasibility scan decides. When the opposite
        side cannot fill the whole quantity within the order's price the
        order is killed: CANCELLED, no trades, both sides untouched. Otherwise
        the plan is executed and the order ends FILLED. Either way the order
        is registered so that it can be queried. */
    method ProcessFok(book: OrderBook, order: Order) returns (done: Order, trades: seq<Trade>)
      requires Ready(book) && book.NotCrossed() && |journal| <= MaxTradeJournalSize
      requires Validate(order).Pass? && Fresh(order) && order.id !in book.registry
      modifies this`journal, this`tradesExecuted, book`bids, book`asks, book`registry, book.bbo
      ensures Ready(book) && book.NotCrossed() && |journal| <= MaxTradeJournalSize
      ensures Handled(order, done, trades)
      ensures var q0 := old(OppositeQueue(book, order.side));
        if SumQty(Plan(q0, order.quantity, order.price, order.side)) == order.quantity then
          && Swept(q0, OppositeQueue(book, order.side), order, order.price, done, trades)
          && done.remaining == 0.0 && done.status == Filled
        else
          && trades == [] && done == order.(status := Cancelled)
          && book.bids == old(book.bids) && book.asks == old(book.asks)
      ensures MadeBy(order, trades)
      ensures book.SideBook(order.side) == old(book.SideBook(order.side))
      ensures book.registry.Keys == old(book.registry.Keys) + {order.id} && book.registry[order.id] == done
      ensures Booked(old(book.registry), book.registry, order, done, trades)
      ensures journal == Window(old(journal) + trades) && tradesExecuted == old(tradesExecuted) + |trades|
    {
      done, trades := FillOrKill(book, order);
      Register(book, done);
    }

    /** The matching half of `ProcessFok`: the scan and, when it says so,
        the execution of its plan, before the order is registered. */
    method FillOrKill(book: OrderBook, order: Order) returns (done: Order, trades: seq<Trade>)
      requires Ready(book) && book.NotCrossed() && |journal| <= MaxTradeJournalSize
      requires Validate(order).Pass? && Fresh(order) && order.id !in book.registry
      modifies this`journal, this`tradesExecuted, book`bids, book`asks, book`registry, book.bbo
      ensures Ready(book) && book.NotCrossed() && |journal| <= MaxTradeJournalSize
      ensures Handled(order, done, trades)
      ensures var q0 := old(OppositeQueue(book, order.side));
        if SumQty(Plan(q0, order.quantity, order.price, order.side)) == order.quantity then
          && Swept(q0, OppositeQueue(book, order.side), order, order.price, done, trades)
          && done.remaining == 0.0 && done.status == Filled
        else
          && trades == [] && done == order.(status := Cancelled)
          && book.bids == old(book.bids) && book.asks == old(book.asks)
      ensures MadeBy(order, trades) && Balanced(done) && done.id == order.id && done.side == order.side
      ensures book.SideBook(order.side) == old(book.SideBook(order.side))
      ensures book.registry.Keys == old(book.registry.Keys)
      ensures book.registry == Applied(old(book.registry), FillsOf(trades))
      ensures journal == Window(old(journal) + trades) && tradesExecuted == old(tradesExecuted) + |trades|
    {
      var canFill, plan := CheckCanFillFok(book, order);
      if !canFill {
        done := order.(status := Cancelled);
        trades := [];
        Killed(order);
        assert FillsOf(trades) == [];
      } else {
        done, trades := FillWhole(book, order, plan);
      }
    }

    /** The execution branch of `FillOrKill`: a plan that covers the whole
        quantity is executed and leaves the order FILLED. */
    method FillWhole(book: OrderBook, order: Order, plan: seq<Fill>) returns (done: Order, trades: seq<Trade>)
      requires Ready(book) && book.NotCrossed() && |journal| <= MaxTradeJournalSize
      requires Validate(order).Pass? && Fresh(order)
      requires plan == Plan(OppositeQueue(book, order.side), order.quantity, order.price, order.side)
      requires SumQty(plan) == order.quantity
      modifies this`journal, this`tradesExecuted, book`bids, book`asks, book`registry, book.bbo
      ensures Ready(book) && book.NotCrossed() && |journal| <= MaxTradeJournalSize
      ensures Handled(order, done, trades)
      ensures Swept(old(OppositeQueue(book, order.side)), OppositeQueue(book, order.side), order, order.price, done, trades)
      ensures done.remaining == 0.0 && done.status == Filled
      ensures Balanced(done) && done.id == order.id && done.side == order.side
      ensures book.SideBook(order.side) == old(book.SideBook(order.side))
      ensures book.registry.Keys == old(book.registry.Keys)
      ensures book.registry == Applied(old(book.registry), FillsOf(trades))
      ensures journal == Window(old(journal) + trades) && tradesExecuted == old(tradesExecuted) + |trades|
    {
      ghost var bids0, asks0 := book.bids, book.asks;
      ReadyShaped(book);
      done, trades := ExecuteFokPlan(book, order, plan);
      assert plan != [];
      assert trades != [] by {
        assert |FillsOf(trades)| == |plan|;
      }
      ReadyShaped(book);
      FewerLevelsUncrossed(bids0, asks0, book.bids, book.asks);
    }

    /** `_process_market_order`: sweeps the opposite side with no price
        limit and never rests. A remainder makes the order CANCELLED when it
        did not trade at all and PARTIAL when it did. */
    method ProcessMarket(book: OrderBook, order: Order) returns (done: Order, trades: seq<Trade>)
      requires Ready(book) && book.NotCrossed() && |journal| <= MaxTradeJournalSize
      requires Validate(order).Pass? && Fresh(order) && order.id !in book.registry
      modifies this`journal, this`tradesExecuted, book`bids, book`asks, book`registry, book.bbo
      ensures Ready(book) && book.NotCrossed() && |journal| <= MaxTradeJournalSize
      ensures Handled(order, done, trades)
      ensures Swept(old(OppositeQueue(book, order.side)), OppositeQueue(book, order.side), order, None, done, trades)
      ensures done.status == if done.remaining == 0.0 then Filled else if trades == [] then Cancelled else Partial
      ensures book.SideBook(order.side) == old(book.SideBook(order.side))
      ensures book.registry.Keys == old(book.registry.Keys) + {order.id} && book.registry[order.id] == done
      ensures Booked(old(book.registry), book.registry, order, done, trades)
      ensures journal == Window(old(journal) + trades) && tradesExecuted == old(tradesExecuted) + |trades|
    {
      done, trades := TakeOrCancel(book, order, None);
    }

    /** `_process_ioc_order`: sweeps the opposite side up to the order's
        price and never rests. A remainder makes the order CANCELLED when it
        did not trade at all and PARTIAL when it did. */
    method ProcessIoc(book: OrderBook, order: Order) returns (done: Order, trades: seq<Trade>)
      requires Ready(book) && book.NotCrossed() && |journal| <= MaxTradeJournalSize
      requires Validate(order).Pass? && Fresh(order) && order.id !in book.registry
      modifies this`journal, this`tradesExecuted, book`bids, book`asks, book`registry, book.bbo
      ensures Ready(book) && book.NotCrossed() && |journal| <= MaxTradeJournalSize
      ensures Handled(order, done, trades)
      ensures Swept(old(OppositeQueue(book, order.side)), OppositeQueue(book, order.side), order, order.price, done, trades)
      ensures done.status == if done.remaining == 0.0 then Filled else if trades == [] then Cancelled else Partial
      ensures book.SideBook(order.side) == old(book.SideBook(order.side))
      ensures book.registry.Keys == old(book.registry.Keys) + {order.id} && book.registry[order.id] == done
      ensures Booked(old(book.registry), book.registry, order, done, trades)
      ensures journal == Window(old(journal) + trades) && tradesExecuted == old(tradesExecuted) + |trades|
    {
      done, trades := TakeOrCancel(book, order, order.price);
    }

    /** What `_process_market_order` and `_process_ioc_order` share: fill
        against the book up to `limit`, cancel an untraded remainder or mark
        a traded one PARTIAL, and register the order. */
    method TakeOrCancel(book: OrderBook, order: Order, limit: Option<real>) returns (done: Order, trades: seq<Trade>)
      requires Ready(book) && book.NotCrossed() && |journal| <= MaxTradeJournalSize
      requires Validate(order).Pass? && Fresh(order) && order.id !in book.registry
      modifies this`journal, this`tradesExecuted, book`bids, book`asks, book`registry, book.bbo
      ensures Ready(book) && book.NotCrossed() && |journal| <= MaxTradeJournalSize
      ensures Handled(order, done, trades)
      ensures Swept(old(OppositeQueue(book, order.side)), OppositeQueue(book, order.side), order, limit, done, trades)
      ensures done.status == if done.remaining == 0.0 then Filled else if trades == [] then Cancelled else Partial
      ensures book.SideBook(order.side) == old(book.SideBook(order.side))
      ensures book.registry.Keys == old(book.registry.Keys) + {order.id} && book.registry[order.id] == done
      ensures Booked(old(book.registry), book.registry, order, done, trades)
      ensures journal == Window(old(journal) + trades) && tradesExecuted == old(tradesExecuted) + |trades|
    {
      done, trades := Settle(book, order, limit);
      Register(book, done);
    }

    /** The matching half of `TakeOrCancel`: the sweep and the status it
        leaves, before the order is registered. */
    method Settle(book: OrderBook, order: Order, limit: Option<real>) returns (done: Order, trades: seq<Trade>)
      requires Ready(book) && book.NotCrossed() && |journal| <= MaxTradeJournalSize
      requires Validate(order).Pass? && Fresh(order) && order.id !in book.registry
      modifies this`journal, this`tradesExecuted, book`bids, book`asks, book`registry, book.bbo
      ensures Ready(book) && book.NotCrossed() && |journal| <= MaxTradeJournalSize
      ensures Handled(order, done, trades)
      ensures Swept(old(OppositeQueue(book, order.side)), OppositeQueue(book, order.side), order, limit, done, trades)
      ensures done.status == if done.remaining == 0.0 then Filled else if trades == [] then Cancelled else Partial
      ensures Balanced(done) && done.id == order.id && done.side == order.side
      ensures book.SideBook(order.side) == old(book.SideBook(order.side))
      ensures book.registry.Keys == old(book.registry.Keys)
      ensures book.registry == Applied(old(book.registry), FillsOf(trades))
      ensures journal == Window(old(journal) + trades) && tradesExecuted == old(tradesExecuted) + |trades|
    {
      ghost var bids0, asks0 := book.bids, book.asks;
      ghost var q0 := OppositeQueue(book, order.side);
      ReadyShaped(book);
      var filled;
      filled, trades := FillAgainstBook(book, order, limit);
      done := filled;
      if !IsFullyFilled(done) {
        done := done.(status := if trades == [] then Cancelled else Partial);
      }
      SettledSweep(q0, OppositeQueue(book, order.side), order, limit, filled, done, trades, Cancelled);
      ReadyShaped(book);
      FewerLevelsUncrossed(bids0, asks0, book.bids, book.asks);
    }

    /** `_process_limit_order`: a limit order needs a price. A marketable
        one first sweeps the opposite side up to its price; whatever is left
        then rests at the tail of its price level, PARTIAL when it traded and
        PENDING when it did not, and a filled order is only registered. */
    method ProcessLimit(book: OrderBook, order: Order) returns (r: Outcome<Error>, done: Order, trades: seq<Trade>)
      requires Ready(book) && book.NotCrossed() && |journal| <= MaxTradeJournalSize
      requires Validate(order).Pass? && Fresh(order) && order.id !in book.registry
      requires order.price.Some? ==> order.price.value > 0.0
      modifies this`journal, this`tradesExecuted, book`bids, book`asks, book`registry, book.bbo
      ensures Ready(book) && book.NotCrossed() && |journal| <= MaxTradeJournalSize
      ensures order.price.Some? ==> Handled(order, done, trades)
      ensures order.price.None? ==>
        && r == Fail(InvalidOrder(PriceRequired)) && done == order && trades == []
        && unchanged(book) && journal == old(journal) && tradesExecuted == old(tradesExecuted)
      ensures order.price.Some? ==>
        && r == Pass
        && Swept(old(OppositeQueue(book, order.side)), OppositeQueue(book, order.side), order, order.price, done, trades)
        && done.status == (if done.remaining == 0.0 then Filled else if trades == [] then Pending else Partial)
        && book.registry.Keys == old(book.registry.Keys) + {order.id} && book.registry[order.id] == done
        && Booked(old(book.registry), book.registry, order, done, trades)
        && journal == Window(old(journal) + trades) && tradesExecuted == old(tradesExecuted) + |trades|
      ensures order.price.Some? && done.remaining == 0.0 ==>
        book.SideBook(order.side) == old(book.SideBook(order.side))
      ensures order.price.Some? && done.remaining != 0.0 ==>
        RestsAt(old(book.SideBook(order.side)), book.SideBook(order.side), order.price.value, order.id)
    {
      if order.price.None? {
        return Fail(InvalidOrder(PriceRequired)), order, [];
      }
      done, trades := MatchThenPlace(book, order);
      r := Pass;
    }

    /** `ProcessLimit` for an order with a price: match, then place. */
    method MatchThenPlace(book: OrderBook, order: Order) returns (done: Order, trades: seq<Trade>)
      requires Ready(book) && book.NotCrossed() && |journal| <= MaxTradeJournalSize
      requires Validate(order).Pass? && Fresh(order) && order.id !in book.registry
      requires order.price.Some? && order.price.value > 0.0
      modifies this`journal, this`tradesExecuted, book`bids, book`asks, book`registry, book.bbo
      ensures Ready(book) && book.NotCrossed() && |journal| <= MaxTradeJournalSize
      ensures Handled(order, done, trades)
      ensures Swept(old(OppositeQueue(book, order.side)), OppositeQueue(book, order.side), order, order.price, done, trades)
      ensures done.status == (if done.remaining == 0.0 then Filled else if trades == [] then Pending else Partial)
      ensures book.registry.Keys == old(book.registry.Keys) + {order.id} && book.registry[order.id] == done
      ensures Booked(old(book.registry), book.registry, order, done, trades)
      ensures journal == Window(old(journal) + trades) && tradesExecuted == old(tradesExecuted) + |trades|
      ensures done.remaining == 0.0 ==> book.SideBook(order.side) == old(book.SideBook(order.side))
      ensures done.remaining != 0.0 ==>
        RestsAt(old(book.SideBook(order.side)), book.SideBook(order.side), order.price.value, order.id)
    {
      ghost var q0 := OppositeQueue(book, order.side);
      var matched;
      matched, trades := LimitMatch(book, order);
      ghost var q1 := OppositeQueue(book, order.side);
      done := Place(book, matched, trades != []);
      SettledSweep(q0, q1, order, order.price, matched, done, trades, Pending);
    }

    /** The matching half of `ProcessLimit`: a marketable order sweeps the
        opposite side up to its price, any other one trades nothing. Either
        way the trades are the plan, and a remainder finds the opposite best
        beyond the order's price. */
    method LimitMatch(book: OrderBook, order: Order) returns (done: Order, trades: seq<Trade>)
      requires Ready(book) && book.NotCrossed() && |journal| <= MaxTradeJournalSize
      requires Validate(order).Pass? && Fresh(order) && order.id !in book.registry
      requires order.price.Some? && order.price.value > 0.0
      modifies this`journal, this`tradesExecuted, book`bids, book`asks, book`registry, book.bbo
      ensures Ready(book) && book.NotCrossed() && |journal| <= MaxTradeJournalSize
      ensures FillsOf(trades) == Plan(old(OppositeQueue(book, order.side)), order.remaining, order.price, order.side)
      ensures OppositeQueue(book, order.side) == Rest(old(OppositeQueue(book, order.side)), order.remaining, order.price, order.side)
      ensures Took(order, done, SumQty(FillsOf(trades)), trades != []) && MadeBy(order, trades)
      ensures journal == Window(old(journal) + trades) && tradesExecuted == old(tradesExecuted) + |trades|
      ensures book.SideBook(order.side) == old(book.SideBook(order.side))
      ensures book.registry.Keys == old(book.registry.Keys)
      ensures book.registry == Applied(old(book.registry), FillsOf(trades))
      ensures var opp := book.SideBook(Opposite(order.side));
        done.remaining != 0.0 ==> opp.prices == [] || Beyond(order.side, opp.prices[0], order.price)
    {
      ghost var bids0, asks0 := book.bids, book.asks;
      ghost var q0 := OppositeQueue(book, order.side);
      MarketableIffPlans(book, order);
      if Marketable(book, order) {
        done, trades := FillAgainstBook(book, order, order.price);
        ReadyShaped(book);
        FewerLevelsUncrossed(bids0, asks0, book.bids, book.asks);
      } else {
        done, trades := order, [];
        TookNothing(order, trades);
        assert FillsOf(trades) == [];
        PlanNoneRest(q0, order.remaining, order.price, order.side);
        WindowStart(journal, trades);
      }
    }

    /** The resting half of `ProcessLimit`: a filled order is only
        registered; a remainder joins the tail of its level, PARTIAL when it
        traded and PENDING when it did not, and the book stays uncrossed since
        the opposite best lies beyond its price. */
    method Place(book: OrderBook, done: Order, traded: bool) returns (placed: Order)
      requires Ready(book) && book.NotCrossed()
      requires done.id !in book.registry && Balanced(done) && done.price.Some? && done.price.value > 0.0
      requires var opp := book.SideBook(Opposite(done.side));
        done.remaining != 0.0 ==> opp.prices == [] || Beyond(done.side, opp.prices[0], done.price)
      modifies book`bids, book`asks, book`registry, book.bbo
      ensures Ready(book) && book.NotCrossed()
      ensures placed == if done.remaining == 0.0 then done else done.(status := if traded then Partial else Pending)
      ensures book.registry.Keys == old(book.registry.Keys) + {done.id} && book.registry[done.id] == placed
      ensures book.registry == old(book.registry)[done.id := placed]
      ensures OppositeQueue(book, done.side) == old(OppositeQueue(book, done.side))
      ensures done.remaining == 0.0 ==> book.SideBook(done.side) == old(book.SideBook(done.side))
      ensures done.remaining != 0.0 ==>
        RestsAt(old(book.SideBook(done.side)), book.SideBook(done.side), done.price.value, done.id)
    {
      if IsFullyFilled(done) {
        placed := done;
        Register(book, done);
      } else {
        placed := done.(status := if traded then Partial else Pending);
        ghost var bids0, asks0, reg0 := book.bids, book.asks, book.registry;
        ghost var q0 := OppositeQueue(book, done.side);
        ReadySide(book, Opposite(done.side));
        ReadySide(book, done.side);
        ghost var own0 := book.SideBook(done.side);
        var r := book.AddOrder(placed);
        assert r.Pass?;
        ReadyAfterRest(book, reg0, own0, placed);
        RestingUncrossed(done.side, bids0, asks0, book.bids, book.asks, done.price.value);
        QueueIgnoresOthers(Opposite(done.side), book.SideBook(Opposite(done.side)), reg0, placed);
      }
    }

    /** The dispatch of `submit_order` on the order type (what each type
        does is the contract of its `Process` method). Whatever the type, the
        order ends settled and registered and the book stays uncrossed; only
        a LIMIT order may rest. */
    method Dispatch(book: OrderBook, order: Order) returns (done: Order, trades: seq<Trade>)
      requires Ready(book) && book.NotCrossed() && |journal| <= MaxTradeJournalSize
      requires Validate(order).Pass? && Fresh(order) && order.id !in book.registry
      modifies this`journal, this`tradesExecuted, book`bids, book`asks, book`registry, book.bbo
      ensures Ready(book) && book.NotCrossed() && |journal| <= MaxTradeJournalSize
      ensures Submitted(old(journal), old(tradesExecuted), order, OrderResult(done, trades, done.status, ResultMessage(done)))
      ensures book.registry.Keys == old(book.registry.Keys) + {order.id} && book.registry[order.id] == done
      ensures Booked(old(book.registry), book.registry, order, done, trades)
      ensures order.orderType != Limit ==> book.SideBook(order.side) == old(book.SideBook(order.side))
      ensures ByType(order, done, trades, old(OppositeQueue(book, order.side)), OppositeQueue(book, order.side),
                     old(book.SideBook(order.side)), book.SideBook(order.side),
                     old(book.SideBook(Opposite(order.side))), book.SideBook(Opposite(order.side)))
    {
      match order.orderType
      case Market =>
        done, trades := ProcessMarket(book, order);
      case IOC =>
        done, trades := ProcessIoc(book, order);
      case Limit =>
        var r;
        r, done, trades := ProcessLimit(book, order);
      case FOK =>
        done, trades := ProcessFok(book, order);
    }
  }
}

=== FILE: matching_plan.dfy ===
/** The price-time-priority specification the matcher is proved against
    (backend/core/matching_engine.py, `_fill_against_book` and
    `_check_can_fill_fok`): the resting orders of one side laid out in the
    order the matcher visits them, best price first and oldest first within a
    price, and the fills a taker gets by walking that queue. */
module Matching {
  import opened Wrappers
  import opened Seqs
  import opened Orders
  import opened Trades
  import opened PriceLevels
  import opened BookSides
  import opened Books

  /** A resting order as the matcher sees it: its id, the price of its level
      and what it has left. */
  datatype Maker = Maker(id: OrderId, price: real, remaining: real)

  /** One fill: the maker, the execution price and the quantity. */
  datatype Fill = Fill(makerId: OrderId, price: real, quantity: real)

  function Min(a: real, b: real): (m: real)
    ensures m <= a && m <= b && (m == a || m == b)
  {
    if a <= b then a else b
  }

  /** The orders queued at one price, oldest first. */
  function LevelMakers(ids: seq<OrderId>, p: real, reg: map<OrderId, Order>): seq<Maker>
    requires forall id :: id in ids ==> id in reg
  {
    seq(|ids|, k requires 0 <= k < |ids| => Maker(ids[k], p, reg[ids[k]].remaining))
  }

  /** Every listed price has a level whose orders are all registered. */
  ghost predicate Covered(ps: seq<real>, levels: map<real, PriceLevel>, reg: map<OrderId, Order>)
  {
    forall i :: 0 <= i < |ps| ==> ps[i] in levels && forall id :: id in levels[ps[i]].orders ==> id in reg
  }

  lemma CoveredTail(ps: seq<real>, levels: map<real, PriceLevel>, reg: map<OrderId, Order>)
    requires Covered(ps, levels, reg) && ps != []
    ensures Covered(ps[1..], levels, reg)
  {
    forall i | 0 <= i < |ps[1..]|
      ensures ps[1..][i] in levels && forall id :: id in levels[ps[1..][i]].orders ==> id in reg
    {
      assert ps[1..][i] == ps[i + 1];
    }
  }

  /** The levels at the listed prices, concatenated in that order. */
  ghost function Makers(ps: seq<real>, levels: map<real, PriceLevel>, reg: map<OrderId, Order>): seq<Maker>
    requires Covered(ps, levels, reg)
    decreases |ps|
  {
    if ps == [] then []
    else
      CoveredTail(ps, levels, reg);
      LevelMakers(levels[ps[0]].orders, ps[0], reg) + Makers(ps[1..], levels, reg)
  }

  /** The whole side in matching order. */
  ghost function Queue(side: Side, bs: BookSide, reg: map<OrderId, Order>): seq<Maker>
    requires Linked(side, bs, reg)
  {
    assert Covered(bs.prices, bs.levels, reg) by {
      forall i | 0 <= i < |bs.prices|
        ensures bs.prices[i] in bs.levels && forall id :: id in bs.levels[bs.prices[i]].orders ==> id in reg
      {
        assert bs.prices[i] in bs.prices;
      }
    }
    Makers(bs.prices, bs.levels, reg)
  }

  /** A price the taker's limit does not accept: above it for a buyer,
      below it for a seller; no limit accepts every price. */
  predicate Beyond(side: Side, p: real, limit: Option<real>)
  {
    limit.Some? && (if side == Buy then p > limit.value else p < limit.value)
  }

  /** The fills a taker that needs `need` gets from the queue `q`: take the
      head while something is needed and the head's price is within the
      limit, each time as much as both sides allow. */
  function Plan(q: seq<Maker>, need: real, limit: Option<real>, side: Side): (r: seq<Fill>)
    ensures |r| <= |q|
    decreases |q|
  {
    if need <= 0.0 || q == [] || Beyond(side, q[0].price, limit) then []
    else
      var f := Min(need, q[0].remaining);
      [Fill(q[0].id, q[0].price, f)] + Plan(q[1..], need - f, limit, side)
  }

  /** The queue left once `Plan` has been executed: fully taken makers are
      gone and a partly taken head keeps its place with less left. */
  function Rest(q: seq<Maker>, need: real, limit: Option<real>, side: Side): seq<Maker>
    decreases |q|
  {
    if need <= 0.0 || q == [] || Beyond(side, q[0].price, limit) then q
    else if need < q[0].remaining then [q[0].(remaining := q[0].remaining - need)] + q[1..]
    else Rest(q[1..], need - q[0].remaining, limit, side)
  }

  /** Going from queue `q0` with `need0` wanted to queue `q1` with `need1`
      wanted executes `fills` first and then the rest of the same plan, and
      leaves the same queue behind. */
  ghost predicate Advances(q0: seq<Maker>, need0: real, q1: seq<Maker>, need1: real, fills: seq<Fill>,
                           limit: Option<real>, side: Side)
  {
    && Plan(q0, need0, limit, side) == fills + Plan(q1, need1, limit, side)
    && Rest(q0, need0, limit, side) == Rest(q1, need1, limit, side)
  }

  /** Standing still executes nothing. */
  lemma AdvancesNone(q: seq<Maker>, need: real, fills: seq<Fill>, limit: Option<real>, side: Side)
    requires fills == []
    ensures Advances(q, need, q, need, fills, limit, side)
  {
    assert fills + Plan(q, need, limit, side) == Plan(q, need, limit, side);
  }

  /** Two stretches of one plan make one longer stretch. */
  lemma AdvancesMore(q0: seq<Maker>, n0: real, q1: seq<Maker>, n1: real, q2: seq<Maker>, n2: real,
                     f1: seq<Fill>, f2: seq<Fill>, limit: Option<real>, side: Side)
    requires Advances(q0, n0, q1, n1, f1, limit, side) && Advances(q1, n1, q2, n2, f2, limit, side)
    ensures Advances(q0, n0, q2, n2, f1 + f2, limit, side)
  {
    assert f1 + (f2 + Plan(q2, n2, limit, side)) == (f1 + f2) + Plan(q2, n2, limit, side);
  }

  function SumQty(fs: seq<Fill>): real
  {
    if fs == [] then 0.0 else fs[0].quantity + SumQty(fs[1..])
  }

  function SumLeft(q: seq<Maker>): real
  {
    if q == [] then 0.0 else q[0].remaining + SumLeft(q[1..])
  }

  lemma {:induction false} SumQtyAppend(a: seq<Fill>, b: seq<Fill>)
    ensures SumQty(a + b) == SumQty(a) + SumQty(b)
  {
    if a != [] {
      assert (a + b)[0] == a[0];
      assert (a + b)[1..] == a[1..] + b;
      SumQtyAppend(a[1..], b);
    } else {
      assert a + b == b;
    }
  }

  /** The fill each trade records. */
  function FillsOf(ts: seq<Trade>): (fs: seq<Fill>)
    ensures |fs| == |ts|
    ensures forall k :: 0 <= k < |ts| ==> fs[k] == Fill(ts[k].makerId, ts[k].price, ts[k].quantity)
  {
    seq(|ts|, k requires 0 <= k < |ts| => Fill(ts[k].makerId, ts[k].price, ts[k].quantity))
  }

  lemma FillsOfConcat(a: seq<Trade>, b: seq<Trade>)
    ensures FillsOf(a + b) == FillsOf(a) + FillsOf(b)
  {
  }

  lemma FillsOfAppend(ts: seq<Trade>, t: Trade)
    ensures FillsOf(ts + [t]) == FillsOf(ts) + [Fill(t.makerId, t.price, t.quantity)]
    ensures SumQty(FillsOf(ts + [t])) == SumQty(FillsOf(ts)) + t.quantity
  {
    assert FillsOf(ts + [t]) == FillsOf(ts) + [Fill(t.makerId, t.price, t.quantity)];
    SumQtyAppend(FillsOf(ts), [Fill(t.makerId, t.price, t.quantity)]);
  }

  /** The registry after one fill is written back into the entry of the
      maker it names, as `maker.update_fill(quantity)` does; a fill the
      entry cannot take leaves the registry as it was. */
  function ApplyOne(reg: map<OrderId, Order>, f: Fill): map<OrderId, Order>
  {
    if f.makerId in reg && UpdateFill(reg[f.makerId], f.quantity).Ok?
    then reg[f.makerId := UpdateFill(reg[f.makerId], f.quantity).value]
    else reg
  }

  /** The registry after every fill is written back, in order. */
  function Applied(reg: map<OrderId, Order>, fills: seq<Fill>): (r: map<OrderId, Order>)
    ensures r.Keys == reg.Keys
    decreases |fills|
  {
    if fills == [] then reg else Applied(ApplyOne(reg, fills[0]), fills[1..])
  }

  lemma AppliedOne(reg: map<OrderId, Order>, f: Fill)
    ensures Applied(reg, [f]) == ApplyOne(reg, f)
  {
    assert [f][1..] == [];
  }

  /** Writing back `a` and then `b` is writing back `a + b`. */
  lemma {:induction false} AppliedConcat(reg: map<OrderId, Order>, a: seq<Fill>, b: seq<Fill>)
    ensures Applied(reg, a + b) == Applied(Applied(reg, a), b)
    decreases |a|
  {
    if a == [] {
      assert a + b == b;
    } else {
      assert (a + b)[0] == a[0] && (a + b)[1..] == a[1..] + b;
      AppliedConcat(ApplyOne(reg, a[0]), a[1..], b);
    }
  }

  /** An entry that no fill names keeps its value. */
  lemma {:induction false} AppliedKeepsOthers(reg: map<OrderId, Order>, fills: seq<Fill>, id: OrderId)
    requires id in reg && forall k :: 0 <= k < |fills| ==> fills[k].makerId != id
    ensures Applied(reg, fills)[id] == reg[id]
    decreases |fills|
  {
    if fills != [] {
      assert forall k :: 0 <= k < |fills[1..]| ==> fills[1..][k] == fills[k + 1];
      AppliedKeepsOthers(ApplyOne(reg, fills[0]), fills[1..], id);
    }
  }

  /** No two fills name the same maker. */
  ghost predicate DistinctMakers(fills: seq<Fill>)
  {
    forall i, j :: 0 <= i < j < |fills| ==> fills[i].makerId != fills[j].makerId
  }

  /** When no two fills name the same maker, each named entry ends as its
      own fill alone leaves it. */
  lemma {:induction false} AppliedDistinct(reg: map<OrderId, Order>, fills: seq<Fill>, k: nat)
    requires k < |fills| && DistinctMakers(fills) && fills[k].makerId in reg
    ensures Applied(reg, fills)[fills[k].makerId] == ApplyOne(reg, fills[k])[fills[k].makerId]
    decreases |fills|
  {
    var t := fills[1..];
    assert forall i :: 0 <= i < |t| ==> t[i] == fills[i + 1];
    if k == 0 {
      AppliedKeepsOthers(ApplyOne(reg, fills[0]), t, fills[0].makerId);
    } else {
      assert fills[k] == t[k - 1];
      AppliedDistinct(ApplyOne(reg, fills[0]), t, k - 1);
    }
  }

  /** One unblocked step of a plan: the head fill, then the plan of the tail. */
  lemma PlanStep(q: seq<Maker>, need: real, limit: Option<real>, side: Side)
    requires !(need <= 0.0 || q == [] || Beyond(side, q[0].price, limit))
    ensures var f := Min(need, q[0].remaining);
      var p := Plan(q, need, limit, side);
      var p' := Plan(q[1..], need - f, limit, side);
      && p == [Fill(q[0].id, q[0].price, f)] + p'
      && SumQty(p) == f + SumQty(p')
      && |p| == |p'| + 1
  {
    var f := Min(need, q[0].remaining);
    var p := Plan(q, need, limit, side);
    var p' := Plan(q[1..], need - f, limit, side);
    assert p[1..] == p';
  }

  /** A plan takes a prefix of the queue, at each maker's own price, never
      at a price beyond the limit, and never more than a maker has left. */
  lemma {:induction false} PlanTakesPrefix(q: seq<Maker>, need: real, limit: Option<real>, side: Side)
    requires forall k :: 0 <= k < |q| ==> q[k].remaining > 0.0
    ensures var p := Plan(q, need, limit, side);
      && |p| <= |q|
      && forall k :: 0 <= k < |p| ==>
           && p[k].makerId == q[k].id && p[k].price == q[k].price
           && !Beyond(side, q[k].price, limit)
           && 0.0 < p[k].quantity <= q[k].remaining
    decreases |q|
  {
    if !(need <= 0.0 || q == [] || Beyond(side, q[0].price, limit)) {
      var f := Min(need, q[0].remaining);
      var t := q[1..];
      assert forall k :: 0 <= k < |t| ==> t[k] == q[k + 1];
      PlanTakesPrefix(t, need - f, limit, side);
      var p' := Plan(t, need - f, limit, side);
      var p := Plan(q, need, limit, side);
      assert p == [Fill(q[0].id, q[0].price, f)] + p';
      assert forall k :: 1 <= k < |p| ==> p[k] == p'[k - 1];
    }
  }

  /** What one step of a plan adds to its total and its length. */
  lemma PlanStepTotals(q: seq<Maker>, need: real, limit: Option<real>, side: Side)
    requires !(need <= 0.0 || q == [] || Beyond(side, q[0].price, limit))
    ensures var f := Min(need, q[0].remaining);
      var p := Plan(q, need, limit, side);
      var p' := Plan(q[1..], need - f, limit, side);
      && SumQty(p) == f + SumQty(p')
      && |p| == |p'| + 1
  {
    PlanStep(q, need, limit, side);
  }

  /** For a taker that needs a non-negative quantity: a plan never fills
      more than needed, and stops short only at the end of the queue or at
      the first price beyond the limit. */
  lemma {:induction false} PlanStopsOnlyWhenBlocked(q: seq<Maker>, need: real, limit: Option<real>, side: Side)
    requires need >= 0.0
    requires forall k :: 0 <= k < |q| ==> q[k].remaining > 0.0
    ensures var p := Plan(q, need, limit, side);
      && 0.0 <= SumQty(p) <= need
      && (SumQty(p) < need ==> |p| == |q| || Beyond(side, q[|p|].price, limit))
    decreases |q|
  {
    if !(need <= 0.0 || q == [] || Beyond(side, q[0].price, limit)) {
      var f := Min(need, q[0].remaining);
      var t := q[1..];
      forall k | 0 <= k < |t| ensures t[k].remaining > 0.0 {
        assert t[k] == q[k + 1];
      }
      PlanStopsOnlyWhenBlocked(t, need - f, limit, side);
      PlanStepTotals(q, need, limit, side);
      var p' := Plan(t, need - f, limit, side);
      var p := Plan(q, need, limit, side);
      if SumQty(p) < need {
        assert SumQty(p') < need - f;
        if |p| < |q| {
          assert q[|p|] == t[|p'|];
        }
      }
    } else {
      assert |Plan(q, need, limit, side)| == 0;
    }
  }

  /** Each fill is the smaller of what the taker still needs after the
      earlier fills and what the maker has left. */
  ghost predicate MinimalFills(p: seq<Fill>, q: seq<Maker>, need: real)
  {
    |p| <= |q| && forall k :: 0 <= k < |p| ==> p[k].quantity == Min(need - SumQty(p[..k]), q[k].remaining)
  }

  lemma {:induction false} PlanFillsAreMinimal(q: seq<Maker>, need: real, limit: Option<real>, side: Side)
    ensures MinimalFills(Plan(q, need, limit, side), q, need)
    decreases |q|
  {
    if !(need <= 0.0 || q == [] || Beyond(side, q[0].price, limit)) {
      var f := Min(need, q[0].remaining);
      var p, p' := Plan(q, need, limit, side), Plan(q[1..], need - f, limit, side);
      PlanFillsAreMinimal(q[1..], need - f, limit, side);
      assert p == [Fill(q[0].id, q[0].price, f)] + p';
      MinimalCons(p, p', q, need, f);
    } else {
      assert |Plan(q, need, limit, side)| == 0;
    }
  }

  /** Taking `f`, the smaller of the need and the head's quantity, and then
      minimal fills from the tail for what is still needed, is minimal. */
  lemma MinimalCons(p: seq<Fill>, p': seq<Fill>, q: seq<Maker>, need: real, f: real)
    requires q != [] && f == Min(need, q[0].remaining)
    requires p == [Fill(q[0].id, q[0].price, f)] + p'
    requires MinimalFills(p', q[1..], need - f)
    ensures MinimalFills(p, q, need)
  {
    forall k | 0 <= k < |p| ensures p[k].quantity == Min(need - SumQty(p[..k]), q[k].remaining) {
      if k == 0 {
        assert p[..k] == [];
      } else {
        SumQtyPrefixCons(p, k);
        assert p[1..][..k - 1] == p'[..k - 1];
        assert p[k] == p'[k - 1] && q[k] == q[1..][k - 1];
      }
    }
  }

  /** The quantity of a non-empty prefix is the head's plus the rest of the prefix. */
  lemma SumQtyPrefixCons(p: seq<Fill>, k: nat)
    requires 1 <= k <= |p|
    ensures SumQty(p[..k]) == p[0].quantity + SumQty(p[1..][..k - 1])
  {
    assert p[..k][1..] == p[1..][..k - 1];
  }

  /** Every maker but the last one planned is taken completely. */
  lemma {:induction false} PlanTakesAllButLast(q: seq<Maker>, need: real, limit: Option<real>, side: Side)
    ensures var p := Plan(q, need, limit, side);
      forall k :: 0 <= k < |p| - 1 ==> p[k].quantity == q[k].remaining
    decreases |q|
  {
    if !(need <= 0.0 || q == [] || Beyond(side, q[0].price, limit)) {
      var f := Min(need, q[0].remaining);
      var t := q[1..];
      PlanTakesAllButLast(t, need - f, limit, side);
      PlanStep(q, need, limit, side);
      var p' := Plan(t, need - f, limit, side);
      var p := Plan(q, need, limit, side);
      forall k | 0 <= k < |p| - 1 ensures p[k].quantity == q[k].remaining {
        if k == 0 {
          assert p' != [];
        } else {
          assert p[k] == p'[k - 1] && q[k] == t[k - 1];
        }
      }
    }
  }

  /** Nothing is lost or created: the quantity a plan takes is exactly what
      the queue left behind has less. */
  lemma {:induction false} PlanConserves(q: seq<Maker>, need: real, limit: Option<real>, side: Side)
    ensures SumLeft(Rest(q, need, limit, side)) == SumLeft(q) - SumQty(Plan(q, need, limit, side))
    decreases |q|
  {
    if !(need <= 0.0 || q == [] || Beyond(side, q[0].price, limit)) {
      var t := q[1..];
      PlanConserves(t, need - Min(need, q[0].remaining), limit, side);
      if need < q[0].remaining {
        assert Rest(q, need, limit, side) == [q[0].(remaining := q[0].remaining - need)] + t;
        assert Rest(q, need, limit, side)[1..] == t;
      }
    }
  }

  /** The queue of the listed prices starts with the level at the first
      price and goes on with the queue of the others. */
  lemma MakersSplit(ps: seq<real>, levels: map<real, PriceLevel>, reg: map<OrderId, Order>)
    requires Covered(ps, levels, reg) && ps != []
    ensures Covered(ps[1..], levels, reg)
    ensures Makers(ps, levels, reg) == LevelMakers(levels[ps[0]].orders, ps[0], reg) + Makers(ps[1..], levels, reg)
  {
    CoveredTail(ps, levels, reg);
  }

  /** Every queue entry is an order of the level at its price, listed with
      that price and its remaining quantity. */
  lemma {:induction false} MakersPlaced(ps: seq<real>, levels: map<real, PriceLevel>, reg: map<OrderId, Order>)
    requires Covered(ps, levels, reg)
    ensures var q := Makers(ps, levels, reg);
      forall k :: 0 <= k < |q| ==>
        q[k].price in ps && q[k].id in levels[q[k].price].orders && q[k].remaining == reg[q[k].id].remaining
    decreases |ps|
  {
    if ps != [] {
      MakersSplit(ps, levels, reg);
      var t := ps[1..];
      MakersPlaced(t, levels, reg);
      var head := LevelMakers(levels[ps[0]].orders, ps[0], reg);
      var tail := Makers(t, levels, reg);
      var q := Makers(ps, levels, reg);
      forall k | 0 <= k < |q|
        ensures q[k].price in ps && q[k].id in levels[q[k].price].orders && q[k].remaining == reg[q[k].id].remaining
      {
        if k < |head| {
          var id := levels[ps[0]].orders[k];
          assert q[k] == head[k] == Maker(id, ps[0], reg[id].remaining);
          assert ps[0] in ps;
        } else {
          var j := k - |head|;
          assert q[k] == tail[j];
          assert tail[j].price in t;
          var i :| 0 <= i < |t| && t[i] == tail[j].price;
          assert ps[i + 1] == t[i];
        }
      }
    }
  }

  /** Every order queued at a listed price is in the queue. */
  lemma {:induction false} MakersComplete(ps: seq<real>, levels: map<real, PriceLevel>, reg: map<OrderId, Order>)
    requires Covered(ps, levels, reg)
    ensures forall p, id :: p in ps && id in levels[p].orders ==> Maker(id, p, reg[id].remaining) in Makers(ps, levels, reg)
    decreases |ps|
  {
    if ps != [] {
      MakersSplit(ps, levels, reg);
      var t := ps[1..];
      MakersComplete(t, levels, reg);
      var head := LevelMakers(levels[ps[0]].orders, ps[0], reg);
      var tail := Makers(t, levels, reg);
      var q := Makers(ps, levels, reg);
      forall p, id | p in ps && id in levels[p].orders ensures Maker(id, p, reg[id].remaining) in q {
        if p == ps[0] {
          var k :| 0 <= k < |levels[p].orders| && levels[p].orders[k] == id;
          assert head[k] == Maker(id, p, reg[id].remaining);
        } else {
          var i :| 0 <= i < |ps| && ps[i] == p;
          assert t[i - 1] == p;
        }
      }
    }
  }

  /** The queue goes from the best price to the worst. */
  lemma {:induction false} MakersOrdered(side: Side, ps: seq<real>, levels: map<real, PriceLevel>, reg: map<OrderId, Order>)
    requires Covered(ps, levels, reg) && Sorted(side, ps)
    ensures var q := Makers(ps, levels, reg);
      forall i, j :: 0 <= i < j < |q| ==> q[i].price == q[j].price || Better(side, q[i].price, q[j].price)
    decreases |ps|
  {
    if ps != [] {
      MakersSplit(ps, levels, reg);
      var t := ps[1..];
      assert Sorted(side, t) by {
        forall i, j | 0 <= i < j < |t| ensures Better(side, t[i], t[j]) {
          assert t[i] == ps[i + 1] && t[j] == ps[j + 1];
        }
      }
      MakersOrdered(side, t, levels, reg);
      MakersPlaced(t, levels, reg);
      var head := LevelMakers(levels[ps[0]].orders, ps[0], reg);
      var tail := Makers(t, levels, reg);
      var q := Makers(ps, levels, reg);
      forall i, j | 0 <= i < j < |q| ensures q[i].price == q[j].price || Better(side, q[i].price, q[j].price) {
        if j < |head| {
          assert q[i] == head[i] && q[j] == head[j];
        } else if i < |head| {
          assert q[i] == head[i];
          assert q[j] == tail[j - |head|];
          assert tail[j - |head|].price in t;
          var k :| 0 <= k < |t| && t[k] == tail[j - |head|].price;
          assert ps[k + 1] == t[k];
        } else {
          assert q[i] == tail[i - |head|] && q[j] == tail[j - |head|];
        }
      }
    }
  }

  /** The queue of a linked side with no empty level is empty exactly when
      the side is, and otherwise starts with the oldest order at the best
      price. */
  lemma QueueHead(side: Side, bs: BookSide, reg: map<OrderId, Order>)
    requires Linked(side, bs, reg) && NoEmptyLevels(bs)
    ensures var q := Queue(side, bs, reg);
      && (q == [] <==> bs.prices == [])
      && (q != [] ==> bs.prices[0] in bs.levels && bs.levels[bs.prices[0]].orders != []
                      && q[0] == Maker(bs.levels[bs.prices[0]].orders[0], bs.prices[0], reg[q[0].id].remaining))
  {
    if bs.prices != [] {
      assert bs.prices[0] in bs.prices;
      MakersSplit(bs.prices, bs.levels, reg);
    }
  }

  /** Every queue entry is a registered order of that side resting at its
      price, listed with its remaining quantity, which is positive. */
  lemma QueueEntries(side: Side, bs: BookSide, reg: map<OrderId, Order>)
    requires Linked(side, bs, reg) && RestingPositive(bs, reg)
    ensures var q := Queue(side, bs, reg);
      forall k :: 0 <= k < |q| ==>
        && q[k].price in bs.levels && q[k].id in bs.levels[q[k].price].orders
        && q[k].remaining == reg[q[k].id].remaining && q[k].remaining > 0.0
        && reg[q[k].id].price == Some(q[k].price) && reg[q[k].id].side == side
  {
    MakersPlaced(bs.prices, bs.levels, reg);
    var q := Queue(side, bs, reg);
    assert q == Makers(bs.prices, bs.levels, reg);
    forall k | 0 <= k < |q|
      ensures && q[k].price in bs.levels && q[k].id in bs.levels[q[k].price].orders
              && q[k].remaining == reg[q[k].id].remaining && q[k].remaining > 0.0
              && reg[q[k].id].price == Some(q[k].price) && reg[q[k].id].side == side
    {
      assert q[k].price in bs.prices;
    }
  }

  /** No order is queued twice: a level lists an order once, and every
      order listed is registered at that level's price only. */
  lemma {:induction false} MakersDistinct(ps: seq<real>, levels: map<real, PriceLevel>, reg: map<OrderId, Order>)
    requires Covered(ps, levels, reg) && NoDup(ps)
    requires forall i :: 0 <= i < |ps| ==> NoDup(levels[ps[i]].orders)
    requires forall i, id :: 0 <= i < |ps| && id in levels[ps[i]].orders ==> reg[id].price == Some(ps[i])
    ensures var q := Makers(ps, levels, reg);
      forall i, j :: 0 <= i < j < |q| ==> q[i].id != q[j].id
    decreases |ps|
  {
    if ps != [] {
      MakersSplit(ps, levels, reg);
      var t := ps[1..];
      assert forall i :: 0 <= i < |t| ==> t[i] == ps[i + 1];
      MakersDistinct(t, levels, reg);
      MakersPlaced(t, levels, reg);
      var orders := levels[ps[0]].orders;
      var head := LevelMakers(orders, ps[0], reg);
      var tail := Makers(t, levels, reg);
      var q := Makers(ps, levels, reg);
      forall i, j | 0 <= i < j < |q| ensures q[i].id != q[j].id {
        if j < |head| {
          assert q[i] == head[i] && q[j] == head[j];
        } else if i < |head| {
          var x := tail[j - |head|];
          assert q[i].id == orders[i] && q[j] == x;
          assert orders[i] in orders;
          var k :| 0 <= k < |t| && t[k] == x.price;
          assert reg[x.id].price == Some(ps[k + 1]);
        } else {
          assert q[i] == tail[i - |head|] && q[j] == tail[j - |head|];
        }
      }
    }
  }

  /** The queue of a linked side names each order at most once. */
  lemma QueueDistinct(side: Side, bs: BookSide, reg: map<OrderId, Order>)
    requires Linked(side, bs, reg)
    ensures var q := Queue(side, bs, reg);
      forall i, j :: 0 <= i < j < |q| ==> q[i].id != q[j].id
  {
    SortedNoDup(side, bs.prices);
    forall i | 0 <= i < |bs.prices| ensures NoDup(bs.levels[bs.prices[i]].orders) {
      var p := bs.prices[i];
      assert p in bs.levels;
      assert bs.levels[p].price == p;
      assert PriceLevels.Valid(bs.levels[p]);
    }
    forall i, id | 0 <= i < |bs.prices| && id in bs.levels[bs.prices[i]].orders
      ensures reg[id].price == Some(bs.prices[i])
    {
      assert bs.prices[i] in bs.levels;
    }
    MakersDistinct(bs.prices, bs.levels, reg);
    assert Queue(side, bs, reg) == Makers(bs.prices, bs.levels, reg);
  }

  /** Writing the plan against a side back into the registry: each maker
      it names ends as `update_fill` of its own fill leaves it, FILLED when
      the plan took all it had left and PARTIAL otherwise, and every other
      entry keeps its value. */
  lemma PlanWritten(side: Side, bs: BookSide, reg: map<OrderId, Order>, need: real, limit: Option<real>)
    requires Linked(Opposite(side), bs, reg) && RestingPositive(bs, reg) && Ledger(reg)
    ensures var plan := Plan(Queue(Opposite(side), bs, reg), need, limit, side);
      var reg' := Applied(reg, plan);
      && reg'.Keys == reg.Keys
      && (forall id :: id in reg && (forall k :: 0 <= k < |plan| ==> plan[k].makerId != id) ==> reg'[id] == reg[id])
      && forall k :: 0 <= k < |plan| ==>
           && plan[k].makerId in reg && UpdateFill(reg[plan[k].makerId], plan[k].quantity).Ok?
           && reg'[plan[k].makerId] == UpdateFill(reg[plan[k].makerId], plan[k].quantity).value
           && reg'[plan[k].makerId].status ==
              (if plan[k].quantity == reg[plan[k].makerId].remaining then Filled else Partial)
  {
    var q := Queue(Opposite(side), bs, reg);
    var plan := Plan(q, need, limit, side);
    QueueEntries(Opposite(side), bs, reg);
    QueueDistinct(Opposite(side), bs, reg);
    PlanTakesPrefix(q, need, limit, side);
    assert DistinctMakers(plan);
    forall id | id in reg && (forall k :: 0 <= k < |plan| ==> plan[k].makerId != id)
      ensures Applied(reg, plan)[id] == reg[id]
    {
      AppliedKeepsOthers(reg, plan, id);
    }
    forall k | 0 <= k < |plan|
      ensures && plan[k].makerId in reg && UpdateFill(reg[plan[k].makerId], plan[k].quantity).Ok?
              && Applied(reg, plan)[plan[k].makerId] == UpdateFill(reg[plan[k].makerId], plan[k].quantity).value
              && Applied(reg, plan)[plan[k].makerId].status ==
                 (if plan[k].quantity == reg[plan[k].makerId].remaining then Filled else Partial)
    {
      var m := plan[k].makerId;
      assert m == q[k].id && reg[m].remaining == q[k].remaining;
      AppliedDistinct(reg, plan, k);
      FillKeepsBalance(reg[m], plan[k].quantity);
    }
  }

  /** Price-time priority: the queue lists every resting order of the side,
      best price first; within a price it is the level's own FIFO queue. */
  lemma QueueIsPriority(side: Side, bs: BookSide, reg: map<OrderId, Order>)
    requires Linked(side, bs, reg)
    ensures var q := Queue(side, bs, reg);
      && (forall p, id :: p in bs.levels && id in bs.levels[p].orders ==> Maker(id, p, reg[id].remaining) in q)
      && (forall i, j :: 0 <= i < j < |q| ==> q[i].price == q[j].price || Better(side, q[i].price, q[j].price))
  {
    MakersComplete(bs.prices, bs.levels, reg);
    MakersOrdered(side, bs.prices, bs.levels, reg);
    var q := Queue(side, bs, reg);
    assert q == Makers(bs.prices, bs.levels, reg);
    forall p, id | p in bs.levels && id in bs.levels[p].orders ensures Maker(id, p, reg[id].remaining) in q {
      assert p in bs.prices;
    }
  }

  /** Two stores that agree on the levels at the listed prices and on the
      remaining quantity of every order queued there give the same queue. */
  lemma {:induction false} MakersFrame(
    ps: seq<real>, l1: map<real, PriceLevel>, r1: map<OrderId, Order>, l2: map<real, PriceLevel>, r2: map<OrderId, Order>)
    requires Covered(ps, l1, r1) && Covered(ps, l2, r2)
    requires forall i :: 0 <= i < |ps| ==> l1[ps[i]].orders == l2[ps[i]].orders
    requires forall i, id :: 0 <= i < |ps| && id in l1[ps[i]].orders ==> r1[id].remaining == r2[id].remaining
    ensures Makers(ps, l1, r1) == Makers(ps, l2, r2)
    decreases |ps|
  {
    if ps != [] {
      CoveredTail(ps, l1, r1);
      CoveredTail(ps, l2, r2);
      assert l1[ps[0]].orders == l2[ps[0]].orders;
      assert LevelMakers(l1[ps[0]].orders, ps[0], r1) == LevelMakers(l2[ps[0]].orders, ps[0], r2);
      forall i | 0 <= i < |ps[1..]| ensures l1[ps[1..][i]].orders == l2[ps[1..][i]].orders {
        assert ps[1..][i] == ps[i + 1];
      }
      forall i, id | 0 <= i < |ps[1..]| && id in l1[ps[1..][i]].orders ensures r1[id].remaining == r2[id].remaining {
        assert ps[1..][i] == ps[i + 1];
      }
      MakersFrame(ps[1..], l1, r1, l2, r2);
    }
  }

  /** The head of a level leaves it: what is left is the rest of the queue. */
  lemma RemoveHead(l: PriceLevel)
    requires PriceLevels.Valid(l) && l.orders != []
    ensures PriceLevels.RemoveOrder(l, l.orders[0]).0.orders == l.orders[1..]
  {
    assert IndexOf(l.orders, l.orders[0]) == 0;
    assert RemoveAt(l.orders, 0) == l.orders[1..];
  }

  /** The queue of a non-empty side: the level at the best price, oldest
      first, then the rest of the side; the head order occurs nowhere else. */
  lemma HeadLayout(side: Side, bs: BookSide, reg: map<OrderId, Order>)
    requires Linked(side, bs, reg) && NoEmptyLevels(bs) && bs.prices != []
    ensures bs.prices[0] in bs.levels && bs.levels[bs.prices[0]].orders != []
    ensures Covered(bs.prices[1..], bs.levels, reg)
    ensures var p := bs.prices[0];
      var l := bs.levels[p];
      && Queue(side, bs, reg) == LevelMakers(l.orders, p, reg) + Makers(bs.prices[1..], bs.levels, reg)
      && Queue(side, bs, reg)[1..] == LevelMakers(l.orders[1..], p, reg) + Makers(bs.prices[1..], bs.levels, reg)
      && (forall i :: 0 <= i < |bs.prices[1..]| ==> bs.prices[1..][i] != p)
      && (forall i, x :: 0 <= i < |bs.prices[1..]| && x in bs.levels[bs.prices[1..][i]].orders ==> x != l.orders[0])
      && (forall x :: x in l.orders[1..] ==> x != l.orders[0])
  {
    HeadQueue(side, bs, reg);
    HeadApart(side, bs, reg);
  }

  /** The queue of a non-empty side with its head taken off. */
  lemma HeadQueue(side: Side, bs: BookSide, reg: map<OrderId, Order>)
    requires Linked(side, bs, reg) && NoEmptyLevels(bs) && bs.prices != []
    ensures bs.prices[0] in bs.levels && bs.levels[bs.prices[0]].orders != []
    ensures Covered(bs.prices[1..], bs.levels, reg)
    ensures var p := bs.prices[0];
      var l := bs.levels[p];
      && Queue(side, bs, reg) == LevelMakers(l.orders, p, reg) + Makers(bs.prices[1..], bs.levels, reg)
      && Queue(side, bs, reg)[1..] == LevelMakers(l.orders[1..], p, reg) + Makers(bs.prices[1..], bs.levels, reg)
  {
    QueueUnfold(side, bs, reg);
    var p := bs.prices[0];
    var l := bs.levels[p];
    assert l.orders != [];
    assert LevelMakers(l.orders, p, reg)[1..] == LevelMakers(l.orders[1..], p, reg);
  }

  /** The best price is listed once, and the head order of its level is
      queued nowhere else. */
  lemma HeadApart(side: Side, bs: BookSide, reg: map<OrderId, Order>)
    requires Linked(side, bs, reg) && NoEmptyLevels(bs) && bs.prices != []
    ensures bs.prices[0] in bs.levels && bs.levels[bs.prices[0]].orders != []
    ensures var p := bs.prices[0];
      var l := bs.levels[p];
      && (forall i :: 0 <= i < |bs.prices[1..]| ==> bs.prices[1..][i] != p)
      && (forall i, x :: 0 <= i < |bs.prices[1..]| && x in bs.levels[bs.prices[1..][i]].orders ==> x != l.orders[0])
      && (forall x :: x in l.orders[1..] ==> x != l.orders[0])
  {
    var p := bs.prices[0];
    assert p in bs.prices;
    var l := bs.levels[p];
    SortedNoDup(side, bs.prices);
    var rest := bs.prices[1..];
    forall i | 0 <= i < |rest| ensures rest[i] != p {
      assert rest[i] == bs.prices[i + 1];
    }
    assert l.orders[0] in l.orders;
    assert reg[l.orders[0]].price == Some(p);
    forall i, x | 0 <= i < |rest| && x in bs.levels[rest[i]].orders ensures x != l.orders[0] {
      assert rest[i] == bs.prices[i + 1] && rest[i] in bs.prices;
      assert reg[x].price == Some(rest[i]);
    }
    assert PriceLevels.Valid(l);
    forall x | x in l.orders[1..] ensures x != l.orders[0] {
      var k :| 0 <= k < |l.orders[1..]| && l.orders[1..][k] == x;
      assert l.orders[k + 1] == x;
    }
  }

  /** Taking an order out of its level, and dropping the level if it
      empties, keeps a side linked. */
  lemma TakeOutLinked(side: Side, bs: BookSide, reg: map<OrderId, Order>, bs': BookSide, p: real, m: OrderId)
    requires Linked(side, bs, reg) && p in bs.levels && m in bs.levels[p].orders
    requires Shaped(side, bs') && bs'.levels == LevelsWithout(bs.levels, Some(p), m)
    ensures Linked(side, bs', reg)
  {
    TakeOutLevelsKept(side, bs, bs', p, m);
    TakeOutIdsKept(side, bs, reg, bs', p, m);
  }

  /** A level left after the removal is the old one, or at `p` the old one
      without `m`. */
  lemma LevelsWithoutAt(levels: map<real, PriceLevel>, p: real, m: OrderId, x: real)
    requires p in levels && x in LevelsWithout(levels, Some(p), m)
    ensures x in levels
    ensures x != p ==> LevelsWithout(levels, Some(p), m)[x] == levels[x]
    ensures x == p ==> LevelsWithout(levels, Some(p), m)[x] == PriceLevels.RemoveOrder(levels[p], m).0
  {
  }

  lemma TakeOutLevelsKept(side: Side, bs: BookSide, bs': BookSide, p: real, m: OrderId)
    requires forall x :: x in bs.levels ==>
      bs.levels[x].price == x && bs.levels[x].side == side && PriceLevels.Valid(bs.levels[x])
    requires p in bs.levels && m in bs.levels[p].orders
    requires bs'.levels == LevelsWithout(bs.levels, Some(p), m)
    ensures forall x :: x in bs'.levels ==>
      bs'.levels[x].price == x && bs'.levels[x].side == side && PriceLevels.Valid(bs'.levels[x])
  {
    var l := bs.levels[p];
    assert PriceLevels.Valid(l) && m in l.index;
    forall x | x in bs'.levels
      ensures bs'.levels[x].price == x && bs'.levels[x].side == side && PriceLevels.Valid(bs'.levels[x])
    {
      LevelsWithoutAt(bs.levels, p, m, x);
    }
  }

  lemma TakeOutIdsKept(side: Side, bs: BookSide, reg: map<OrderId, Order>, bs': BookSide, p: real, m: OrderId)
    requires forall x :: x in bs.levels ==> PriceLevels.Valid(bs.levels[x])
    requires forall x, id :: x in bs.levels && id in bs.levels[x].orders ==>
      id in reg && reg[id].side == side && reg[id].price == Some(x)
    requires p in bs.levels && m in bs.levels[p].orders
    requires bs'.levels == LevelsWithout(bs.levels, Some(p), m)
    ensures forall x, id :: x in bs'.levels && id in bs'.levels[x].orders ==>
      id in reg && reg[id].side == side && reg[id].price == Some(x)
  {
    var l := bs.levels[p];
    assert PriceLevels.Valid(l) && m in l.index;
    forall x, id | x in bs'.levels && id in bs'.levels[x].orders
      ensures id in reg && reg[id].side == side && reg[id].price == Some(x)
    {
      LevelsWithoutAt(bs.levels, p, m, x);
      if x == p {
        assert id in l.orders;
      }
    }
  }

  /** Dropping the level at the best price leaves the other prices. */
  lemma PricesAfterDrop(side: Side, bs: BookSide, bs': BookSide)
    requires Shaped(side, bs) && Shaped(side, bs') && bs.prices != []
    requires bs'.levels == bs.levels - {bs.prices[0]}
    ensures bs'.prices == bs.prices[1..]
  {
    assert bs.prices[0] in bs.prices;
    DeleteLevelShaped(side, bs, bs.prices[0]);
    DeleteBest(side, bs);
    KeysDeterminePrices(side, bs', DeleteLevel(bs, bs.prices[0]));
  }

  /** The head order was the only one at the best price: the level goes,
      and with it the head of the queue and the best price. */
  lemma TakeOutEmptied(side: Side, bs: BookSide, reg: map<OrderId, Order>, bs': BookSide, reg': map<OrderId, Order>, m: OrderId, q: real)
    requires Linked(side, bs, reg) && NoEmptyLevels(bs) && bs.prices != []
    requires bs.prices[0] in bs.levels && bs.levels[bs.prices[0]].orders == [m]
    requires FilledEntry(reg, reg', m, q)
    requires Linked(side, bs', reg') && bs'.levels == bs.levels - {bs.prices[0]}
    ensures Queue(side, bs', reg') == Queue(side, bs, reg)[1..]
    ensures bs'.prices == bs.prices[1..]
  {
    HeadLayout(side, bs, reg);
    PricesAfterDrop(side, bs, bs');
    MakersFrame(bs.prices[1..], bs.levels, reg, bs'.levels, reg');
    assert LevelMakers([], bs.prices[0], reg) == [];
  }

  /** Other orders remain at the best price: the level keeps its place
      without its head, and so does the queue. */
  lemma TakeOutShrunk(side: Side, bs: BookSide, reg: map<OrderId, Order>, bs': BookSide, reg': map<OrderId, Order>, m: OrderId, q: real, l': PriceLevel)
    requires Linked(side, bs, reg) && NoEmptyLevels(bs) && bs.prices != []
    requires bs.prices[0] in bs.levels && bs.levels[bs.prices[0]].orders != [] && m == bs.levels[bs.prices[0]].orders[0]
    requires l'.orders == bs.levels[bs.prices[0]].orders[1..]
    requires FilledEntry(reg, reg', m, q)
    requires Linked(side, bs', reg') && bs'.levels == bs.levels[bs.prices[0] := l']
    ensures Queue(side, bs', reg') == Queue(side, bs, reg)[1..]
    ensures bs'.prices == bs.prices
  {
    var p := bs.prices[0];
    var l := bs.levels[p];
    HeadLayout(side, bs, reg);
    assert bs'.levels.Keys == bs.levels.Keys;
    KeysDeterminePrices(side, bs', bs);
    TailUnchanged(bs.prices[1..], bs.levels, reg, bs'.levels, reg', p, m, q, l');
    QueueUnfold(side, bs', reg');
    assert LevelMakers(l'.orders, p, reg') == LevelMakers(l.orders[1..], p, reg);
  }

  /** The queue of a non-empty side starts with the level at its best price. */
  lemma QueueUnfold(side: Side, bs: BookSide, reg: map<OrderId, Order>)
    requires Linked(side, bs, reg) && bs.prices != []
    ensures bs.prices[0] in bs.levels && Covered(bs.prices[1..], bs.levels, reg)
    ensures Queue(side, bs, reg) == LevelMakers(bs.levels[bs.prices[0]].orders, bs.prices[0], reg) + Makers(bs.prices[1..], bs.levels, reg)
  {
    assert bs.prices[0] in bs.prices;
    assert Covered(bs.prices, bs.levels, reg);
    CoveredTail(bs.prices, bs.levels, reg);
  }

  /** Replacing the level at a price not listed, and filling an order queued
      at none of the listed prices, leaves the queue of those prices as it was. */
  lemma TailUnchanged(
    ps: seq<real>, levels: map<real, PriceLevel>, reg: map<OrderId, Order>, levels': map<real, PriceLevel>, reg': map<OrderId, Order>,
    p: real, m: OrderId, q: real, l': PriceLevel)
    requires Covered(ps, levels, reg) && FilledEntry(reg, reg', m, q) && levels' == levels[p := l']
    requires forall i :: 0 <= i < |ps| ==> ps[i] != p
    requires forall i, x :: 0 <= i < |ps| && x in levels[ps[i]].orders ==> x != m
    ensures Covered(ps, levels', reg') && Makers(ps, levels, reg) == Makers(ps, levels', reg')
  {
    forall i | 0 <= i < |ps|
      ensures ps[i] in levels' && levels'[ps[i]] == levels[ps[i]] && forall id :: id in levels'[ps[i]].orders ==> id in reg'
    {
      assert ps[i] != p;
    }
    forall i, id | 0 <= i < |ps| && id in levels[ps[i]].orders ensures reg[id].remaining == reg'[id].remaining {
      assert id != m;
    }
    MakersFrame(ps, levels, reg, levels', reg');
  }

  /** A used-up head order leaves its level (and the level goes if it
      empties): the side stays linked, its queue loses its head, and its
      prices lose the best one exactly when that level went. */
  lemma QueueAfterTakeOut(side: Side, bs: BookSide, reg: map<OrderId, Order>, bs': BookSide, reg': map<OrderId, Order>, m: OrderId, q: real)
    requires Linked(side, bs, reg) && NoEmptyLevels(bs) && bs.prices != []
    requires bs.prices[0] in bs.levels && bs.levels[bs.prices[0]].orders != [] && m == bs.levels[bs.prices[0]].orders[0]
    requires FilledEntry(reg, reg', m, q)
    requires Shaped(side, bs') && bs'.levels == LevelsWithout(bs.levels, Some(bs.prices[0]), m)
    ensures Linked(side, bs', reg')
    ensures Queue(side, bs', reg') == Queue(side, bs, reg)[1..]
    ensures bs.prices[0] in bs'.levels ==> bs'.prices == bs.prices
    ensures bs.prices[0] !in bs'.levels ==> bs'.prices == bs.prices[1..]
  {
    var p := bs.prices[0];
    var l := bs.levels[p];
    assert m in l.orders;
    FillKeepsLinked(side, bs, reg, reg', m, q);
    TakeOutLinked(side, bs, reg', bs', p, m);
    assert PriceLevels.Valid(l);
    RemoveHead(l);
    var l' := PriceLevels.RemoveOrder(l, m).0;
    if IsEmpty(l') {
      assert l.orders == [m];
      TakeOutEmptied(side, bs, reg, bs', reg', m, q);
    } else {
      TakeOutShrunk(side, bs, reg, bs', reg', m, q, l');
    }
  }

  /** A head order that is not used up stays where it is with less left:
      the side is untouched and only the head of its queue changes. */
  lemma QueueAfterPartFill(side: Side, bs: BookSide, reg: map<OrderId, Order>, reg': map<OrderId, Order>, m: OrderId, q: real)
    requires Linked(side, bs, reg) && NoEmptyLevels(bs) && bs.prices != []
    requires bs.prices[0] in bs.levels && bs.levels[bs.prices[0]].orders != [] && m == bs.levels[bs.prices[0]].orders[0]
    requires FilledEntry(reg, reg', m, q)
    ensures Linked(side, bs, reg')
    ensures Queue(side, bs, reg) != []
    ensures Queue(side, bs, reg') == [Queue(side, bs, reg)[0].(remaining := reg'[m].remaining)] + Queue(side, bs, reg)[1..]
  {
    var p := bs.prices[0];
    var l := bs.levels[p];
    HeadLayout(side, bs, reg);
    FillKeepsLinked(side, bs, reg, reg', m, q);
    QueueUnfold(side, bs, reg');
    HeadRefilled(l.orders, p, reg, reg', m, q);
    TailRefilled(bs.prices[1..], bs.levels, reg, reg', m, q);
  }

  /** Filling the head of a level changes only the head of its queue. */
  lemma HeadRefilled(ids: seq<OrderId>, p: real, reg: map<OrderId, Order>, reg': map<OrderId, Order>, m: OrderId, q: real)
    requires ids != [] && ids[0] == m && (forall x :: x in ids[1..] ==> x != m) && (forall x :: x in ids ==> x in reg)
    requires FilledEntry(reg, reg', m, q)
    ensures forall x :: x in ids ==> x in reg'
    ensures LevelMakers(ids, p, reg') == [Maker(m, p, reg'[m].remaining)] + LevelMakers(ids[1..], p, reg)
  {
    var a := LevelMakers(ids, p, reg');
    var b := [Maker(m, p, reg'[m].remaining)] + LevelMakers(ids[1..], p, reg);
    forall k | 0 <= k < |ids| ensures a[k] == b[k] {
      if k > 0 {
        assert ids[k] == ids[1..][k - 1];
        assert ids[1..][k - 1] in ids[1..];
      }
    }
  }

  /** Filling an order queued at none of the listed prices leaves their
      queue as it was. */
  lemma TailRefilled(ps: seq<real>, levels: map<real, PriceLevel>, reg: map<OrderId, Order>, reg': map<OrderId, Order>, m: OrderId, q: real)
    requires Covered(ps, levels, reg) && FilledEntry(reg, reg', m, q)
    requires forall i, x :: 0 <= i < |ps| && x in levels[ps[i]].orders ==> x != m
    ensures Covered(ps, levels, reg') && Makers(ps, levels, reg) == Makers(ps, levels, reg')
  {
    forall i, id | 0 <= i < |ps| && id in levels[ps[i]].orders ensures reg[id].remaining == reg'[id].remaining {
      assert id != m;
    }
    MakersFrame(ps, levels, reg, levels, reg');
  }

  /** The head of the queue, as the first fill of a plan that needs `need`. */
  lemma StepHead(side: Side, limit: Option<real>, need: real, bs: BookSide, reg: map<OrderId, Order>, m: OrderId)
    requires Linked(Opposite(side), bs, reg) && NoEmptyLevels(bs) && RestingPositive(bs, reg)
    requires bs.prices != [] && need > 0.0 && !Beyond(side, bs.prices[0], limit)
    requires bs.prices[0] in bs.levels && bs.levels[bs.prices[0]].orders != []
    requires m == bs.levels[bs.prices[0]].orders[0] && m in reg
    ensures Queue(Opposite(side), bs, reg) != []
    ensures Queue(Opposite(side), bs, reg)[0] == Maker(m, bs.prices[0], reg[m].remaining)
    ensures reg[m].remaining > 0.0
    ensures var f := Min(need, reg[m].remaining);
      Plan(Queue(Opposite(side), bs, reg), need, limit, side)
        == [Fill(m, bs.prices[0], f)] + Plan(Queue(Opposite(side), bs, reg)[1..], need - f, limit, side)
  {
    QueueHead(Opposite(side), bs, reg);
    QueueEntries(Opposite(side), bs, reg);
  }

  /** A step that fills the head maker completely: the maker leaves the
      queue and the taker goes on with what it still needs. */
  lemma StepTakesOut(side: Side, limit: Option<real>, need: real, q: real,
                     bs: BookSide, reg: map<OrderId, Order>, bs': BookSide, reg': map<OrderId, Order>, m: OrderId)
    requires Linked(Opposite(side), bs, reg) && NoEmptyLevels(bs) && RestingPositive(bs, reg) && PositivePrices(bs)
    requires bs.prices != [] && need > 0.0 && !Beyond(side, bs.prices[0], limit)
    requires bs.prices[0] in bs.levels && bs.levels[bs.prices[0]].orders != []
    requires m == bs.levels[bs.prices[0]].orders[0] && m in reg
    requires q == reg[m].remaining && need >= q && FilledEntry(reg, reg', m, q)
    requires Shaped(Opposite(side), bs') && bs'.levels == LevelsWithout(bs.levels, Some(bs.prices[0]), m)
    ensures Linked(Opposite(side), bs', reg') && RestingPositive(bs', reg') && PositivePrices(bs')
    ensures |Queue(Opposite(side), bs', reg')| < |Queue(Opposite(side), bs, reg)|
    ensures forall x :: x in bs'.levels ==> x in bs.levels
    ensures bs.prices[0] in bs'.levels ==> bs'.prices == bs.prices
    ensures bs.prices[0] !in bs'.levels ==> bs'.prices == bs.prices[1..]
    ensures Advances(Queue(Opposite(side), bs, reg), need, Queue(Opposite(side), bs', reg'), need - q,
                     [Fill(m, bs.prices[0], q)], limit, side)
  {
    var p := bs.prices[0];
    StepHead(side, limit, need, bs, reg, m);
    QueueAfterTakeOut(Opposite(side), bs, reg, bs', reg', m, q);
    PlanDropsHead(Queue(Opposite(side), bs, reg), Queue(Opposite(side), bs', reg'), need, limit, side);
    assert forall x :: x in bs.levels && m in bs.levels[x].orders ==> reg[m].price == Some(x);
    TakeOutPositive(bs, reg, bs', reg', p, m);
  }

  /** A taker that needs at least what the head maker has takes all of it
      and then meets the rest of the queue. */
  lemma PlanDropsHead(q: seq<Maker>, q': seq<Maker>, need: real, limit: Option<real>, side: Side)
    requires q != [] && q' == q[1..] && q[0].remaining > 0.0 && need >= q[0].remaining
    requires !Beyond(side, q[0].price, limit)
    ensures Plan(q, need, limit, side) == [Fill(q[0].id, q[0].price, q[0].remaining)] + Plan(q', need - q[0].remaining, limit, side)
    ensures Rest(q, need, limit, side) == Rest(q', need - q[0].remaining, limit, side)
  {
  }

  /** Taking one order out of its level keeps every other resting order
      positive, whatever the registry now says about the order taken out. */
  lemma TakeOutPositive(bs: BookSide, reg: map<OrderId, Order>, bs': BookSide, reg': map<OrderId, Order>, p: real, m: OrderId)
    requires RestingPositive(bs, reg) && p in bs.levels && PriceLevels.Valid(bs.levels[p])
    requires forall q :: q in bs.levels && m in bs.levels[q].orders ==> q == p
    requires bs'.levels == LevelsWithout(bs.levels, Some(p), m)
    requires m in reg && reg'.Keys == reg.Keys && forall id :: id in reg && id != m ==> reg'[id] == reg[id]
    ensures RestingPositive(bs', reg')
    ensures forall x :: x in bs'.levels ==> x in bs.levels
  {
    var l' := PriceLevels.RemoveOrder(bs.levels[p], m).0;
    assert forall x :: x in l'.orders <==> x in bs.levels[p].orders && x != m;
    forall q, id | q in bs'.levels && id in bs'.levels[q].orders
      ensures id in reg' && reg'[id].remaining > 0.0
    {
      if q == p {
        assert bs'.levels[q] == l';
      }
      assert id in bs.levels[q].orders;
      assert id != m;
    }
  }

  /** A step that fills the taker and leaves the head maker with less: the
      maker keeps its place and the plan is complete. */
  lemma StepPartFill(side: Side, limit: Option<real>, need: real, q: real,
                     bs: BookSide, reg: map<OrderId, Order>, reg': map<OrderId, Order>, m: OrderId)
    requires Linked(Opposite(side), bs, reg) && NoEmptyLevels(bs) && RestingPositive(bs, reg)
    requires bs.prices != [] && need > 0.0 && !Beyond(side, bs.prices[0], limit)
    requires bs.prices[0] in bs.levels && bs.levels[bs.prices[0]].orders != []
    requires m == bs.levels[bs.prices[0]].orders[0] && m in reg && Balanced(reg[m])
    requires q == need && need < reg[m].remaining && FilledEntry(reg, reg', m, q)
    ensures Linked(Opposite(side), bs, reg') && RestingPositive(bs, reg')
    ensures |Queue(Opposite(side), bs, reg')| == |Queue(Opposite(side), bs, reg)|
    ensures Advances(Queue(Opposite(side), bs, reg), need, Queue(Opposite(side), bs, reg'), need - q,
                     [Fill(m, bs.prices[0], q)], limit, side)
  {
    StepHead(side, limit, need, bs, reg, m);
    FillKeepsBalance(reg[m], need);
    QueueAfterPartFill(Opposite(side), bs, reg, reg', m, need);
    var q0 := Queue(Opposite(side), bs, reg);
    var q1 := Queue(Opposite(side), bs, reg');
    assert Plan(q0[1..], 0.0, limit, side) == [] && Plan(q1, 0.0, limit, side) == [];
    assert Rest(q0, need, limit, side) == q1;
    assert [Fill(m, bs.prices[0], q)] + Plan(q1, 0.0, limit, side) == [Fill(m, bs.prices[0], q)];
  }

  /** Every level of the side is at a positive price. */
  ghost predicate PositivePrices(bs: BookSide)
  {
    forall p :: p in bs.levels ==> p > 0.0
  }

  /** Filling an order of the other side leaves this side linked, its
      resting orders positive, the ledger balanced and the ids registered the
      same. */
  lemma OwnSideKept(side: Side, own: BookSide, reg: map<OrderId, Order>, reg': map<OrderId, Order>, m: OrderId, q: real)
    requires Linked(side, own, reg) && RestingPositive(own, reg) && Ledger(reg)
    requires FilledEntry(reg, reg', m, q) && reg[m].side != side
    ensures Linked(side, own, reg') && RestingPositive(own, reg') && Ledger(reg') && reg'.Keys == reg.Keys
  {
    FillKeepsBalance(reg[m], q);
    FillKeepsLinked(side, own, reg, reg', m, q);
  }

  /** One step of the matcher, as the engine performs it: a taker on `side`
      that still needs `need` trades `q`, the smaller of its need and the
      remainder of the oldest order at the best opposite price, which the
      limit accepts; the maker's registry entry is filled by `q` and, when
      nothing of it remains, it leaves its level. The fill is the first one
      the plan promises, the rest of the plan is the plan of the new book, the
      queue the plan leaves is the same, and both sides stay linked, positive
      and priced above zero; the opposite side loses at most its best price. */
  lemma MatchStep(side: Side, limit: Option<real>, need: real, q: real, m: OrderId,
                  own: BookSide, bs: BookSide, reg: map<OrderId, Order>, bs': BookSide, reg': map<OrderId, Order>)
    requires Linked(Opposite(side), bs, reg) && NoEmptyLevels(bs) && RestingPositive(bs, reg) && PositivePrices(bs)
    requires Linked(side, own, reg) && RestingPositive(own, reg) && Ledger(reg)
    requires bs.prices != [] && need > 0.0 && !Beyond(side, bs.prices[0], limit)
    requires bs.prices[0] in bs.levels && bs.levels[bs.prices[0]].orders != []
    requires m == bs.levels[bs.prices[0]].orders[0] && m in reg
    requires q == Min(need, reg[m].remaining) && FilledEntry(reg, reg', m, q)
    requires Shaped(Opposite(side), bs')
    requires if reg'[m].remaining == 0.0 then bs'.levels == LevelsWithout(bs.levels, Some(bs.prices[0]), m) else bs' == bs
    ensures Linked(Opposite(side), bs', reg') && RestingPositive(bs', reg') && PositivePrices(bs')
    ensures Linked(side, own, reg') && RestingPositive(own, reg') && Ledger(reg') && reg'.Keys == reg.Keys
    ensures Advances(Queue(Opposite(side), bs, reg), need, Queue(Opposite(side), bs', reg'), need - q,
                     [Fill(m, bs.prices[0], q)], limit, side)
    ensures |Queue(Opposite(side), bs', reg')| <= |Queue(Opposite(side), bs, reg)|
    ensures |Queue(Opposite(side), bs', reg')| < |Queue(Opposite(side), bs, reg)| || q == need
    ensures bs.prices[0] in bs'.levels ==> bs'.prices == bs.prices
    ensures bs.prices[0] !in bs'.levels ==> bs'.prices == bs.prices[1..]
    ensures forall x :: x in bs'.levels ==> x in bs.levels
  {
    StepHead(side, limit, need, bs, reg, m);
    FillKeepsBalance(reg[m], q);
    assert reg[m].side == Opposite(side) by {
      assert bs.prices[0] in bs.levels && m in bs.levels[bs.prices[0]].orders;
    }
    OwnSideKept(side, own, reg, reg', m, q);
    if reg'[m].remaining == 0.0 {
      StepTakesOut(side, limit, need, q, bs, reg, bs', reg', m);
    } else {
      StepPartFill(side, limit, need, q, bs, reg, reg', m);
    }
  }

  /** A plan with a fill to make is not blocked, starts at the head of the
      queue for the smaller of the two remainders, and goes on with the
      plan of the tail. */
  lemma PlanHead(q: seq<Maker>, need: real, limit: Option<real>, side: Side)
    requires Plan(q, need, limit, side) != []
    ensures need > 0.0 && q != [] && !Beyond(side, q[0].price, limit)
    ensures var f := Min(need, q[0].remaining);
      && Plan(q, need, limit, side)[0] == Fill(q[0].id, q[0].price, f)
      && Plan(q, need, limit, side)[1..] == Plan(q[1..], need - f, limit, side)
  {
  }

  /** A plan with nothing to fill leaves the queue as it is. */
  lemma PlanNoneRest(q: seq<Maker>, need: real, limit: Option<real>, side: Side)
    requires |Plan(q, need, limit, side)| == 0
    ensures Rest(q, need, limit, side) == q
  {
  }

  /** Registering an order that queues nowhere changes no queue. */
  lemma QueueIgnoresOthers(side: Side, bs: BookSide, reg: map<OrderId, Order>, o: Order)
    requires Linked(side, bs, reg) && o.id !in reg
    ensures Linked(side, bs, reg[o.id := o])
    ensures Queue(side, bs, reg[o.id := o]) == Queue(side, bs, reg)
  {
    var reg' := reg[o.id := o];
    forall i | 0 <= i < |bs.prices|
      ensures bs.prices[i] in bs.levels && forall id :: id in bs.levels[bs.prices[i]].orders ==> id in reg
    {
      assert bs.prices[i] in bs.prices;
    }
    MakersFrame(bs.prices, bs.levels, reg, bs.levels, reg');
  }

  /** The scan of `_check_can_fill_fok` enters the level at `ps[i]`: the
      queue from there on is that level, oldest first, then the levels after it. */
  lemma ScanLevel(ps: seq<real>, levels: map<real, PriceLevel>, reg: map<OrderId, Order>, i: nat)
    requires i < |ps| && Covered(ps[i..], levels, reg)
    ensures ps[i] in levels && (forall x :: x in levels[ps[i]].orders ==> x in reg)
    ensures Covered(ps[i + 1..], levels, reg)
    ensures Makers(ps[i..], levels, reg)
         == LevelMakers(levels[ps[i]].orders[0..], ps[i], reg) + Makers(ps[i + 1..], levels, reg)
  {
    MakersSplit(ps[i..], levels, reg);
    assert ps[i..][0] == ps[i] && ps[i..][1..] == ps[i + 1..];
    assert levels[ps[i]].orders[0..] == levels[ps[i]].orders;
  }

  /** One maker of the scan: it gets the smaller of what is still needed
      and its own remainder, which is the next fill of the plan. */
  lemma ScanStep(ids: seq<OrderId>, j: nat, p: real, rest: seq<Maker>, reg: map<OrderId, Order>,
                 need: real, limit: Option<real>, side: Side)
    requires j < |ids| && (forall x :: x in ids ==> x in reg)
    requires need > 0.0 && !Beyond(side, p, limit)
    ensures var f := Min(need, reg[ids[j]].remaining);
      Plan(LevelMakers(ids[j..], p, reg) + rest, need, limit, side)
        == [Fill(ids[j], p, f)] + Plan(LevelMakers(ids[j + 1..], p, reg) + rest, need - f, limit, side)
  {
    var q := LevelMakers(ids[j..], p, reg) + rest;
    assert ids[j] in ids;
    assert q[0] == Maker(ids[j], p, reg[ids[j]].remaining);
    assert q[1..] == LevelMakers(ids[j + 1..], p, reg) + rest;
    PlanStep(q, need, limit, side);
  }

  /** `ScanStep` as the scan's loop keeps it: the plan built so far,
      followed by what the rest of the queue gives, is the whole plan. */
  lemma ScanAdvance(full: seq<Fill>, plan: seq<Fill>, ids: seq<OrderId>, j: nat, p: real, rest: seq<Maker>,
                    reg: map<OrderId, Order>, need: real, limit: Option<real>, side: Side)
    requires j < |ids| && (forall x :: x in ids ==> x in reg)
    requires need > 0.0 && !Beyond(side, p, limit)
    requires full == plan + Plan(LevelMakers(ids[j..], p, reg) + rest, need, limit, side)
    ensures var f := Min(need, reg[ids[j]].remaining);
      && full == (plan + [Fill(ids[j], p, f)]) + Plan(LevelMakers(ids[j + 1..], p, reg) + rest, need - f, limit, side)
      && SumQty(plan + [Fill(ids[j], p, f)]) == SumQty(plan) + f
  {
    var f := Min(need, reg[ids[j]].remaining);
    ScanStep(ids, j, p, rest, reg, need, limit, side);
    var t := Plan(LevelMakers(ids[j + 1..], p, reg) + rest, need - f, limit, side);
    assert plan + ([Fill(ids[j], p, f)] + t) == (plan + [Fill(ids[j], p, f)]) + t;
    SumQtyAppend(plan, [Fill(ids[j], p, f)]);
    assert SumQty([Fill(ids[j], p, f)]) == f + SumQty([]);
  }

  /** The scan leaves a level when it is exhausted or nothing more is
      needed; either way the plan goes on with the levels after it. */
  lemma ScanNext(ids: seq<OrderId>, j: nat, p: real, rest: seq<Maker>, reg: map<OrderId, Order>,
                 need: real, limit: Option<real>, side: Side)
    requires j <= |ids| && (forall x :: x in ids ==> x in reg)
    requires j == |ids| || need == 0.0
    ensures Plan(LevelMakers(ids[j..], p, reg) + rest, need, limit, side) == Plan(rest, need, limit, side)
  {
    if j == |ids| {
      assert LevelMakers(ids[j..], p, reg) + rest == rest;
    } else {
      assert |Plan(LevelMakers(ids[j..], p, reg) + rest, need, limit, side)| == 0;
      assert |Plan(rest, need, limit, side)| == 0;
    }
  }

  /** Where the scan stops (no level left, nothing needed, or a level
      beyond the limit) the plan has nothing more to add. */
  lemma ScanDone(ps: seq<real>, levels: map<real, PriceLevel>, reg: map<OrderId, Order>, i: nat,
                 need: real, limit: Option<real>, side: Side)
    requires i <= |ps| && Covered(ps[i..], levels, reg)
    requires i < |ps| ==> levels[ps[i]].orders != []
    requires i == |ps| || need == 0.0 || Beyond(side, ps[i], limit)
    ensures |Plan(Makers(ps[i..], levels, reg), need, limit, side)| == 0
  {
    if i < |ps| && need != 0.0 {
      ScanLevel(ps, levels, reg, i);
      var q := Makers(ps[i..], levels, reg);
      assert q[0] == LevelMakers(levels[ps[i]].orders[0..], ps[i], reg)[0];
    }
  }

  /** A linked side without empty levels is what the scan walks: every
      listed price has a non-empty level of registered orders, and its queue
      is the concatenation of those levels. */
  lemma ScanReady(side: Side, bs: BookSide, reg: map<OrderId, Order>)
    requires Linked(side, bs, reg) && NoEmptyLevels(bs)
    ensures Covered(bs.prices, bs.levels, reg)
    ensures forall i :: 0 <= i < |bs.prices| ==> bs.levels[bs.prices[i]].orders != []
    ensures Queue(side, bs, reg) == Makers(bs.prices, bs.levels, reg)
  {
    forall i | 0 <= i < |bs.prices| ensures bs.prices[i] in bs.levels && bs.levels[bs.prices[i]].orders != [] {
      assert bs.prices[i] in bs.prices;
    }
  }

  /** The outer loop of `_check_can_fill_fok` over a snapshot of the
      opposite side: levels best first, until nothing is needed or a level
      lies beyond the limit. What comes out is `Plan` of that side's queue,
      and what is left over. */
  method ScanSide(side: Side, bs: BookSide, reg: map<OrderId, Order>, need: real, limit: Option<real>)
    returns (plan: seq<Fill>, remaining: real)
    requires Covered(bs.prices, bs.levels, reg) && need >= 0.0
    requires forall i :: 0 <= i < |bs.prices| ==> bs.levels[bs.prices[i]].orders != []
    ensures plan == Plan(Makers(bs.prices, bs.levels, reg), need, limit, side)
    ensures remaining == need - SumQty(plan) && remaining >= 0.0
  {
    ghost var full := Plan(Makers(bs.prices, bs.levels, reg), need, limit, side);
    assert bs.prices[0..] == bs.prices;
    plan := [];
    remaining := need;
    var i := 0;
    while i < |bs.prices| && remaining != 0.0 && !Beyond(side, bs.prices[i], limit)
      invariant 0 <= i <= |bs.prices| && remaining >= 0.0
      invariant Covered(bs.prices[i..], bs.levels, reg)
      invariant full == plan + Plan(Makers(bs.prices[i..], bs.levels, reg), remaining, limit, side)
      invariant remaining == need - SumQty(plan)
      decreases |bs.prices| - i
    {
      var p := bs.prices[i];
      ScanLevel(bs.prices, bs.levels, reg, i);
      ghost var rest := Makers(bs.prices[i + 1..], bs.levels, reg);
      var fills, left := ScanOrders(side, bs.levels[p].orders, p, reg, remaining, limit, rest);
      ScanPast(full, plan, fills, bs.prices, i, bs.levels, reg, remaining, left, limit, side);
      plan := plan + fills;
      remaining := left;
      i := i + 1;
    }
    ScanDone(bs.prices, bs.levels, reg, i, remaining, limit, side);
    assert full == plan + [];
  }

  /** The inner loop of `_check_can_fill_fok` over one level's orders,
      oldest first: each maker is planned for the smaller of what is still
      needed and its own remainder, until nothing is needed. Followed by
      any queue `rest`, the fills are where the plan starts. */
  method ScanOrders(side: Side, ids: seq<OrderId>, p: real, reg: map<OrderId, Order>, need: real, limit: Option<real>,
                    ghost rest: seq<Maker>)
    returns (fills: seq<Fill>, remaining: real)
    requires (forall x :: x in ids ==> x in reg) && need >= 0.0
    requires need > 0.0 ==> !Beyond(side, p, limit)
    ensures Plan(LevelMakers(ids[0..], p, reg) + rest, need, limit, side) == fills + Plan(rest, remaining, limit, side)
    ensures remaining == need - SumQty(fills) && remaining >= 0.0
  {
    ghost var full := Plan(LevelMakers(ids[0..], p, reg) + rest, need, limit, side);
    fills := [];
    remaining := need;
    var j := 0;
    while j < |ids| && remaining != 0.0
      invariant 0 <= j <= |ids| && remaining >= 0.0
      invariant full == fills + Plan(LevelMakers(ids[j..], p, reg) + rest, remaining, limit, side)
      invariant remaining == need - SumQty(fills)
      decreases |ids| - j
    {
      var f := Min(remaining, reg[ids[j]].remaining);
      ScanAdvance(full, fills, ids, j, p, rest, reg, remaining, limit, side);
      fills := fills + [Fill(ids[j], p, f)];
      remaining := remaining - f;
      j := j + 1;
    }
    ScanNext(ids, j, p, rest, reg, remaining, limit, side);
  }

  /** The scan leaves the level at `ps[i]` having planned `fills`, which
      the plan of that level followed by the later levels starts with: the
      plan built so far is then followed by the plan of the later levels. */
  lemma ScanPast(full: seq<Fill>, plan: seq<Fill>, fills: seq<Fill>, ps: seq<real>, i: nat,
                 levels: map<real, PriceLevel>, reg: map<OrderId, Order>, need: real, left: real,
                 limit: Option<real>, side: Side)
    requires i < |ps| && Covered(ps[i..], levels, reg)
    requires full == plan + Plan(Makers(ps[i..], levels, reg), need, limit, side)
    requires ps[i] in levels
    requires Plan(LevelMakers(levels[ps[i]].orders[0..], ps[i], reg) + Makers(ps[i + 1..], levels, reg), need, limit, side)
          == fills + Plan(Makers(ps[i + 1..], levels, reg), left, limit, side)
    ensures full == (plan + fills) + Plan(Makers(ps[i + 1..], levels, reg), left, limit, side)
    ensures SumQty(plan + fills) == SumQty(plan) + SumQty(fills)
  {
    ScanLevel(ps, levels, reg, i);
    SumQtyAppend(plan, fills);
  }
}

=== FILE: order.dfy ===
/** The order record and its quantity/status state machine
    (backend/core/order.py). Quantities and prices are exact decimals,
    modelled as `real`; the order id (a UUID) is a natural number. */
module Orders {
  import opened Wrappers
  import opened Errors
  import opened Text

  type OrderId = nat

  datatype OrderType = Market | Limit | IOC | FOK
  datatype Side = Buy | Sell
  datatype Status = Pending | Partial | Filled | Cancelled | Rejected

  /** One order. `filled` and `remaining` are the source's `filled_quantity`
      and `remaining_quantity`; the timestamp is not modelled. */
  datatype Order = Order(
    id: OrderId,
    symbol: string,
    orderType: OrderType,
    side: Side,
    quantity: real,
    price: Option<real>,
    status: Status,
    filled: real,
    remaining: real)

  /** LIMIT, IOC and FOK orders must carry a price; MARKET orders need not. */
  predicate NeedsPrice(t: OrderType)
  {
    t == Limit || t == IOC || t == FOK
  }

  /** The balance the state machine is meant to keep:
      filled + remaining = quantity, neither part negative. */
  ghost predicate Balanced(o: Order)
  {
    0.0 <= o.filled && 0.0 <= o.remaining && o.filled + o.remaining == o.quantity
  }

  /** `Order.validate`: the first failing check decides the error. */
  function Validate(o: Order): (r: Outcome<Error>)
    ensures r.Pass? <==>
      && o.quantity > 0.0
      && 0.0 <= o.filled <= o.quantity
      && (NeedsPrice(o.orderType) ==> o.price.Some? && o.price.value > 0.0)
      && !IsBlank(o.symbol)
    ensures o.quantity <= 0.0 ==> r == Fail(ValueError(NonPositiveQuantity))
    ensures r.Fail? ==> r.error.ValueError?
  {
    if o.quantity <= 0.0 then Fail(ValueError(NonPositiveQuantity))
    else if o.filled < 0.0 then Fail(ValueError(NegativeFilledQuantity))
    else if o.filled > o.quantity then Fail(ValueError(FilledExceedsQuantity))
    else if NeedsPrice(o.orderType) && o.price.None? then Fail(ValueError(PriceRequired))
    else if NeedsPrice(o.orderType) && o.price.value <= 0.0 then Fail(ValueError(NonPositivePrice))
    else if IsBlank(o.symbol) then Fail(ValueError(BlankSymbol))
    else Pass
  }

  /** The dataclass constructor as written: `remaining_quantity` is set to
      `quantity` whatever `filled_quantity` the caller passed, then
      `validate` runs. */
  function NewOrderAsWritten(
    id: OrderId, symbol: string, orderType: OrderType, side: Side,
    quantity: real, price: Option<real>, status: Status, filled: real): (r: Result<Order, Error>)
    ensures r.Ok? ==> r.value.remaining == quantity && r.value.filled == filled
  {
    var o := Order(id, symbol, orderType, side, quantity, price, status, filled, quantity);
    match Validate(o)
    case Pass => Ok(o)
    case Fail(e) => Err(e)
  }

  /** With a non-zero `filled_quantity` the as-written constructor builds an
      order whose parts exceed its quantity, and a fill of the whole
      `remaining_quantity` is then accepted and drives the remainder negative. */
  lemma AsWrittenConstructorOverfills()
    ensures var r := NewOrderAsWritten(1, "BTC-USDT", Limit, Buy, 10.0, Some(100.0), Pending, 4.0);
      && r.Ok?
      && !Balanced(r.value)
      && UpdateFill(r.value, 10.0).Ok?
      && UpdateFill(r.value, 10.0).value.filled == 14.0
      && UpdateFill(r.value, 10.0).value.remaining == -4.0
  {
    var o := Order(1, "BTC-USDT", Limit, Buy, 10.0, Some(100.0), Pending, 4.0, 10.0);
    assert !IsBlank("BTC-USDT") by { BlankIffAllSpace("BTC-USDT"); assert !IsSpace("BTC-USDT"[0]); }
    assert Validate(o).Pass?;
  }

  /** The constructor with `remaining_quantity = quantity - filled_quantity`,
      the relation `update_fill` maintains; this is the constructor the rest
      of the model uses. */
  function NewOrder(
    id: OrderId, symbol: string, orderType: OrderType, side: Side,
    quantity: real, price: Option<real>, status: Status, filled: real): (r: Result<Order, Error>)
    ensures r.Ok? <==> Validate(Order(id, symbol, orderType, side, quantity, price, status, filled, quantity - filled)).Pass?
    ensures r.Ok? ==> Balanced(r.value) && r.value.remaining == quantity - filled
    ensures r.Ok? ==> r.value.id == id && r.value.symbol == symbol && r.value.orderType == orderType
                      && r.value.side == side && r.value.quantity == quantity && r.value.price == price
                      && r.value.status == status
  {
    var o := Order(id, symbol, orderType, side, quantity, price, status, filled, quantity - filled);
    match Validate(o)
    case Pass => Ok(o)
    case Fail(e) => Err(e)
  }

  /** With the default `status` and `filled_quantity` both constructors build
      the same order: PENDING, nothing filled, everything remaining. */
  lemma DefaultConstruction(
    id: OrderId, symbol: string, orderType: OrderType, side: Side, quantity: real, price: Option<real>)
    ensures NewOrder(id, symbol, orderType, side, quantity, price, Pending, 0.0)
         == NewOrderAsWritten(id, symbol, orderType, side, quantity, price, Pending, 0.0)
    ensures var r := NewOrder(id, symbol, orderType, side, quantity, price, Pending, 0.0);
      r.Ok? ==> r.value.remaining == quantity && r.value.filled == 0.0 && r.value.status == Pending
  {
  }

  /** `is_marketable` against the current best bid and best ask. */
  function IsMarketable(o: Order, bestBid: Option<real>, bestAsk: Option<real>): (r: bool)
    ensures o.orderType == Market ==> r
    ensures o.orderType != Market && o.price.Some? && o.side == Buy ==>
              (r <==> bestAsk.Some? && o.price.value >= bestAsk.value)
    ensures o.orderType != Market && o.price.Some? && o.side == Sell ==>
              (r <==> bestBid.Some? && o.price.value <= bestBid.value)
    ensures o.orderType != Market && o.price.None? ==> !r
  {
    if o.orderType == Market then true
    else if o.price.None? then false
    else if o.side == Buy then bestAsk.Some? && o.price.value >= bestAsk.value
    else bestBid.Some? && o.price.value <= bestBid.value
  }

  /** `can_fill_quantity`: the quantity is positive and at most what remains. */
  function CanFillQuantity(o: Order, q: real): (r: bool)
    ensures r && Balanced(o) ==> 0.0 < q <= o.quantity
    ensures o.remaining <= 0.0 ==> !r
  {
    q > 0.0 && q <= o.remaining
  }

  /** `update_fill`: rejects a non-positive fill or one larger than the
      remainder; otherwise adds to `filled`, recomputes `remaining` from the
      quantity and moves the status to FILLED or PARTIAL. */
  function UpdateFill(o: Order, q: real): (r: Result<Order, Error>)
    ensures q <= 0.0 ==> r == Err(ValueError(NonPositiveFill))
    ensures q > o.remaining && q > 0.0 ==> r == Err(ValueError(FillExceedsRemaining))
    ensures r.Ok? ==> r.value.filled == o.filled + q && r.value.remaining == o.quantity - r.value.filled
    ensures r.Ok? ==> r.value == o.(filled := r.value.filled, remaining := r.value.remaining, status := r.value.status)
  {
    if q <= 0.0 then Err(ValueError(NonPositiveFill))
    else if q > o.remaining then Err(ValueError(FillExceedsRemaining))
    else
      var filled := o.filled + q;
      var remaining := o.quantity - filled;
      var status := if remaining == 0.0 then Filled else if filled > 0.0 then Partial else o.status;
      Ok(o.(filled := filled, remaining := remaining, status := status))
  }

  /** A fill is accepted exactly when `can_fill_quantity` holds for it. */
  lemma CanFillIffFillAccepted(o: Order, q: real)
    ensures CanFillQuantity(o, q) <==> UpdateFill(o, q).Ok?
  {
  }

  /** A fill keeps filled + remaining = quantity, takes the fill off the
      remainder, and leaves the order FILLED exactly when nothing remains and
      PARTIAL otherwise. */
  lemma FillKeepsBalance(o: Order, q: real)
    requires Balanced(o) && UpdateFill(o, q).Ok?
    ensures var o' := UpdateFill(o, q).value;
      && Balanced(o')
      && o'.remaining == o.remaining - q
      && (o'.status == Filled <==> o'.remaining == 0.0)
      && (o'.status == Partial <==> o'.remaining > 0.0)
      && (IsActive(o') <==> !IsFullyFilled(o'))
  {
  }

  /** `is_fully_filled`: nothing remains; on a balanced order, exactly
      when the whole quantity is filled. */
  function IsFullyFilled(o: Order): (r: bool)
    ensures Balanced(o) ==> (r <==> o.filled == o.quantity)
  {
    o.remaining == 0.0
  }

  predicate IsBuy(o: Order)
  {
    o.side == Buy
  }

  predicate IsSell(o: Order)
  {
    o.side == Sell
  }

  /** `is_active`: the order can still trade, which is exactly when it is
      not in one of the three terminal states. */
  function IsActive(o: Order): (r: bool)
    ensures r <==> o.status !in {Filled, Cancelled, Rejected}
  {
    o.status == Pending || o.status == Partial
  }
}

=== FILE: order_book.dfy ===
/** The order book of one symbol (backend/core/order_book.py): two sorted
    sides of price levels, an id registry that owns every order's state, and
    the BBO manager that is told the best prices after every change. */
module Books {
  import opened Wrappers
  import opened Errors
  import opened Seqs
  import opened Orders
  import opened PriceLevels
  import opened BookSides
  import opened Bbo

  function Opposite(s: Side): (r: Side)
    ensures r != s
  {
    if s == Buy then Sell else Buy
  }

  /** The bookkeeping that holds at every step: the side is well shaped,
      each level sits under its own price on its own side with a consistent
      queue, and every queued id is registered as an order of that side at
      that price. */
  ghost predicate Linked(side: Side, bs: BookSide, reg: map<OrderId, Order>)
  {
    && Shaped(side, bs)
    && (forall p :: p in bs.levels ==>
          bs.levels[p].price == p && bs.levels[p].side == side && PriceLevels.Valid(bs.levels[p]))
    && (forall p, id :: p in bs.levels && id in bs.levels[p].orders ==>
          id in reg && reg[id].side == side && reg[id].price == Some(p))
  }

  ghost predicate NoEmptyLevels(bs: BookSide)
  {
    forall p :: p in bs.levels ==> bs.levels[p].orders != []
  }

  /** Every queued order still has something left to trade. */
  ghost predicate RestingPositive(bs: BookSide, reg: map<OrderId, Order>)
  {
    forall p, id :: p in bs.levels && id in bs.levels[p].orders ==> id in reg && reg[id].remaining > 0.0
  }

  /** The queue at price `p`, empty when there is no level. */
  function QueueAt(bs: BookSide, p: real): seq<OrderId>
  {
    if p in bs.levels then bs.levels[p].orders else []
  }

  /** The levels after the order at `price` with id `id` leaves its level, on
      a side that had no empty level: the level loses the id and disappears
      if nothing is left in it. */
  ghost function LevelsWithout(levels: map<real, PriceLevel>, price: Option<real>, id: OrderId): map<real, PriceLevel>
  {
    if price.None? || price.value !in levels then levels
    else
      var l := PriceLevels.RemoveOrder(levels[price.value], id).0;
      if IsEmpty(l) then levels - {price.value} else levels[price.value := l]
  }

  ghost function NonEmptyPart(levels: map<real, PriceLevel>): map<real, PriceLevel>
  {
    map p | p in levels && levels[p].orders != [] :: levels[p]
  }

  /** The prices whose level is empty, in key order. */
  function EmptyPrices(ps: seq<real>, levels: map<real, PriceLevel>): (r: seq<real>)
    requires forall i :: 0 <= i < |ps| ==> ps[i] in levels
    ensures forall p :: p in r <==> p in ps && IsEmpty(levels[p])
    ensures NoDup(ps) ==> NoDup(r)
    ensures (forall i :: 0 <= i < |ps| ==> !IsEmpty(levels[ps[i]])) ==> r == []
  {
    if ps == [] then []
    else if IsEmpty(levels[ps[0]]) then [ps[0]] + EmptyPrices(ps[1..], levels)
    else EmptyPrices(ps[1..], levels)
  }

  /** Dropping exactly the empty levels leaves the non-empty part. */
  lemma DroppedEmpties(levels: map<real, PriceLevel>, kept: map<real, PriceLevel>, empties: seq<real>)
    requires forall p :: p in empties <==> p in levels && IsEmpty(levels[p])
    requires forall p :: p in kept <==> p in levels && p !in empties
    requires forall p :: p in kept ==> kept[p] == levels[p]
    ensures kept == NonEmptyPart(levels)
  {
    assert forall p :: p in kept <==> p in NonEmptyPart(levels);
    assert forall p :: p in kept ==> kept[p] == NonEmptyPart(levels)[p];
  }

  /** One half of `_cleanup_empty_levels`: collects the prices of the empty
      levels, then deletes them one by one. */
  method DropEmptyLevels(side: Side, bs: BookSide) returns (r: BookSide)
    requires Shaped(side, bs)
    ensures Shaped(side, r)
    ensures r.levels == NonEmptyPart(bs.levels)
    ensures NoEmptyLevels(bs) ==> r == bs
  {
    SortedNoDup(side, bs.prices);
    var empties := EmptyPrices(bs.prices, bs.levels);
    assert forall p :: p in empties <==> p in bs.levels && IsEmpty(bs.levels[p]);
    if empties == [] {
      DroppedEmpties(bs.levels, bs.levels, empties);
      return bs;
    }
    assert empties[0] in empties;
    r := bs;
    var i := 0;
    while i < |empties|
      invariant 0 <= i <= |empties|
      invariant Shaped(side, r)
      invariant forall p :: p in r.levels <==> p in bs.levels && p !in empties[..i]
      invariant forall p :: p in r.levels ==> r.levels[p] == bs.levels[p]
    {
      assert empties[i] in empties && empties[i] !in empties[..i];
      DeleteLevelShaped(side, r, empties[i]);
      r := DeleteLevel(r, empties[i]);
      assert empties[..i + 1] == empties[..i] + [empties[i]];
      i := i + 1;
    }
    assert empties[..i] == empties;
    DroppedEmpties(bs.levels, r.levels, empties);
  }

  /** Dropping the empty levels of a linked side leaves it linked and free
      of empty levels. */
  lemma DroppedLinked(side: Side, bs: BookSide, r: BookSide, reg: map<OrderId, Order>)
    requires Linked(side, bs, reg) && Shaped(side, r) && r.levels == NonEmptyPart(bs.levels)
    ensures Linked(side, r, reg) && NoEmptyLevels(r)
  {
  }

  /** How many rows a depth query with limit `n` shows on a side of `len`
      levels: the loop breaks at index `n`, so a limit of zero or less shows
      none. */
  function Shown(n: int, len: nat): (k: nat)
    ensures k <= len
    ensures n <= 0 ==> k == 0
    ensures n > 0 ==> k == if n < len then n else len
  {
    if n <= 0 then 0 else if n < len then n else len
  }

  /** `str(x) if x else None`: a missing or zero price is reported as absent. */
  function Reported(x: Option<real>): (r: Option<real>)
    ensures r.Some? <==> x.Some? && x.value != 0.0
    ensures r.Some? ==> r == x
  {
    if x.Some? && x.value != 0.0 then x else None
  }

  /** The `get_depth` dictionary, with prices and volumes as numbers. */
  datatype Depth = Depth(
    symbol: string,
    bids: seq<(real, real)>,
    asks: seq<(real, real)>,
    bestBid: Option<real>,
    bestAsk: Option<real>,
    spread: Option<real>)

  /** Every registry entry is stored under its own id. */
  ghost predicate Keyed(reg: map<OrderId, Order>)
  {
    forall id :: id in reg ==> reg[id].id == id
  }

  /** Every registered order keeps filled + remaining = quantity. */
  ghost predicate Ledger(reg: map<OrderId, Order>)
  {
    forall id :: id in reg ==> Balanced(reg[id])
  }

  /** The registry after a fill of `q` on the order `m`: only that entry
      changes, and only its quantities and status. */
  ghost predicate FilledEntry(reg: map<OrderId, Order>, reg': map<OrderId, Order>, m: OrderId, q: real)
  {
    && m in reg && UpdateFill(reg[m], q).Ok?
    && reg' == reg[m := UpdateFill(reg[m], q).value]
  }

  /** A fill changes only the quantities and status of one registry entry,
      never its side or price, so a linked side stays linked. */
  lemma FillKeepsLinked(side: Side, bs: BookSide, reg: map<OrderId, Order>, reg': map<OrderId, Order>, m: OrderId, q: real)
    requires Linked(side, bs, reg) && FilledEntry(reg, reg', m, q)
    ensures Linked(side, bs, reg')
  {
  }

  /** Writing a maker's fill back into the registry keeps both sides linked,
      the ids keyed and every entry balanced. */
  lemma FillKeepsFormed(bids: BookSide, asks: BookSide, reg: map<OrderId, Order>, m: OrderId, q: real)
    requires Keyed(reg) && Linked(Buy, bids, reg) && Linked(Sell, asks, reg) && Ledger(reg)
    requires m in reg && CanFillQuantity(reg[m], q)
    ensures UpdateFill(reg[m], q).Ok?
    ensures var reg' := reg[m := UpdateFill(reg[m], q).value];
      && Keyed(reg') && Linked(Buy, bids, reg') && Linked(Sell, asks, reg') && Ledger(reg')
      && FilledEntry(reg, reg', m, q)
  {
    CanFillIffFillAccepted(reg[m], q);
    FillKeepsBalance(reg[m], q);
    var reg' := reg[m := UpdateFill(reg[m], q).value];
    FillKeepsLinked(Buy, bids, reg, reg', m, q);
    FillKeepsLinked(Sell, asks, reg, reg', m, q);
  }

  /** After an id has left every level of a side (which kept only orders it
      held before), unregistering it keeps the side linked and its resting
      orders positive. */
  lemma Unregister(side: Side, bs0: BookSide, bs: BookSide, reg: map<OrderId, Order>, id: OrderId)
    requires Linked(side, bs, reg) && RestingPositive(bs0, reg)
    requires forall p, x :: p in bs.levels && x in bs.levels[p].orders ==>
      p in bs0.levels && x in bs0.levels[p].orders && x != id
    ensures Linked(side, bs, reg - {id}) && RestingPositive(bs, reg - {id})
  {
  }

  /** The level an order at price `p` joins: the existing one or a new one. */
  function LevelFor(bs: BookSide, side: Side, p: real): PriceLevel
  {
    if p in bs.levels then bs.levels[p] else NewLevel(p, side)
  }

  /** The level an order of this side and price joins accepts a fresh order. */
  lemma JoinsLevel(side: Side, bs: BookSide, reg: map<OrderId, Order>, o: Order)
    requires Linked(side, bs, reg)
    requires o.side == side && o.price.Some? && o.id !in reg
    ensures PriceLevels.AddOrder(LevelFor(bs, side, o.price.value), o).Ok?
  {
    var level := LevelFor(bs, side, o.price.value);
    assert PriceLevels.Valid(level);
    assert o.id !in level.orders;
  }

  /** Adding a fresh, priced order with something left keeps its side linked
      (to the registry that now holds it), free of empty levels, and its
      resting orders positive. */
  lemma Joins(side: Side, bs: BookSide, reg: map<OrderId, Order>, o: Order, l': PriceLevel, bs': BookSide)
    requires Linked(side, bs, reg) && NoEmptyLevels(bs) && RestingPositive(bs, reg)
    requires o.side == side && o.price.Some? && o.remaining > 0.0 && o.id !in reg
    requires PriceLevels.AddOrder(LevelFor(bs, side, o.price.value), o) == Ok(l')
    requires bs' == PutLevel(side, bs, o.price.value, l')
    ensures Linked(side, bs', reg[o.id := o]) && NoEmptyLevels(bs') && RestingPositive(bs', reg[o.id := o])
  {
    var p := o.price.value;
    var level := LevelFor(bs, side, p);
    assert PriceLevels.Valid(level);
    PutLevelShaped(side, bs, p, l');
    JoinedQueues(side, bs, reg, o, l', bs');
  }

  lemma JoinedQueues(side: Side, bs: BookSide, reg: map<OrderId, Order>, o: Order, l': PriceLevel, bs': BookSide)
    requires Linked(side, bs, reg) && RestingPositive(bs, reg)
    requires o.side == side && o.price.Some? && o.remaining > 0.0 && o.id !in reg
    requires l'.orders == QueueAt(bs, o.price.value) + [o.id]
    requires bs'.levels == bs.levels[o.price.value := l']
    ensures forall q, id :: q in bs'.levels && id in bs'.levels[q].orders ==>
      id in reg[o.id := o] && reg[o.id := o][id].side == side && reg[o.id := o][id].price == Some(q)
      && reg[o.id := o][id].remaining > 0.0
  {
    var p := o.price.value;
    var reg' := reg[o.id := o];
    forall q, id | q in bs'.levels && id in bs'.levels[q].orders
      ensures id in reg' && reg'[id].side == side && reg'[id].price == Some(q) && reg'[id].remaining > 0.0
    {
      if q == p {
        if id != o.id {
          assert id in QueueAt(bs, p);
          assert p in bs.levels && id in bs.levels[p].orders;
        }
      } else {
        assert id in bs.levels[q].orders;
      }
    }
  }

  /** Registering an order that queues nowhere on a side keeps that side linked. */
  lemma GrowLinked(side: Side, bs: BookSide, reg: map<OrderId, Order>, o: Order)
    requires Linked(side, bs, reg) && RestingPositive(bs, reg) && o.id !in reg
    ensures Linked(side, bs, reg[o.id := o]) && RestingPositive(bs, reg[o.id := o])
  {
  }

  /** Taking an order out of its level keeps the side linked, leaves every
      other queued order in place, and, once empty levels are dropped, gives
      `LevelsWithout`. */
  lemma TakenOut(side: Side, bs: BookSide, reg: map<OrderId, Order>, o: Order)
    requires Linked(side, bs, reg) && NoEmptyLevels(bs)
    requires o.side == side && o.price.Some? && o.price.value in bs.levels
    ensures var p := o.price.value;
      var bs' := bs.(levels := bs.levels[p := PriceLevels.RemoveOrder(bs.levels[p], o.id).0]);
      && Linked(side, bs', reg)
      && (!IsEmpty(bs'.levels[p]) ==> NoEmptyLevels(bs') && bs'.levels == LevelsWithout(bs.levels, o.price, o.id))
      && (IsEmpty(bs'.levels[p]) ==> NonEmptyPart(bs'.levels) == LevelsWithout(bs.levels, o.price, o.id))
      && (forall q, x :: q in bs'.levels && x in bs'.levels[q].orders <==>
            q in bs.levels && x in bs.levels[q].orders && (x != o.id || q != p))
  {
    var p := o.price.value;
    var l := bs.levels[p];
    assert PriceLevels.Valid(l);
    var l' := PriceLevels.RemoveOrder(l, o.id).0;
    var bs' := bs.(levels := bs.levels[p := l']);
    assert forall x :: x in l'.orders <==> x in l.orders && x != o.id;
    if IsEmpty(l') {
      assert forall q :: q in NonEmptyPart(bs'.levels) <==> q in bs.levels - {p};
      assert NonEmptyPart(bs'.levels) == bs.levels - {p};
    }
  }

  /** Every queued id is registered. */
  ghost predicate Registered(bs: BookSide, reg: map<OrderId, Order>)
  {
    forall p, id :: p in bs.levels && id in bs.levels[p].orders ==> id in reg
  }

  /** `level.total_volume` of the level at `p`, or 0 when there is none. */
  function VolumeAt(bs: BookSide, reg: map<OrderId, Order>, p: real): (v: real)
    requires Registered(bs, reg)
    ensures p !in bs.levels ==> v == 0.0
  {
    if p in bs.levels then
      assert forall id :: id in bs.levels[p].orders ==> id in reg;
      TotalVolume(bs.levels[p], reg)
    else 0.0
  }

  /** On a side whose levels are non-empty and whose orders all have
      something left, the volume at a price is positive exactly when there
      is a level. */
  lemma VolumeAtPositive(bs: BookSide, reg: map<OrderId, Order>, p: real)
    requires Registered(bs, reg) && NoEmptyLevels(bs) && RestingPositive(bs, reg)
    ensures VolumeAt(bs, reg, p) >= 0.0 && (VolumeAt(bs, reg, p) > 0.0 <==> p in bs.levels)
  {
    if p in bs.levels {
      VolumePositiveIffNonEmpty(bs.levels[p], reg);
    }
  }

  /** The first `n` levels of a side, best first, as (price, volume) rows. */
  ghost function Rows(bs: BookSide, reg: map<OrderId, Order>, n: int): (rows: seq<(real, real)>)
    requires Registered(bs, reg)
    ensures |rows| == Shown(n, |bs.prices|)
    decreases Shown(n, |bs.prices|)
  {
    var k := Shown(n, |bs.prices|);
    if k == 0 then []
    else Rows(bs, reg, k - 1) + [(bs.prices[k - 1], VolumeAt(bs, reg, bs.prices[k - 1]))]
  }

  lemma RowsNone(bs: BookSide, reg: map<OrderId, Order>)
    requires Registered(bs, reg)
    ensures Rows(bs, reg, 0) == []
  {
  }

  /** One more row is the next price of the side with its volume. */
  lemma RowsNext(bs: BookSide, reg: map<OrderId, Order>, i: nat)
    requires Registered(bs, reg) && i < |bs.prices|
    ensures Rows(bs, reg, i + 1) == Rows(bs, reg, i) + [(bs.prices[i], VolumeAt(bs, reg, bs.prices[i]))]
  {
  }

  /** A limit past the number of levels shows every level. */
  lemma RowsShown(bs: BookSide, reg: map<OrderId, Order>, n: int)
    requires Registered(bs, reg)
    ensures Rows(bs, reg, n) == Rows(bs, reg, Shown(n, |bs.prices|))
  {
  }

  /** Row `i` is the `i`-th best price of the side with its volume. */
  lemma {:induction false} RowsAt(bs: BookSide, reg: map<OrderId, Order>, n: int)
    requires Registered(bs, reg)
    ensures var rows := Rows(bs, reg, n);
      forall i :: 0 <= i < |rows| ==> rows[i] == (bs.prices[i], VolumeAt(bs, reg, bs.prices[i]))
  {
    forall i | 0 <= i < Shown(n, |bs.prices|)
      ensures Rows(bs, reg, n)[i] == (bs.prices[i], VolumeAt(bs, reg, bs.prices[i]))
    {
      RowAt(bs, reg, n, i);
    }
  }

  lemma {:induction false} RowAt(bs: BookSide, reg: map<OrderId, Order>, n: int, i: nat)
    requires Registered(bs, reg) && i < Shown(n, |bs.prices|)
    ensures Rows(bs, reg, n)[i] == (bs.prices[i], VolumeAt(bs, reg, bs.prices[i]))
    decreases Shown(n, |bs.prices|)
  {
    var k := Shown(n, |bs.prices|);
    if i < k - 1 {
      RowAt(bs, reg, k - 1, i);
    }
  }

  /** The loop of `get_price_levels` over one side: a row per price, best
      first, until `levels` rows or the prices run out. */
  method CollectRows(bs: BookSide, reg: map<OrderId, Order>, levels: int) returns (rows: seq<(real, real)>)
    requires Registered(bs, reg)
    ensures rows == Rows(bs, reg, levels)
  {
    RowsNone(bs, reg);
    rows := [];
    var i := 0;
    while i < |bs.prices| && i < levels
      invariant 0 <= i <= |bs.prices|
      invariant i == 0 || i <= levels
      invariant rows == Rows(bs, reg, i)
    {
      RowsNext(bs, reg, i);
      rows := rows + [(bs.prices[i], VolumeAt(bs, reg, bs.prices[i]))];
      i := i + 1;
    }
    RowsShown(bs, reg, levels);
  }

  /** The rows of a depth query are levels of the side, strictly best first,
      and on a side of non-empty levels whose orders all have something left
      each shows a positive volume. */
  lemma RowsBestFirst(side: Side, bs: BookSide, reg: map<OrderId, Order>, n: int)
    requires Shaped(side, bs) && Registered(bs, reg)
    ensures var rows := Rows(bs, reg, n);
      && (forall i :: 0 <= i < |rows| ==> rows[i].0 in bs.levels)
      && (forall i, j :: 0 <= i < j < |rows| ==> Better(side, rows[i].0, rows[j].0))
      && (NoEmptyLevels(bs) && RestingPositive(bs, reg) ==> forall i :: 0 <= i < |rows| ==> rows[i].1 > 0.0)
  {
    var rows := Rows(bs, reg, n);
    RowsAt(bs, reg, n);
    forall i | 0 <= i < |rows| ensures rows[i].0 in bs.levels {
      assert rows[i].0 == bs.prices[i];
    }
    if NoEmptyLevels(bs) && RestingPositive(bs, reg) {
      forall i | 0 <= i < |rows| ensures rows[i].1 > 0.0 {
        VolumeAtPositive(bs, reg, rows[i].0);
      }
    }
  }

  /** On a linked side, the queue entries of a registered order are those at
      its own price on its own side, so taking it out of exactly there takes
      it out of the whole side. */
  lemma OnlyThatId(side: Side, bs: BookSide, bs': BookSide, reg: map<OrderId, Order>, id: OrderId)
    requires Linked(side, bs, reg) && id in reg
    requires forall p, x :: p in bs'.levels && x in bs'.levels[p].orders <==>
      p in bs.levels && x in bs.levels[p].orders && (x != id || reg[id].price != Some(p) || reg[id].side != side)
    ensures forall p, x :: p in bs'.levels && x in bs'.levels[p].orders <==>
      p in bs.levels && x in bs.levels[p].orders && x != id
  {
  }

  /** Two sides that do not cross: the best bid is below the best ask, or a
      side is empty. */
  predicate Uncrossed(bids: BookSide, asks: BookSide)
  {
    Best(bids).None? || Best(asks).None? || Best(bids).value < Best(asks).value
  }

  /** Trading only takes price levels away, so neither best price gets
      better: sides that did not cross still do not. */
  lemma FewerLevelsUncrossed(bids: BookSide, asks: BookSide, bids': BookSide, asks': BookSide)
    requires Shaped(Buy, bids) && Shaped(Buy, bids') && Shaped(Sell, asks) && Shaped(Sell, asks')
    requires forall p :: p in bids'.levels ==> p in bids.levels
    requires forall p :: p in asks'.levels ==> p in asks.levels
    requires Uncrossed(bids, asks)
    ensures Uncrossed(bids', asks')
  {
    BestIsBest(Buy, bids);
    BestIsBest(Buy, bids');
    BestIsBest(Sell, asks);
    BestIsBest(Sell, asks');
  }

  /** Resting a new order at `p` on `side` keeps the sides uncrossed when
      the opposite best is beyond `p` (an ask above a bid's price, a bid
      below an ask's price): the new best of that side is `p` or the old one. */
  lemma RestingUncrossed(side: Side, bids: BookSide, asks: BookSide, bids': BookSide, asks': BookSide, p: real)
    requires Uncrossed(bids, asks)
    requires side == Buy ==>
      && asks' == asks && (asks.prices == [] || asks.prices[0] > p)
      && Best(bids') == if bids.prices == [] || Better(Buy, p, bids.prices[0]) then Some(p) else Best(bids)
    requires side == Sell ==>
      && bids' == bids && (bids.prices == [] || bids.prices[0] < p)
      && Best(asks') == if asks.prices == [] || Better(Sell, p, asks.prices[0]) then Some(p) else Best(asks)
    ensures Uncrossed(bids', asks')
  {
  }

  class OrderBook {
    const symbol: string
    var bids: BookSide
    var asks: BookSide
    var registry: map<OrderId, Order>
    const bbo: BBOManager

    /** `self.bids if side == BUY else self.asks`. */
    function SideBook(side: Side): BookSide
      reads this`bids, this`asks
    {
      if side == Buy then bids else asks
    }

    /** Both sides linked to the registry and free of empty levels. */
    ghost predicate WellFormed()
      reads this
    {
      && Keyed(registry)
      && Linked(Buy, bids, registry) && Linked(Sell, asks, registry)
      && NoEmptyLevels(bids) && NoEmptyLevels(asks)
    }

    ghost predicate Consistent()
      reads this
    {
      WellFormed() && RestingPositive(bids, registry) && RestingPositive(asks, registry)
    }

    /** The BBO manager holds the book's current best prices. */
    ghost predicate InSync()
      reads this, bbo
    {
      bbo.Valid() && bbo.current.bestBid == Best(bids) && bbo.current.bestAsk == Best(asks)
    }

    ghost predicate Valid()
      reads this, bbo
    {
      Consistent() && InSync()
    }

    /** The book is not crossed: the best bid is below the best ask, or a
        side is empty. */
    predicate NotCrossed()
      reads this
    {
      Uncrossed(bids, asks)
    }

    lemma SideFacts(side: Side)
      requires WellFormed()
      ensures Linked(side, SideBook(side), registry) && NoEmptyLevels(SideBook(side))
    {
    }

    constructor (symbol: string)
      ensures Valid() && NotCrossed()
      ensures this.symbol == symbol && bids == EmptySide && asks == EmptySide && registry == map[]
      ensures fresh(bbo) && bbo.symbol == symbol && bbo.updateCount == 0 && bbo.observers == []
    {
      this.symbol := symbol;
      bids := EmptySide;
      asks := EmptySide;
      registry := map[];
      bbo := new BBOManager(symbol);
      EmptyShaped(Buy);
      EmptyShaped(Sell);
    }

    /** `get_best_bid`: the first bid key, which is the highest bid price. */
    function GetBestBid(): (r: Option<real>)
      reads this
      requires WellFormed()
      ensures r.None? <==> bids.levels == map[]
      ensures r.Some? ==> r.value in bids.levels && forall p :: p in bids.levels ==> p <= r.value
    {
      BestIsBest(Buy, bids);
      Best(bids)
    }

    /** `get_best_ask`: the first ask key, which is the lowest ask price. */
    function GetBestAsk(): (r: Option<real>)
      reads this
      requires WellFormed()
      ensures r.None? <==> asks.levels == map[]
      ensures r.Some? ==> r.value in asks.levels && forall p :: p in asks.levels ==> p >= r.value
    {
      BestIsBest(Sell, asks);
      Best(asks)
    }

    /** The `spread` property: best ask minus best bid, when both exist. */
    function Spread(): (r: Option<real>)
      reads this
      requires WellFormed()
      ensures r.Some? <==> bids.levels != map[] && asks.levels != map[]
      ensures r.Some? ==> GetBestBid().value + r.value == GetBestAsk().value
      ensures r.Some? && NotCrossed() ==> r.value > 0.0
    {
      var bid := GetBestBid();
      var ask := GetBestAsk();
      if bid.None? || ask.None? then None else Some(ask.value - bid.value)
    }

    /** The `mid_price` property: halfway between best bid and best ask. */
    function MidPrice(): (r: Option<real>)
      reads this
      requires WellFormed()
      ensures r.Some? <==> bids.levels != map[] && asks.levels != map[]
      ensures r.Some? ==> r.value - GetBestBid().value == GetBestAsk().value - r.value
      ensures r.Some? && NotCrossed() ==> GetBestBid().value < r.value < GetBestAsk().value
    {
      var bid := GetBestBid();
      var ask := GetBestAsk();
      if bid.None? || ask.None? then None else Some((bid.value + ask.value) / 2.0)
    }

    /** `get_total_volume_at_price`: the level's volume, or 0 without a level;
        on a consistent book it is positive exactly when the level exists. */
    function GetTotalVolumeAtPrice(price: real, side: Side): (v: real)
      reads this
      requires WellFormed()
      ensures price !in SideBook(side).levels ==> v == 0.0
      ensures price in SideBook(side).levels ==> v == TotalVolume(SideBook(side).levels[price], registry)
      ensures Consistent() ==> v >= 0.0 && (v > 0.0 <==> price in SideBook(side).levels)
    {
      assert Registered(SideBook(side), registry);
      assert Consistent() ==>
        VolumeAt(SideBook(side), registry, price) >= 0.0 &&
        (VolumeAt(SideBook(side), registry, price) > 0.0 <==> price in SideBook(side).levels) by {
        if Consistent() { VolumeAtPositive(SideBook(side), registry, price); }
      }
      VolumeAt(SideBook(side), registry, price)
    }

    /** `get_price_levels`: walks the side best first and stops once `levels`
        rows are collected. */
    method GetPriceLevels(side: Side, levels: int) returns (rows: seq<(real, real)>)
      requires WellFormed()
      ensures rows == Rows(SideBook(side), registry, levels)
    {
      SideFacts(side);
      rows := CollectRows(SideBook(side), registry, levels);
    }

    /** `get_depth`: the symbol, up to `levels` rows per side, and the best
        prices and spread, each reported only when present and non-zero. */
    method GetDepth(levels: int) returns (d: Depth)
      requires WellFormed()
      ensures d.symbol == symbol
      ensures d.bids == Rows(bids, registry, levels) && d.asks == Rows(asks, registry, levels)
      ensures d.bestBid == Reported(GetBestBid()) && d.bestAsk == Reported(GetBestAsk())
      ensures d.spread == Reported(Spread())
    {
      var bidRows := GetPriceLevels(Buy, levels);
      var askRows := GetPriceLevels(Sell, levels);
      d := Depth(symbol, bidRows, askRows, Reported(GetBestBid()), Reported(GetBestAsk()), Reported(Spread()));
    }

    /** `_update_bbo`: hands the current best prices to the BBO manager. */
    method UpdateBbo()
      requires WellFormed() && bbo.Valid()
      modifies bbo
      ensures InSync()
      ensures bbo.previous == old(bbo.current) && bbo.updateCount == old(bbo.updateCount) + 1
      ensures bbo.observers == old(bbo.observers)
    {
      var changed := bbo.UpdateBBO(GetBestBid(), GetBestAsk());
    }

    /** `add_order`: refuses a registered id, an order with nothing left, or
        one without a price, leaving the book as it was; otherwise appends the
        order at the tail of its price level, creating the level if needed,
        registers it and refreshes the BBO. */
    method AddOrder(o: Order) returns (r: Outcome<Error>)
      requires Valid()
      modifies this`bids, this`asks, this`registry, bbo
      ensures Valid()
      ensures r.Pass? <==> o.id !in old(registry) && o.remaining > 0.0 && o.price.Some?
      ensures o.id in old(registry) ==> r == Fail(DuplicateOrder)
      ensures o.id !in old(registry) && o.remaining <= 0.0 ==> r == Fail(OrderBookError(NoRemainingQuantity))
      ensures o.id !in old(registry) && o.remaining > 0.0 && o.price.None? ==> r == Fail(OrderBookError(NoPrice))
      ensures r.Fail? ==> unchanged(this) && unchanged(bbo)
      ensures r.Pass? ==> registry == old(registry)[o.id := o]
      ensures r.Pass? ==> SideBook(Opposite(o.side)) == old(SideBook(Opposite(o.side)))
      ensures r.Pass? ==> SideBook(o.side).levels.Keys == old(SideBook(o.side)).levels.Keys + {o.price.value}
      ensures r.Pass? ==>
        SideBook(o.side).levels[o.price.value].orders == QueueAt(old(SideBook(o.side)), o.price.value) + [o.id]
      ensures r.Pass? ==> forall p :: p in old(SideBook(o.side)).levels && p != o.price.value ==>
        SideBook(o.side).levels[p] == old(SideBook(o.side)).levels[p]
      ensures r.Pass? ==> (Best(SideBook(o.side)) ==
        if old(SideBook(o.side)).prices == [] || Better(o.side, o.price.value, old(SideBook(o.side)).prices[0])
        then o.price else old(Best(SideBook(o.side))))
      ensures r.Pass? ==> bbo.previous == old(bbo.current) && bbo.updateCount == old(bbo.updateCount) + 1
    {
      if o.id in registry {
        return Fail(DuplicateOrder);
      }
      if o.remaining <= 0.0 {
        return Fail(OrderBookError(NoRemainingQuantity));
      }
      if o.price.None? {
        return Fail(OrderBookError(NoPrice));
      }
      Insert(o);
      r := Pass;
    }

    /** The accepting branch of `add_order`: the order joins the tail of the
        level at its price on its side, the level being created when there
        was none, and is registered; the BBO manager is told the new best
        prices. */
    method Insert(o: Order)
      requires Valid()
      requires o.id !in registry && o.remaining > 0.0 && o.price.Some?
      modifies this`bids, this`asks, this`registry, bbo
      ensures Valid()
      ensures registry == old(registry)[o.id := o]
      ensures SideBook(Opposite(o.side)) == old(SideBook(Opposite(o.side)))
      ensures SideBook(o.side).levels.Keys == old(SideBook(o.side)).levels.Keys + {o.price.value}
      ensures SideBook(o.side).levels[o.price.value].orders == QueueAt(old(SideBook(o.side)), o.price.value) + [o.id]
      ensures forall p :: p in old(SideBook(o.side)).levels && p != o.price.value ==>
        SideBook(o.side).levels[p] == old(SideBook(o.side)).levels[p]
      ensures Best(SideBook(o.side)) ==
        if old(SideBook(o.side)).prices == [] || Better(o.side, o.price.value, old(SideBook(o.side)).prices[0])
        then o.price else old(Best(SideBook(o.side)))
      ensures bbo.previous == old(bbo.current) && bbo.updateCount == old(bbo.updateCount) + 1
    {
      var p := o.price.value;
      var bs := SideBook(o.side);
      var other := SideBook(Opposite(o.side));
      JoinsLevel(o.side, bs, registry, o);
      var added := PriceLevels.AddOrder(LevelFor(bs, o.side, p), o).value;
      var bs' := PutLevel(o.side, bs, p, added);
      Joins(o.side, bs, registry, o, added, bs');
      GrowLinked(Opposite(o.side), other, registry, o);
      BestAfterPut(o.side, bs, p, added);
      bs := bs';
      if o.side == Buy {
        bids := bs;
      } else {
        asks := bs;
      }
      registry := registry[o.id := o];
      UpdateBbo();
    }

    /** `_cleanup_empty_levels`: deletes every empty level on both sides. */
    method CleanupEmptyLevels()
      requires Keyed(registry) && Linked(Buy, bids, registry) && Linked(Sell, asks, registry)
      modifies this`bids, this`asks
      ensures WellFormed()
      ensures bids.levels == NonEmptyPart(old(bids.levels)) && asks.levels == NonEmptyPart(old(asks.levels))
      ensures NoEmptyLevels(old(bids)) ==> bids == old(bids)
      ensures NoEmptyLevels(old(asks)) ==> asks == old(asks)
    {
      var b := DropEmptyLevels(Buy, bids);
      var a := DropEmptyLevels(Sell, asks);
      DroppedLinked(Buy, bids, b, registry);
      DroppedLinked(Sell, asks, a, registry);
      bids, asks := b, a;
    }

    /** `_remove_from_price_level`: takes the order out of the level for its
        side and price, if there is one, and cleans up if the level emptied. */
    method RemoveFromPriceLevel(o: Order)
      requires WellFormed()
      modifies this`bids, this`asks
      ensures WellFormed()
      ensures SideBook(Opposite(o.side)) == old(SideBook(Opposite(o.side)))
      ensures SideBook(o.side).levels == LevelsWithout(old(SideBook(o.side)).levels, o.price, o.id)
      ensures forall p, x :: p in bids.levels && x in bids.levels[p].orders <==>
        p in old(bids).levels && x in old(bids).levels[p].orders && (x != o.id || o.price != Some(p) || o.side != Buy)
      ensures forall p, x :: p in asks.levels && x in asks.levels[p].orders <==>
        p in old(asks).levels && x in old(asks).levels[p].orders && (x != o.id || o.price != Some(p) || o.side != Sell)
    {
      var bs := SideBook(o.side);
      if o.price.None? || o.price.value !in bs.levels {
        return;
      }
      var p := o.price.value;
      TakenOut(o.side, bs, registry, o);
      var level := PriceLevels.RemoveOrder(bs.levels[p], o.id).0;
      bs := bs.(levels := bs.levels[p := level]);
      if o.side == Buy {
        bids := bs;
      } else {
        asks := bs;
      }
      if IsEmpty(level) {
        CleanupEmptyLevels();
      }
    }

    /** `remove_order`: an unregistered id gives None and changes nothing;
        otherwise the order leaves its level and the registry, and the BBO
        is refreshed. */
    method RemoveOrder(id: OrderId) returns (r: Option<Order>)
      requires Valid()
      modifies this`bids, this`asks, this`registry, bbo
      ensures Valid()
      ensures id !in old(registry) ==> r.None? && unchanged(this) && unchanged(bbo)
      ensures id in old(registry) ==> r == Some(old(registry)[id]) && registry == old(registry) - {id}
      ensures id in old(registry) ==>
        var o := old(registry)[id];
        && SideBook(o.side).levels == LevelsWithout(old(SideBook(o.side)).levels, o.price, id)
        && SideBook(Opposite(o.side)) == old(SideBook(Opposite(o.side)))
      ensures forall p, x :: p in bids.levels && x in bids.levels[p].orders <==>
        p in old(bids).levels && x in old(bids).levels[p].orders && x != id
      ensures forall p, x :: p in asks.levels && x in asks.levels[p].orders <==>
        p in old(asks).levels && x in old(asks).levels[p].orders && x != id
      ensures id in old(registry) ==> bbo.previous == old(bbo.current) && bbo.updateCount == old(bbo.updateCount) + 1
    {
      if id !in registry {
        return None;
      }
      ghost var bids0, asks0 := bids, asks;
      r := RemoveFromBookOnly(id);
      Unregister(Buy, bids0, bids, registry, id);
      Unregister(Sell, asks0, asks, registry, id);
      registry := registry - {id};
    }

    /** `remove_from_book_only`: like `remove_order`, but the order stays
        registered so that it can still be looked up. */
    method RemoveFromBookOnly(id: OrderId) returns (r: Option<Order>)
      requires WellFormed() && InSync()
      modifies this`bids, this`asks, bbo
      ensures WellFormed() && InSync()
      ensures id !in registry ==> r.None? && bids == old(bids) && asks == old(asks) && unchanged(bbo)
      ensures id in registry ==> r == Some(registry[id])
      ensures id in registry ==>
        var o := registry[id];
        && SideBook(o.side).levels == LevelsWithout(old(SideBook(o.side)).levels, o.price, id)
        && SideBook(Opposite(o.side)) == old(SideBook(Opposite(o.side)))
      ensures forall p, x :: p in bids.levels && x in bids.levels[p].orders <==>
        p in old(bids).levels && x in old(bids).levels[p].orders && x != id
      ensures forall p, x :: p in asks.levels && x in asks.levels[p].orders <==>
        p in old(asks).levels && x in old(asks).levels[p].orders && x != id
      ensures id in registry ==> bbo.previous == old(bbo.current) && bbo.updateCount == old(bbo.updateCount) + 1
    {
      if id !in registry {
        return None;
      }
      var o := registry[id];
      ghost var bids0, asks0 := bids, asks;
      RemoveFromPriceLevel(o);
      OnlyThatId(Buy, bids0, bids, registry, id);
      OnlyThatId(Sell, asks0, asks, registry, id);
      UpdateBbo();
      r := Some(o);
    }

    /** The maker's half of `_execute_match`: `update_fill` on the registered
        order (the registry and the level share that object), then
        `remove_from_book_only` once nothing is left of it. */
    method FillResting(id: OrderId, q: real) returns (maker: Order)
      requires WellFormed() && InSync() && Ledger(registry)
      requires id in registry && CanFillQuantity(registry[id], q)
      modifies this`bids, this`asks, this`registry, bbo
      ensures WellFormed() && InSync() && Ledger(registry)
      ensures FilledEntry(old(registry), registry, id, q) && maker == registry[id]
      ensures maker.remaining == 0.0 ==>
        && SideBook(maker.side).levels == LevelsWithout(old(SideBook(maker.side)).levels, maker.price, id)
        && SideBook(Opposite(maker.side)) == old(SideBook(Opposite(maker.side)))
      ensures maker.remaining != 0.0 ==> bids == old(bids) && asks == old(asks)
    {
      FillKeepsFormed(bids, asks, registry, id, q);
      maker := UpdateFill(registry[id], q).value;
      registry := registry[id := maker];
      if maker.remaining == 0.0 {
        var _ := RemoveFromBookOnly(id);
      }
    }
  }
}

=== FILE: order_service.dfy ===
/** The request checks of backend/services/order_service.py, the layer
    between the API and the matching engine. Request parameters arrive as a
    dictionary; the model keeps a field's presence and, for the order type
    and the side, its text. */
module OrderRequests {
  import opened Wrappers
  import opened Errors
  import opened Text
  import opened Orders
  import opened Validators

  /** `_validate_order_params`: the symbol needs at least three characters
      and a dash, the quantity must be positive and at most 1,000,000, and
      every order type but MARKET needs a positive price of at most
      10,000,000. A MARKET order's price is not looked at (the source only
      logs a warning). The side is not examined. */
  function ValidateOrderParams(symbol: string, orderType: OrderType, quantity: real, price: Option<real>): (r: Outcome<Error>)
    ensures r.Pass? <==>
      && |symbol| >= 3 && '-' in symbol
      && 0.0 < quantity <= MaxQuantity
      && (orderType != Market ==> price.Some? && 0.0 < price.value <= MaxPrice)
    ensures r.Fail? ==> r.error.Validation?
    ensures !(|symbol| >= 3 && '-' in symbol) ==> r == Fail(Validation(BadSymbolFormat))
    ensures orderType != Market && price.None? && |symbol| >= 3 && '-' in symbol && 0.0 < quantity <= MaxQuantity
      ==> r == Fail(Validation(PriceRequired))
  {
    if symbol == [] || |symbol| < 3 || '-' !in symbol then Fail(Validation(BadSymbolFormat))
    else if quantity <= 0.0 then Fail(Validation(NonPositiveQuantity))
    else if quantity > MaxQuantity then Fail(Validation(AboveMaximum))
    else if orderType != Market && price.None? then Fail(Validation(PriceRequired))
    else if orderType != Market && price.value <= 0.0 then Fail(Validation(NonPositivePrice))
    else if orderType != Market && price.value > MaxPrice then Fail(Validation(AboveMaximum))
    else Pass
  }

  /** A MARKET order is checked the same with or without a price. */
  lemma MarketPriceIgnored(symbol: string, quantity: real, price: Option<real>)
    ensures ValidateOrderParams(symbol, Market, quantity, price) == ValidateOrderParams(symbol, Market, quantity, None)
  {
  }

  /** The service's bounds are the validators' maxima without their minima:
      what it accepts above the minima, the validators accept too. */
  lemma ParamsWithinValidators(symbol: string, orderType: OrderType, quantity: real, price: Option<real>)
    requires ValidateOrderParams(symbol, orderType, quantity, price).Pass?
    ensures quantity >= MinQuantity ==> ValidateQuantity(quantity, MinQuantity, MaxQuantity).Pass?
    ensures orderType != Market && price.value >= MinPrice ==>
      ValidatePrice(price, true, MinPrice, MaxPrice).Pass?
  {
  }

  /** The request fields the checks look at; any other key of the
      dictionary is ignored. */
  datatype Field = SymbolField | OrderTypeField | SideField | QuantityField | PriceField

  /** The dictionary key of each field. */
  function FieldName(f: Field): string
  {
    match f
    case SymbolField => "symbol"
    case OrderTypeField => "order_type"
    case SideField => "side"
    case QuantityField => "quantity"
    case PriceField => "price"
  }

  /** The fields `validate_order_request` insists on, in the order it
      looks at them. */
  const RequiredFields: seq<Field> := [SymbolField, OrderTypeField, SideField, QuantityField]

  /** A field is given when the dictionary has it and it is not `None`. */
  predicate Given(params: map<Field, Option<string>>, field: Field)
  {
    field in params && params[field].Some?
  }

  /** The index of the first of `fields[i..]` that is not given, if any. */
  function FirstMissing(params: map<Field, Option<string>>, fields: seq<Field>, i: nat): (r: Option<nat>)
    requires i <= |fields|
    ensures r.None? <==> forall k :: i <= k < |fields| ==> Given(params, fields[k])
    ensures r.Some? ==>
      && i <= r.value < |fields| && !Given(params, fields[r.value])
      && forall k :: i <= k < r.value ==> Given(params, fields[k])
    decreases |fields| - i
  {
    if i == |fields| then None
    else if !Given(params, fields[i]) then Some(i)
    else FirstMissing(params, fields, i + 1)
  }

  /** `validate_order_request`: the first required field that is missing or
      `None` is reported; then the order type and the side, upper-cased,
      must be known; every type but MARKET needs a price. */
  function ValidateOrderRequest(params: map<Field, Option<string>>): (r: Outcome<Error>)
    ensures r.Pass? <==>
      && Given(params, SymbolField) && Given(params, OrderTypeField) && Given(params, SideField) && Given(params, QuantityField)
      && Upper(params[OrderTypeField].value) in OrderTypeNames
      && Upper(params[SideField].value) in SideNames
      && (Upper(params[OrderTypeField].value) != "MARKET" ==> Given(params, PriceField))
    ensures forall k ::
      (0 <= k < |RequiredFields| && !Given(params, RequiredFields[k]) &&
       forall j :: 0 <= j < k ==> Given(params, RequiredFields[j]))
      ==> r == Fail(Validation(MissingField(FieldName(RequiredFields[k]))))
    ensures r.Fail? ==> r.error.Validation?
  {
    var missing := FirstMissing(params, RequiredFields, 0);
    if missing.Some? then Fail(Validation(MissingField(FieldName(RequiredFields[missing.value]))))
    else
      assert Given(params, RequiredFields[1]) && Given(params, RequiredFields[2]);
      var orderType := Upper(params[OrderTypeField].value);
      if orderType !in OrderTypeNames then Fail(Validation(UnknownOrderType))
      else if Upper(params[SideField].value) !in SideNames then Fail(Validation(UnknownSide))
      else if orderType != "MARKET" && !Given(params, PriceField) then Fail(Validation(PriceRequired))
      else Pass
  }

  /** Two dictionaries that give the same fields find the same first
      missing one. */
  lemma FirstMissingSame(p: map<Field, Option<string>>, q: map<Field, Option<string>>, fields: seq<Field>, i: nat)
    requires i <= |fields|
    requires forall f :: Given(p, f) == Given(q, f)
    ensures FirstMissing(p, fields, i) == FirstMissing(q, fields, i)
    decreases |fields| - i
  {
    if i < |fields| {
      FirstMissingSame(p, q, fields, i + 1);
    }
  }

  /** The request check sees only which fields are given and the order type
      and the side upper-cased. */
  lemma RequestSeesUpperCase(p: map<Field, Option<string>>, q: map<Field, Option<string>>)
    requires forall f :: Given(p, f) == Given(q, f)
    requires Given(p, OrderTypeField) && Given(q, OrderTypeField) ==> Upper(p[OrderTypeField].value) == Upper(q[OrderTypeField].value)
    requires Given(p, SideField) && Given(q, SideField) ==> Upper(p[SideField].value) == Upper(q[SideField].value)
    ensures ValidateOrderRequest(p) == ValidateOrderRequest(q)
  {
    FirstMissingSame(p, q, RequiredFields, 0);
  }

  /** The type and the side of a request are matched regardless of case. */
  lemma RequestIgnoresCase(params: map<Field, Option<string>>, orderType: string, side: string)
    ensures ValidateOrderRequest(params[OrderTypeField := Some(Lower(orderType))][SideField := Some(Lower(side))])
         == ValidateOrderRequest(params[OrderTypeField := Some(orderType)][SideField := Some(side)])
  {
    var lower := params[OrderTypeField := Some(Lower(orderType))][SideField := Some(Lower(side))];
    var given := params[OrderTypeField := Some(orderType)][SideField := Some(side)];
    UpperOfLower(orderType);
    UpperOfLower(side);
    RequestSeesUpperCase(lower, given);
  }
}

/** The book snapshot of backend/services/order_service.py: what the API
    shows of one symbol's order book. */
module OrderService {
  import opened Wrappers
  import opened Orders
  import opened Books
  import opened Engine

  /** The spread of the snapshot: best ask minus best bid when both are
      present and non-zero. Unlike `get_depth`, a zero spread is still
      shown. */
  function SnapshotSpread(bestBid: Option<real>, bestAsk: Option<real>): (r: Option<real>)
    ensures r.Some? <==> Reported(bestBid).Some? && Reported(bestAsk).Some?
    ensures r.Some? ==> bestBid.value + r.value == bestAsk.value
  {
    if Reported(bestBid).Some? && Reported(bestAsk).Some? then Some(bestAsk.value - bestBid.value) else None
  }

  /** `get_order_book_snapshot`: an unknown symbol gets empty sides and no
      best prices; otherwise up to `levels` rows per side, best first, the
      best prices when present and non-zero, and their spread. */
  method GetOrderBookSnapshot(engine: MatchingEngine, symbol: string, levels: int) returns (snap: Depth)
    requires engine.Valid() && engine.BookReady(symbol)
    ensures snap.symbol == symbol
    ensures symbol !in engine.books ==> snap == Depth(symbol, [], [], None, None, None)
    ensures symbol in engine.books ==>
      var b := engine.books[symbol];
      && snap.bids == Rows(b.bids, b.registry, levels) && snap.asks == Rows(b.asks, b.registry, levels)
      && snap.bestBid == Reported(b.GetBestBid()) && snap.bestAsk == Reported(b.GetBestAsk())
      && snap.spread == SnapshotSpread(b.GetBestBid(), b.GetBestAsk())
  {
    if symbol !in engine.books {
      return Depth(symbol, [], [], None, None, None);
    }
    var book := engine.books[symbol];
    var bids := book.GetPriceLevels(Buy, levels);
    var asks := book.GetPriceLevels(Sell, levels);
    var bestBid, bestAsk := book.GetBestBid(), book.GetBestAsk();
    snap := Depth(symbol, bids, asks, Reported(bestBid), Reported(bestAsk), SnapshotSpread(bestBid, bestAsk));
  }

  /** On a book the engine keeps (positive level prices, not crossed) the
      snapshot carries exactly what `get_depth` reports: the best prices are
      never zero and the spread is never zero. */
  lemma SnapshotIsDepth(b: OrderBook)
    requires Ready(b) && b.NotCrossed()
    ensures Reported(b.GetBestBid()) == b.GetBestBid() && Reported(b.GetBestAsk()) == b.GetBestAsk()
    ensures SnapshotSpread(b.GetBestBid(), b.GetBestAsk()) == Reported(b.Spread())
  {
    ReadySide(b, Buy);
    ReadySide(b, Sell);
  }
}

=== FILE: price_level.dfy ===
/** A FIFO queue of resting orders at one price on one side
    (backend/core/price_level.py). The queue holds order ids: the order
    records themselves live in the book's registry, which is how the source's
    deque and registry share one `Order` object. `index` is the key set of
    the source's `_order_map`. */
module PriceLevels {
  import opened Wrappers
  import opened Errors
  import opened Seqs
  import opened Orders

  datatype PriceLevel = PriceLevel(price: real, side: Side, orders: seq<OrderId>, index: set<OrderId>)

  /** The id map and the deque hold the same orders, each once. */
  ghost predicate Valid(l: PriceLevel)
  {
    NoDup(l.orders) && forall id :: id in l.index <==> id in l.orders
  }

  /** `PriceLevel(price, side)`: an empty level. */
  function NewLevel(price: real, side: Side): (l: PriceLevel)
    ensures Valid(l) && IsEmpty(l) && l.price == price && l.side == side
  {
    PriceLevel(price, side, [], {})
  }

  /** `add_order`: refuses an order of another price or side, or one already
      queued here; otherwise appends it at the tail. */
  function AddOrder(l: PriceLevel, o: Order): (r: Result<PriceLevel, Error>)
    ensures r.Err? <==> o.price != Some(l.price) || o.side != l.side || o.id in l.index
    ensures r.Err? ==> r.error.ValueError?
    ensures r.Ok? ==> r.value.orders == l.orders + [o.id] && r.value.price == l.price && r.value.side == l.side
    ensures r.Ok? && Valid(l) ==> Valid(r.value)
  {
    if o.price != Some(l.price) then Err(ValueError(PriceMismatch))
    else if o.side != l.side then Err(ValueError(SideMismatch))
    else if o.id in l.index then Err(ValueError(AlreadyAtLevel))
    else Ok(l.(orders := l.orders + [o.id], index := l.index + {o.id}))
  }

  /** `remove_order`: an unknown id gives None and the same level; a queued
      id leaves both the map and the deque, the others keeping their order. */
  function RemoveOrder(l: PriceLevel, id: OrderId): (r: (PriceLevel, Option<OrderId>))
    ensures id !in l.index ==> r == (l, None)
    ensures id in l.index ==> r.1 == Some(id) && r.0.price == l.price && r.0.side == l.side
    ensures id in l.index && Valid(l) ==>
      && Valid(r.0)
      && r.0.orders == RemoveAt(l.orders, IndexOf(l.orders, id))
      && (forall x :: x in r.0.orders <==> x in l.orders && x != id)
  {
    if id !in l.index then (l, None)
    else
      var orders := if id in l.orders then RemoveAt(l.orders, IndexOf(l.orders, id)) else l.orders;
      assert Valid(l) ==> Valid(l.(orders := orders, index := l.index - {id})) by {
        if Valid(l) { RemoveAtNoDup(l.orders, IndexOf(l.orders, id)); }
      }
      (l.(orders := orders, index := l.index - {id}), Some(id))
  }

  /** `get_next_order`: the head of the queue, if any. */
  function GetNextOrder(l: PriceLevel): (r: Option<OrderId>)
    ensures r.None? <==> l.orders == []
    ensures r.Some? ==> r.value == l.orders[0]
  {
    if l.orders == [] then None else Some(l.orders[0])
  }

  /** `pop_next_order`: takes the head off the queue and out of the map. */
  function PopNextOrder(l: PriceLevel): (r: (PriceLevel, Option<OrderId>))
    ensures l.orders == [] ==> r == (l, None)
    ensures l.orders != [] ==> r.1 == Some(l.orders[0]) && r.0.orders == l.orders[1..]
    ensures l.orders != [] && Valid(l) ==> Valid(r.0) && r.0.index == l.index - {l.orders[0]}
  {
    if l.orders == [] then (l, None)
    else (l.(orders := l.orders[1..], index := l.index - {l.orders[0]}), Some(l.orders[0]))
  }

  /** The ids a level hands out when popped until empty. */
  function Drain(l: PriceLevel): seq<OrderId>
    decreases |l.orders|
  {
    match PopNextOrder(l)
    case (_, None) => []
    case (rest, Some(id)) => [id] + Drain(rest)
  }

  /** Popping hands the orders out exactly in queue order. */
  lemma {:induction false} DrainIsQueueOrder(l: PriceLevel)
    ensures Drain(l) == l.orders
    decreases |l.orders|
  {
    if l.orders != [] {
      DrainIsQueueOrder(PopNextOrder(l).0);
    }
  }

  /** Time priority: an order added to a level is popped after every order
      that was already queued there. */
  lemma FifoAfterAdd(l: PriceLevel, o: Order)
    requires AddOrder(l, o).Ok?
    ensures Drain(AddOrder(l, o).value) == Drain(l) + [o.id]
  {
    DrainIsQueueOrder(l);
    DrainIsQueueOrder(AddOrder(l, o).value);
  }

  /** Sum of the remaining quantities of the given orders. */
  function SumRemaining(ids: seq<OrderId>, registry: map<OrderId, Order>): real
    requires forall id :: id in ids ==> id in registry
  {
    if ids == [] then 0.0 else registry[ids[0]].remaining + SumRemaining(ids[1..], registry)
  }

  lemma {:induction false} SumRemainingAppend(a: seq<OrderId>, b: seq<OrderId>, registry: map<OrderId, Order>)
    requires forall id :: id in a + b ==> id in registry
    ensures SumRemaining(a + b, registry) == SumRemaining(a, registry) + SumRemaining(b, registry)
  {
    if a == [] {
      assert a + b == b;
    } else {
      assert (a + b)[0] == a[0] && (a + b)[1..] == a[1..] + b;
      SumRemainingAppend(a[1..], b, registry);
    }
  }

  lemma {:induction false} SumRemainingPositive(ids: seq<OrderId>, registry: map<OrderId, Order>)
    requires forall id :: id in ids ==> id in registry && registry[id].remaining > 0.0
    ensures ids != [] <==> SumRemaining(ids, registry) > 0.0
    ensures SumRemaining(ids, registry) >= 0.0
  {
    if ids != [] {
      SumRemainingPositive(ids[1..], registry);
    }
  }

  /** `total_volume`: the remaining quantity resting at this level. */
  function TotalVolume(l: PriceLevel, registry: map<OrderId, Order>): (v: real)
    requires forall id :: id in l.orders ==> id in registry
    ensures l.orders == [] ==> v == 0.0
    ensures |l.orders| == 1 ==> v == registry[l.orders[0]].remaining
  {
    assert |l.orders| == 1 ==> l.orders[1..] == [] && SumRemaining(l.orders[1..], registry) == 0.0;
    SumRemaining(l.orders, registry)
  }

  /** The volume of a level whose orders all have something left is
      positive exactly when the level is not empty. */
  lemma VolumePositiveIffNonEmpty(l: PriceLevel, registry: map<OrderId, Order>)
    requires forall id :: id in l.orders ==> id in registry && registry[id].remaining > 0.0
    ensures TotalVolume(l, registry) >= 0.0
    ensures TotalVolume(l, registry) > 0.0 <==> !IsEmpty(l)
  {
    SumRemainingPositive(l.orders, registry);
  }

  /** Adding an order raises the level's volume by that order's remainder. */
  lemma VolumeAfterAdd(l: PriceLevel, o: Order, registry: map<OrderId, Order>)
    requires AddOrder(l, o).Ok?
    requires (forall id :: id in l.orders ==> id in registry) && o.id in registry
    ensures TotalVolume(AddOrder(l, o).value, registry) == TotalVolume(l, registry) + registry[o.id].remaining
  {
    SumRemainingAppend(l.orders, [o.id], registry);
  }

  /** Removing a queued order lowers the level's volume by that order's remainder. */
  lemma VolumeAfterRemove(l: PriceLevel, id: OrderId, registry: map<OrderId, Order>)
    requires Valid(l) && id in l.index
    requires forall x :: x in l.orders ==> x in registry
    ensures TotalVolume(RemoveOrder(l, id).0, registry) == TotalVolume(l, registry) - registry[id].remaining
  {
    var i := IndexOf(l.orders, id);
    assert l.orders == l.orders[..i] + ([l.orders[i]] + l.orders[i + 1..]);
    SumRemainingAppend(l.orders[..i], [l.orders[i]] + l.orders[i + 1..], registry);
    SumRemainingAppend([l.orders[i]], l.orders[i + 1..], registry);
    SumRemainingAppend(l.orders[..i], l.orders[i + 1..], registry);
  }

  /** `is_empty`. */
  predicate IsEmpty(l: PriceLevel)
  {
    |l.orders| == 0
  }

  /** `order_count`: the number of queued orders, which for a valid level
      is also the size of the id map. */
  function OrderCount(l: PriceLevel): (n: nat)
    ensures Valid(l) ==> n == |l.index|
    ensures n == 0 <==> IsEmpty(l)
  {
    IndexCountMatches(l);
    |l.orders|
  }

  lemma {:induction false} IndexCountMatches(l: PriceLevel)
    ensures Valid(l) ==> |l.orders| == |l.index|
    decreases |l.orders|
  {
    if Valid(l) && l.orders != [] {
      var rest := l.(orders := l.orders[1..], index := l.index - {l.orders[0]});
      assert Valid(rest);
      IndexCountMatches(rest);
    }
  }
}

=== FILE: results.dfy ===
/** What `submit_order` hands back (`OrderResult` in backend/core/order.py)
    and the message `_generate_result_message` puts in it
    (backend/core/matching_engine.py). The timestamp is not modelled. */
module Results {
  import opened Orders
  import opened Trades

  /** The human-readable message, by case; the numbers it quotes are kept. */
  datatype Message =
    | FullyFilled(filled: real)
    | PartiallyFilled(filled: real, quantity: real)
    | CancelledNoFill
    | AddedToBook
    | Processed

  datatype OrderResult = OrderResult(order: Order, trades: seq<Trade>, status: Status, message: Message)

  /** `OrderResult.is_successful`: the order is FILLED, PARTIAL or PENDING. */
  function IsSuccessful(r: OrderResult): (ok: bool)
    ensures ok <==> r.status !in {Cancelled, Rejected}
  {
    r.status == Filled || r.status == Partial || r.status == Pending
  }

  /** `_generate_result_message`: the first case that applies, in the
      source's order: filled, partly filled, cancelled, pending. */
  function ResultMessage(o: Order): (m: Message)
    ensures m.FullyFilled? ==> m.filled == o.filled
    ensures m.PartiallyFilled? ==> m.filled == o.filled && m.quantity == o.quantity
  {
    if IsFullyFilled(o) then FullyFilled(o.filled)
    else if o.filled > 0.0 then PartiallyFilled(o.filled, o.quantity)
    else if o.status == Cancelled then CancelledNoFill
    else if o.status == Pending then AddedToBook
    else Processed
  }

  /** How the engine leaves every order it processed: balanced, FILLED
      exactly when nothing remains, PARTIAL exactly when it traded but
      something remains, and never REJECTED. */
  ghost predicate Settled(o: Order)
  {
    && Balanced(o) && o.quantity > 0.0
    && (o.status == Filled <==> o.remaining == 0.0)
    && (o.status == Partial <==> o.filled > 0.0 && o.remaining > 0.0)
    && o.status != Rejected
  }

  /** For an order the engine settled, the message follows the status: it
      is never the catch-all "processed", it reports a fill exactly when
      the order is FILLED or PARTIAL, "added to book" exactly when it is
      PENDING, and "cancelled" exactly when the result is not successful. */
  lemma MessageOfSettled(o: Order, trades: seq<Trade>)
    requires Settled(o)
    ensures var r := OrderResult(o, trades, o.status, ResultMessage(o));
      && r.message != Processed
      && (r.message.FullyFilled? <==> o.status == Filled)
      && (r.message.PartiallyFilled? <==> o.status == Partial)
      && (r.message == AddedToBook <==> o.status == Pending)
      && (IsSuccessful(r) <==> r.message != CancelledNoFill)
  {
  }
}

=== FILE: seqs.dfy ===
/** Small facts about sequences used by the price levels and the book. */
module Seqs {

  /** No element occurs twice. */
  predicate NoDup<T(==)>(s: seq<T>)
  {
    forall i, j :: 0 <= i < j < |s| ==> s[i] != s[j]
  }

  /** Position of the first occurrence of `x`. */
  function IndexOf<T(==)>(s: seq<T>, x: T): (i: nat)
    requires x in s
    ensures i < |s| && s[i] == x && x !in s[..i]
  {
    if s[0] == x then 0 else 1 + IndexOf(s[1..], x)
  }

  /** `s` with its element at position `i` taken out; the rest keep their order. */
  function RemoveAt<T>(s: seq<T>, i: nat): (r: seq<T>)
    requires i < |s|
    ensures |r| == |s| - 1
    ensures forall k :: 0 <= k < i ==> r[k] == s[k]
    ensures forall k :: i <= k < |r| ==> r[k] == s[k + 1]
  {
    s[..i] + s[i + 1..]
  }

  lemma RemoveAtNoDup<T>(s: seq<T>, i: nat)
    requires i < |s| && NoDup(s)
    ensures NoDup(RemoveAt(s, i))
    ensures forall x :: x in RemoveAt(s, i) <==> x in s && x != s[i]
  {
    var r := RemoveAt(s, i);
    forall x | x in s && x != s[i] ensures x in r {
      var k :| 0 <= k < |s| && s[k] == x;
      if k < i { assert r[k] == x; } else { assert r[k - 1] == x; }
    }
  }
}

=== FILE: text.dfy ===
/** The few Python `str` methods the core relies on: `strip`, `upper` and
    `lower`, over Dafny strings (sequences of characters). */
module Text {

  /** Python's `str.isspace` for one character. */
  predicate IsSpace(c: char)
  {
    var n := c as int;
    (9 <= n <= 13) || (28 <= n <= 32) || n == 133 || n == 160 || n == 5760
    || (8192 <= n <= 8202) || n == 8232 || n == 8233 || n == 8239 || n == 8287 || n == 12288
  }

  /** `s.lstrip()`: drop leading whitespace. */
  function StripLeft(s: string): (r: string)
    ensures |r| <= |s|
  {
    if s != [] && IsSpace(s[0]) then StripLeft(s[1..]) else s
  }

  /** What `lstrip` keeps is a suffix that starts with a non-space, and
      what it drops is all whitespace. */
  lemma {:induction false} StripLeftSpec(s: string)
    ensures var r := StripLeft(s);
      && r == s[|s| - |r|..] && (r != [] ==> !IsSpace(r[0]))
      && forall i :: 0 <= i < |s| - |r| ==> IsSpace(s[i])
  {
    if s != [] && IsSpace(s[0]) {
      StripLeftSpec(s[1..]);
    }
  }

  /** `s.rstrip()`: drop trailing whitespace. */
  function StripRight(s: string): (r: string)
    ensures |r| <= |s|
  {
    if s != [] && IsSpace(s[|s| - 1]) then StripRight(s[..|s| - 1]) else s
  }

  /** What `rstrip` keeps is a prefix that ends with a non-space, and what
      it drops is all whitespace. */
  lemma {:induction false} StripRightSpec(s: string)
    ensures var r := StripRight(s);
      && r == s[..|r|] && (r != [] ==> !IsSpace(r[|r| - 1]))
      && forall i :: |r| <= i < |s| ==> IsSpace(s[i])
  {
    if s != [] && IsSpace(s[|s| - 1]) {
      StripRightSpec(s[..|s| - 1]);
    }
  }

  /** `s.strip()`. */
  function Strip(s: string): (r: string)
  {
    StripRight(StripLeft(s))
  }

  /** Python's `not s or not s.strip()`: the string is empty or all whitespace. */
  predicate IsBlank(s: string)
  {
    Strip(s) == []
  }

  lemma BlankIffAllSpace(s: string)
    ensures IsBlank(s) <==> forall i :: 0 <= i < |s| ==> IsSpace(s[i])
  {
    var l := StripLeft(s);
    StripLeftSpec(s);
    StripRightSpec(l);
    if !IsBlank(s) {
      assert l != [];
      assert !IsSpace(s[|s| - |l|]);
    }
  }

  /** Upper-casing of one character (ASCII letters only). */
  function UpperChar(c: char): (r: char)
    ensures 'a' <= c <= 'z' ==> r as int == c as int - 32
    ensures !('a' <= c <= 'z') ==> r == c
  {
    if 'a' <= c <= 'z' then (c as int - 32) as char else c
  }

  /** Lower-casing of one character (ASCII letters only). */
  function LowerChar(c: char): (r: char)
    ensures 'A' <= c <= 'Z' ==> r as int == c as int + 32
    ensures !('A' <= c <= 'Z') ==> r == c
  {
    if 'A' <= c <= 'Z' then (c as int + 32) as char else c
  }

  /** `s.upper()`. */
  function Upper(s: string): (r: string)
    ensures |r| == |s| && forall i :: 0 <= i < |s| ==> r[i] == UpperChar(s[i])
  {
    if s == [] then [] else [UpperChar(s[0])] + Upper(s[1..])
  }

  /** `s.lower()`. */
  function Lower(s: string): (r: string)
    ensures |r| == |s| && forall i :: 0 <= i < |s| ==> r[i] == LowerChar(s[i])
  {
    if s == [] then [] else [LowerChar(s[0])] + Lower(s[1..])
  }

  /** Upper-casing leaves whitespace whitespace and nothing else. */
  lemma UpperCharSpace(c: char)
    ensures IsSpace(UpperChar(c)) <==> IsSpace(c)
  {
  }

  /** Upper-casing twice is upper-casing once. */
  lemma UpperIdempotent(s: string)
    ensures Upper(Upper(s)) == Upper(s)
  {
    forall i | 0 <= i < |s|
      ensures Upper(Upper(s))[i] == Upper(s)[i]
    {
    }
  }

  /** Upper-casing forgets an earlier lower-casing: the two agree on
      every string up to case. */
  lemma UpperOfLower(s: string)
    ensures Upper(Lower(s)) == Upper(s)
  {
    forall i | 0 <= i < |s|
      ensures Upper(Lower(s))[i] == Upper(s)[i]
    {
    }
  }

  /** Lower-casing forgets an earlier upper-casing. */
  lemma LowerOfUpper(s: string)
    ensures Lower(Upper(s)) == Lower(s)
  {
    forall i | 0 <= i < |s|
      ensures Lower(Upper(s))[i] == Lower(s)[i]
    {
    }
  }
}

=== FILE: trade.dfy ===
/** The immutable execution record (backend/core/trade.py). The trade id
    (a fresh UUID) and the timestamp are not modelled. */
module Trades {
  import opened Wrappers
  import opened Errors
  import opened Text
  import opened Orders

  datatype Trade = Trade(
    symbol: string,
    price: real,
    quantity: real,
    aggressor: Side,
    makerId: OrderId,
    takerId: OrderId,
    makerFee: real,
    takerFee: real)

  /** The checks `__post_init__` makes on every trade. */
  predicate WellFormedTrade(t: Trade)
  {
    t.price > 0.0 && t.quantity > 0.0 && t.makerFee >= 0.0 && t.takerFee >= 0.0 && !IsBlank(t.symbol)
  }

  /** Construction: the frozen dataclass raises ValueError on the first
      failing check, in the source's order. */
  function NewTrade(
    symbol: string, price: real, quantity: real, aggressor: Side,
    makerId: OrderId, takerId: OrderId, makerFee: real, takerFee: real): (r: Result<Trade, Error>)
    ensures r.Ok? <==> WellFormedTrade(Trade(symbol, price, quantity, aggressor, makerId, takerId, makerFee, takerFee))
    ensures r.Ok? ==> r.value == Trade(symbol, price, quantity, aggressor, makerId, takerId, makerFee, takerFee)
    ensures price <= 0.0 ==> r == Err(ValueError(NonPositivePrice))
    ensures price > 0.0 && quantity <= 0.0 ==> r == Err(ValueError(NonPositiveQuantity))
  {
    if price <= 0.0 then Err(ValueError(NonPositivePrice))
    else if quantity <= 0.0 then Err(ValueError(NonPositiveQuantity))
    else if makerFee < 0.0 then Err(ValueError(NegativeMakerFee))
    else if takerFee < 0.0 then Err(ValueError(NegativeTakerFee))
    else if IsBlank(symbol) then Err(ValueError(BlankSymbol))
    else Ok(Trade(symbol, price, quantity, aggressor, makerId, takerId, makerFee, takerFee))
  }

  /** `total_value`: price times quantity, positive for every trade that
      construction accepts. */
  function TotalValue(t: Trade): (r: real)
    ensures WellFormedTrade(t) ==> r > 0.0
  {
    t.price * t.quantity
  }

  /** The value is additive in the quantity: two trades at one price are
      worth what one trade of their combined quantity is, as when an order
      is filled in two parts at the same level. */
  lemma TotalValueSplits(t: Trade, q1: real, q2: real)
    requires t.quantity == q1 + q2
    ensures TotalValue(t) == TotalValue(t.(quantity := q1)) + TotalValue(t.(quantity := q2))
  {
    assert t.price * (q1 + q2) == t.price * q1 + t.price * q2;
  }

  /** `maker_is_buyer`: the aggressor sold, so the maker is the buyer
      exactly when the aggressor is not. */
  function MakerIsBuyer(t: Trade): (r: bool)
    ensures r <==> t.aggressor != Buy
  {
    t.aggressor == Sell
  }

  /** `taker_is_buyer`: the aggressor bought; exactly one of maker and taker
      is the buyer. */
  function TakerIsBuyer(t: Trade): (r: bool)
    ensures r != MakerIsBuyer(t)
  {
    t.aggressor == Buy
  }

  const DefaultMakerFeeRate: real := 0.001
  const DefaultTakerFeeRate: real := 0.002

  /** `calculate_fees`: (maker fee, taker fee) as the total value times each rate. */
  function CalculateFees(t: Trade, makerRate: real, takerRate: real): (fees: (real, real))
    ensures makerRate == takerRate ==> fees.0 == fees.1
    ensures makerRate == 0.0 ==> fees.0 == 0.0
    ensures takerRate == 0.0 ==> fees.1 == 0.0
  {
    (TotalValue(t) * makerRate, TotalValue(t) * takerRate)
  }

  /** Fees scale the trade's value: whenever price and quantity are positive
      (so for every accepted trade) they are non-negative under non-negative
      rates, and a higher rate never gives a
      lower fee. */
  lemma FeesFollowRates(t: Trade, makerRate: real, takerRate: real)
    requires t.price > 0.0 && t.quantity > 0.0 && makerRate >= 0.0 && takerRate >= 0.0
    ensures CalculateFees(t, makerRate, takerRate).0 >= 0.0
    ensures CalculateFees(t, makerRate, takerRate).1 >= 0.0
    ensures makerRate <= takerRate ==> CalculateFees(t, makerRate, takerRate).0 <= CalculateFees(t, makerRate, takerRate).1
  {
    var v := TotalValue(t);
    ScaleNonNegative(v, makerRate);
    ScaleNonNegative(v, takerRate);
    if makerRate <= takerRate {
      ScaleMonotone(v, makerRate, takerRate);
    }
  }

  lemma ScaleNonNegative(v: real, r: real)
    requires v > 0.0 && r >= 0.0
    ensures v * r >= 0.0
  {
  }

  lemma ScaleMonotone(v: real, r1: real, r2: real)
    requires v > 0.0 && r1 <= r2
    ensures v * r1 <= v * r2
  {
    ScaleNonNegative(v, r2 - r1);
    assert v * r2 - v * r1 == v * (r2 - r1);
  }

  /** With the default rates a trade worth 100000 pays 100 as maker and 200
      as taker. */
  lemma DefaultFeesOnHundredThousand(t: Trade)
    requires TotalValue(t) == 100000.0
    ensures CalculateFees(t, DefaultMakerFeeRate, DefaultTakerFeeRate) == (100.0, 200.0)
  {
  }
}

=== FILE: validators.dfy ===
/** The input validators of backend/utils/validators.py. A validator either
    passes (the source returns True) or raises; prices and quantities are
    exact decimals, modelled as `real`. The `symbol` argument of the price
    and quantity checks only feeds the exception's details and is left out. */
module Validators {
  import opened Wrappers
  import opened Errors
  import opened Text

  /** The default bounds of `validate_price` and `validate_quantity`. */
  const MinPrice: real := 0.00000001
  const MaxPrice: real := 10000000.0
  const MinQuantity: real := 0.00000001
  const MaxQuantity: real := 1000000.0

  /** The order types and sides `validate_order_parameters` accepts, after
      upper-casing, and the types that must carry a price. */
  const OrderTypeNames: seq<string> := ["MARKET", "LIMIT", "IOC", "FOK"]
  const SideNames: seq<string> := ["BUY", "SELL"]
  const PricedTypeNames: seq<string> := ["LIMIT", "IOC", "FOK"]

  /** `validate_price`: a missing price passes unless it is required; a
      present one must be positive and within `[minPrice, maxPrice]`, and a
      non-positive one is reported as such before the bounds are looked at. */
  function ValidatePrice(price: Option<real>, required: bool, minPrice: real, maxPrice: real): (r: Outcome<Error>)
    ensures price.None? ==> (r.Pass? <==> !required)
    ensures price.None? && required ==> r == Fail(InvalidOrder(PriceRequired))
    ensures price.Some? ==> (r.Pass? <==> 0.0 < price.value && minPrice <= price.value <= maxPrice)
    ensures price.Some? && r.Fail? ==> r.error.PriceOutOfBounds?
    ensures price.Some? && price.value <= 0.0 ==> r == Fail(PriceOutOfBounds(NonPositivePrice))
  {
    if price.None? then (if required then Fail(InvalidOrder(PriceRequired)) else Pass)
    else if price.value <= 0.0 then Fail(PriceOutOfBounds(NonPositivePrice))
    else if price.value < minPrice then Fail(PriceOutOfBounds(BelowMinimum))
    else if price.value > maxPrice then Fail(PriceOutOfBounds(AboveMaximum))
    else Pass
  }

  /** `validate_quantity`: the quantity must be positive and within
      `[minQuantity, maxQuantity]`. */
  function ValidateQuantity(quantity: real, minQuantity: real, maxQuantity: real): (r: Outcome<Error>)
    ensures r.Pass? <==> 0.0 < quantity && minQuantity <= quantity <= maxQuantity
    ensures r.Fail? ==> r.error.InvalidQuantity?
    ensures quantity <= 0.0 ==> r == Fail(InvalidQuantity(NonPositiveQuantity))
  {
    if quantity <= 0.0 then Fail(InvalidQuantity(NonPositiveQuantity))
    else if quantity < minQuantity then Fail(InvalidQuantity(BelowMinimum))
    else if quantity > maxQuantity then Fail(InvalidQuantity(AboveMaximum))
    else Pass
  }

  /** With the default bounds, a present price passes exactly when it lies
      in `[MinPrice, MaxPrice]`, and a quantity exactly when it lies in
      `[MinQuantity, MaxQuantity]`: the positivity checks are subsumed. */
  lemma DefaultBounds(price: real, required: bool, quantity: real)
    ensures ValidatePrice(Some(price), required, MinPrice, MaxPrice).Pass? <==> MinPrice <= price <= MaxPrice
    ensures ValidateQuantity(quantity, MinQuantity, MaxQuantity).Pass? <==> MinQuantity <= quantity <= MaxQuantity
  {
  }

  /** The symbol as the validators compare it: stripped and upper-cased. */
  function Normalize(symbol: string): string
  {
    Upper(Strip(symbol))
  }

  /** Normalizing a normalized symbol changes nothing: upper-casing keeps
      the stripped ends non-blank, so the second strip removes nothing. */
  lemma NormalizeIdempotent(symbol: string)
    ensures Normalize(Normalize(symbol)) == Normalize(symbol)
  {
    var l := StripLeft(symbol);
    var t := StripRight(l);
    var u := Upper(t);
    StripLeftSpec(symbol);
    StripRightSpec(l);
    if u != [] {
      assert t[0] == l[0];
      UpperCharSpace(t[0]);
      UpperCharSpace(t[|t| - 1]);
      assert !IsSpace(u[0]) && !IsSpace(u[|u| - 1]);
    }
    assert StripLeft(u) == u;
    assert StripRight(u) == u;
    UpperIdempotent(t);
  }

  /** `validate_symbol`: an empty symbol is invalid; otherwise the stripped,
      upper-cased symbol needs at least three characters and, when a
      non-empty allowed list is given, must be in it. */
  function ValidateSymbol(symbol: string, allowed: Option<seq<string>>): (r: Outcome<Error>)
    ensures r.Pass? <==>
      && symbol != [] && |Normalize(symbol)| >= 3
      && (allowed.Some? && allowed.value != [] ==> Normalize(symbol) in allowed.value)
    ensures symbol == [] ==> r == Fail(InvalidSymbol(BlankSymbol))
    ensures symbol != [] && |Normalize(symbol)| < 3 ==> r == Fail(InvalidSymbol(SymbolTooShort))
    ensures r.Fail? ==> r.error.InvalidSymbol?
  {
    if symbol == [] then Fail(InvalidSymbol(BlankSymbol))
    else
      var s := Normalize(symbol);
      if |s| < 3 then Fail(InvalidSymbol(SymbolTooShort))
      else if allowed.Some? && allowed.value != [] && s !in allowed.value then Fail(InvalidSymbol(SymbolNotAllowed))
      else Pass
  }

  /** `validate_order_parameters`: the symbol is normalized and validated,
      the type and side are looked up upper-cased, then the quantity and the
      price are checked with the default bounds, the price being required
      for LIMIT, IOC and FOK. The first failing check decides the error; on
      success the normalized symbol, the quantity and the price come back. */
  function ValidateOrderParameters(symbol: string, orderType: string, side: string, quantity: real, price: Option<real>)
    : (r: Result<(string, real, Option<real>), Error>)
    ensures r.Ok? <==>
      && |Normalize(symbol)| >= 3
      && Upper(orderType) in OrderTypeNames && Upper(side) in SideNames
      && MinQuantity <= quantity <= MaxQuantity
      && (price.None? ==> Upper(orderType) == "MARKET")
      && (price.Some? ==> MinPrice <= price.value <= MaxPrice)
    ensures r.Ok? ==> r.value == (Normalize(symbol), quantity, price)
    ensures |Normalize(symbol)| < 3 ==> r.Err? && r.error.InvalidSymbol?
  {
    NormalizeIdempotent(symbol);
    var s := Normalize(symbol);
    var t := Upper(orderType);
    var v := ValidateSymbol(s, None);
    if v.Fail? then Err(v.error)
    else if t !in OrderTypeNames then Err(InvalidOrder(UnknownOrderType))
    else if Upper(side) !in SideNames then Err(InvalidOrder(UnknownSide))
    else
      var q := ValidateQuantity(quantity, MinQuantity, MaxQuantity);
      if q.Fail? then Err(q.error)
      else
        var p := ValidatePrice(price, t in PricedTypeNames, MinPrice, MaxPrice);
        if p.Fail? then Err(p.error)
        else Ok((s, quantity, price))
  }

  /** Type and side are matched regardless of case: spelling them in lower
      case gives the same outcome. */
  lemma ParametersIgnoreCase(symbol: string, orderType: string, side: string, quantity: real, price: Option<real>)
    ensures ValidateOrderParameters(symbol, Lower(orderType), Lower(side), quantity, price)
         == ValidateOrderParameters(symbol, orderType, side, quantity, price)
  {
    UpperOfLower(orderType);
    UpperOfLower(side);
  }

  /** With every other parameter valid, leaving the price out is accepted
      exactly for a MARKET order. */
  lemma PriceRequiredUnlessMarket(symbol: string, orderType: string, side: string, quantity: real)
    requires |Normalize(symbol)| >= 3 && Upper(orderType) in OrderTypeNames && Upper(side) in SideNames
    requires MinQuantity <= quantity <= MaxQuantity
    ensures ValidateOrderParameters(symbol, orderType, side, quantity, None).Ok?
        <==> Upper(orderType) !in PricedTypeNames
  {
  }
}

=== FILE: wrappers.dfy ===
/** Option, Result and Outcome: the model's stand-ins for Python's `None`,
    for a returned value or a raised exception, and for a check that either
    passes or raises. */
module Wrappers {

  datatype Option<+T> = None | Some(value: T)

  /** A value, or the exception the source would raise instead. */
  datatype Result<+R, +E> = Ok(value: R) | Err(error: E)

  /** A check that returns normally (`Pass`) or raises (`Fail`). */
  datatype Outcome<+E> = Pass | Fail(error: E)
}
